=== FILE: README.md ===
# IMDb movie query engine and movie schema, in Dafny

This project models two parts of a movie-data ingestion service.

The first is `IMDBCollector`, an in-memory query engine over three IMDb tables:

- `title.basics.tsv`: titles;
- `title.ratings.tsv`: ratings;
- `title.akas.tsv`: alternative titles and their languages.

The collector keeps only titles of type `movie`. It joins them with ratings on `tconst` and answers these queries:

- top-rated movies;
- popular movies, optionally from a minimum year;
- title and genre search;
- movies by resolved language;
- movies by genre set;
- the inventory of languages and of genres, with counts;
- a multi-filter query (rating, votes, year, runtime, genres).

It also gathers popular and top movies into one de-duplicated data frame and normalises that frame with the schema.

The second part is `MovieSchema`, the normaliser. Its `apply` does the following:

- trims text columns;
- canonicalises dates;
- coerces numeric columns;
- extracts names from lists of dictionaries;
- formats the first five cast and crew members;
- adds missing columns with defaults;
- projects the frame onto the sixteen required columns.

Its `validate` checks that every column is present and that each cell has the declared type.

Everything is modelled as pure functions over immutable values:

- **Tables** are sequences of row datatypes. A cell that pandas reads as NA is `None`. The IMDb `\N` token is not an NA marker for the reader, so it stays a literal string.
- **Language file:** the chunked reading of `title.akas.tsv` is a sequence of chunk reads. Each read is a chunk of rows or a read failure.
- **Data frames** in the schema are a column list plus rows mapping column names to tagged values (`Schema.Value`).
- **Ranked queries** are specified by what `sort_values(...).head(limit)` promises:
  - the result is sorted;
  - it is a sub-multiset of the candidates;
  - every kept row ranks at least as high as every dropped row.

Module layout:

- `wrappers.dfy`: `Option` and `Result`.
- `text.dfy`: strip, ASCII lower-casing, substring search, split/join, integer and decimal parsing, code-point order.
- `seqs.dfy`: boolean-mask selection.
- `counting.dfy`: first-seen-order tallies (Python dicts used as counters).
- `ranking.dfy`: descending sort and `head(limit)`.
- `tables.dfy`: the load with its movie filter, and the inner and left merges.
- `language.dfy`: `_get_movie_language`.
- `filters.dfy`: search, genre and range predicates.
- `queries.dfy`: the public queries and `_movie_to_dict`.
- `schema.dfy`: `MovieSchema`.
- `collect.dfy`: `collect_and_transform`.

Where the code and its documentation disagree, the model follows the code:

- The genre filter of `get_movies_with_filters` needs ANY overlap, although its docstring says "must match all".
- The language scan never accumulates counts across chunks.
- On a frequency tie, the language scan picks the code-point-smallest language, because pandas' `mode()` is sorted.
- The language scan looks only at the first original-title row.
- IMDb ids are strings, so a transformed collector frame never passes `validate`: the schema declares `id` an `int`.
- IMDb genres are plain strings, so `_extract_names` turns every IMDb genre list into `[]`.
- The year and runtime masks of `get_movies_with_filters` read decimal text such as "90.5" as a number, but building the record calls `int()`, which raises on it. Such a row takes one of the `limit` places and is then dropped, so the answer can be shorter than `limit` even when more rows pass the filters.
- `_clean_text` is not total: `pd.isna` of a list is an array, and `or` on an array of two or more items raises, so a text column holding such a list makes `apply` fail.

## Model

| member | source | states |
|---|---|---|
| Tables.LoadDatasets | src/ingestion/imdb_collector.py:30-89 | A missing basics file fails with BasicsNotFound before ratings are looked at. A missing ratings file fails with RatingsNotFound. Otherwise the movies are exactly the basics rows whose titleType is `movie`, each with the multiplicity it has in the basics file, and the ratings are kept whole. Order is kept too (Seqs.FilterPairwise). |
| Tables.InnerJoin | src/ingestion/imdb_collector.py:134 | A merged row is present iff it pairs a movie with a rating row of the same tconst. |
| Tables.LeftJoin | src/ingestion/imdb_collector.py:182-187 | A merged row is present iff its title is a movie and it either carries a rating with the same tconst, or carries no rating and no rating has that tconst. |
| Tables.LeftJoinKeepsTitles | src/ingestion/imdb_collector.py:182-187 | Every movie appears in the left merge, so unrated movies are kept. |
| Tables.PairCount | src/ingestion/imdb_collector.py:134 | Pairing a title with its matches yields each rating row as many times as it occurs, and nothing for another title. |
| Tables.RatingsForCount | src/ingestion/imdb_collector.py:134 | The ratings of an id keep every copy of a rating row with that tconst and no other row. |
| Tables.InnerRowsCount | src/ingestion/imdb_collector.py:134 | One title's part of the inner merge holds each matching rating row as often as the ratings table does. |
| Tables.InnerJoinCount | src/ingestion/imdb_collector.py:134 | A (title, rating) row with matching tconst occurs in the inner merge (title count) x (rating count) times, and any other row never: duplicate keys multiply. |
| Tables.LeftRowsCount | src/ingestion/imdb_collector.py:182-187 | One title's part of the left merge holds its matches counted as in the ratings table, or the title once, unrated, when it has no rating. |
| Tables.LeftJoinCount | src/ingestion/imdb_collector.py:182-187 | The left merge counts rated rows as the inner merge does, and holds an unrated title as often as the title occurs when it has no rating. |
| Tables.InnerJoinConcat | src/ingestion/imdb_collector.py:134 | The inner merge of a concatenation is the merge of each part in turn, so rows follow the left table's order. |
| Tables.LeftJoinConcat | src/ingestion/imdb_collector.py:182-187 | The left merge keeps the left table's order in the same way. |
| Tables.InnerIsRatedLeft | src/ingestion/imdb_collector.py:206-211 | The inner merge is exactly the rated part of the left merge. |
| Seqs.Filter | src/ingestion/imdb_collector.py:59 | Mask selection keeps exactly the rows satisfying the mask, as a sub-multiset. |
| Seqs.FilterCount | src/ingestion/imdb_collector.py:59 | Mask selection keeps every copy of an admitted row and none of a rejected one. |
| Seqs.FilterConcat | src/ingestion/imdb_collector.py:59 | Selection distributes over concatenation, so it keeps the rows' relative order. |
| Seqs.FilterCons | src/ingestion/imdb_collector.py:59 | Selection keeps the head row iff it satisfies the mask, then selects from the rest. |
| Seqs.FilterFirst | src/ingestion/imdb_collector.py:113-114 | The first row a selection keeps is the first row that satisfies the mask, so `iloc[0]` of a selection is that row. |
| Seqs.FilterFilter | src/ingestion/imdb_collector.py:110-113 | Selecting by one mask and then another is selecting once by both. |
| Seqs.FilterPairwise | src/ingestion/imdb_collector.py:138 | Any order relation between earlier and later rows survives a selection. |
| Ranking.SortDesc | src/ingestion/imdb_collector.py:141 | The descending sort yields a permutation of its input that is sorted by the key. |
| Ranking.InsertStable | src/ingestion/imdb_collector.py:442 | Inserting a row puts it ahead of every row with the same key, so rows of one key keep their order. |
| Ranking.SortStable | src/ingestion/imdb_collector.py:442 | The sort is stable: the rows sharing any one key come out in their input order, as pandas' multi-column sort (a lexsort) guarantees. |
| Ranking.TopN | src/ingestion/imdb_collector.py:141 | `sort_values(...).head(limit)` returns min(limit, n) rows, sorted and drawn from the input as a sub-multiset, and no dropped row outranks a kept one. |
| Language.Mode | src/ingestion/imdb_collector.py:119-121 | `mode().iloc[0]` is a most frequent language; among equally frequent ones it is the code-point-smallest. |
| Language.ModeUnique | src/ingestion/imdb_collector.py:121 | Any language with those two properties is the mode, so the mode is uniquely determined. |
| Language.Decide | src/ingestion/imdb_collector.py:110-121 | One chunk's decision for the id, characterised by the lemmas below: DecideSpec (when it decides, and with a carried language), FirstOriginalWins and FirstOriginalSilent (the first original-title row), DecideByMode and ModeWins (the mode). |
| Language.DecideSpec | src/ingestion/imdb_collector.py:110-121 | A chunk decides iff the id's rows in it carry a language, and the decision is a language one of the id's rows in the chunk carries. |
| Language.FirstOriginal | src/ingestion/imdb_collector.py:110-114 | The id's first original-title row in a chunk is `iloc[0]` of the chunk's original-title entries for the id. |
| Language.FirstOriginalWins | src/ingestion/imdb_collector.py:110-116 | When the id's first original-title row in the chunk has a language, that language is the decision, whatever the frequencies and whatever later original-title rows hold. |
| Language.FirstOriginalSilent | src/ingestion/imdb_collector.py:113-121 | When that first original-title row has no language, later original-title rows are not consulted and the decision is the mode of the id's languages in the chunk. |
| Language.DecideByMode | src/ingestion/imdb_collector.py:118-121 | When none of the id's rows in the chunk is an original-title row, the decision is the mode of the id's languages. Rows of other ids do not count, whatever they hold. |
| Language.Scanned | src/ingestion/imdb_collector.py:100-107 | The scan reads chunks until the first empty chunk or read failure, and every chunk it keeps is non-empty. |
| Language.ScanNoneIff | src/ingestion/imdb_collector.py:100-123 | The scan ends undecided iff no scanned chunk has a language for the id. |
| Language.ScanDecidedBy | src/ingestion/imdb_collector.py:100-121 | The first chunk whose rows for the id carry a language decides, and later chunks are never consulted. |
| Language.ResolveLanguage | src/ingestion/imdb_collector.py:91-126 | The result is `unknown` or a language carried by a row for the id. |
| Language.ResolveCarried | src/ingestion/imdb_collector.py:91-126 | A decided scan yields a language carried by some row for the id. |
| Language.ModeWins | src/ingestion/imdb_collector.py:100-121 | When the first chunk has no original-title row for the id, a language carried strictly more often than any other by the id's rows in it is the result. Rows of other ids may be mixed in. |
| Language.OriginalBeatsFrequency | src/ingestion/imdb_collector.py:114-116 | One original-title `fr` row beats two plain `en` rows. |
| Language.NoAccumulationAcrossChunks | src/ingestion/imdb_collector.py:100-121 | A later chunk's majority cannot override the first deciding chunk. |
| Language.BackslashNIsALanguage | src/ingestion/imdb_collector.py:119 | A literal `\N` language is not NA, so it can be the resolved language. |
| Text.Strip | src/models/schema.py:36 | `str.strip()` removes exactly the leading and trailing whitespace and keeps the inner text. |
| Text.StripIdempotent | src/models/schema.py:36 | Stripping twice equals stripping once. |
| Text.ContainsAt | src/ingestion/imdb_collector.py:176-177 | Substring search holds iff the pattern occurs at some position. |
| Text.ContainsIgnoreCaseInfix | src/ingestion/imdb_collector.py:176 | Any text containing the query, in any case, matches the case-insensitive search. |
| Text.JoinSplit | src/ingestion/imdb_collector.py:246 | Joining the comma-split parts with commas restores the string exactly. |
| Text.SplitJoin | src/ingestion/imdb_collector.py:350 | Splitting a join of comma-free parts returns those parts. |
| Text.ParseShowInt | src/ingestion/imdb_collector.py:244 | `int()` reads back every decimal rendering of an integer. |
| Text.ParseIntReal | src/ingestion/imdb_collector.py:413-427 | Text that `int()` accepts reads as the same number as a float, so the numeric mask and the later `int()` agree on it. |
| Text.DecimalText | src/ingestion/imdb_collector.py:423-459 | "90.5" is a number as a float but not as an int. |
| Text.LexLeTotal | src/ingestion/imdb_collector.py:121 | The code-point order used to break mode ties is total. |
| Text.LexLeAntisym | src/ingestion/imdb_collector.py:121 | The code-point order is antisymmetric, so a tie has one winner. |
| Filters.SearchMatch | src/ingestion/imdb_collector.py:175-178 | The search mask: the query occurs, ignoring ASCII case, in the primary or original title, or in the genres cell when genres are searched. Characterised by Filters.SearchFindsInfix and Text.ContainsIgnoreCaseInfix. |
| Filters.SearchFindsInfix | src/ingestion/imdb_collector.py:175-180 | A title containing the query, in any case, is a search match with or without the genre mask. |
| Filters.GenreMatch | src/ingestion/imdb_collector.py:320-327 | The genre mask: a non-NA cell whose lower-cased comma parts contain every requested genre (ALL) or some requested genre (ANY), lower-cased. Characterised by Filters.GenreMatchCorners, Filters.GenreMatchCaseInsensitive and Filters.AnyIsNotAll. |
| Filters.GenreMatchCorners | src/ingestion/imdb_collector.py:320-327 | NA genres never match. An empty request matches every non-NA genre cell under ALL and nothing under ANY. ALL implies ANY for a non-empty request. |
| Filters.SplitLower | src/ingestion/imdb_collector.py:323 | Lower-casing then splitting on commas equals splitting then lower-casing each part. |
| Filters.GenreMatchCaseInsensitive | src/ingestion/imdb_collector.py:317-323 | The genre match does not depend on the case of either the request or the cell. |
| Filters.AnyIsNotAll | src/ingestion/imdb_collector.py:324-327 | ANY and ALL differ: a request of one present and one absent genre matches under ANY but not under ALL. |
| Filters.PassesFilters | src/ingestion/imdb_collector.py:402-437 | The conjunction of the filter query's masks. Characterised by Filters.PassesFiltersSpec and Filters.FilterGenresAreAny. |
| Filters.PassesFiltersSpec | src/ingestion/imdb_collector.py:402-428 | A row passing the filters has rating >= min_rating and votes >= min_votes. When a year or runtime bound is given, that value is present, not `\N`, and decimal text. |
| Filters.NumericValue | src/ingestion/imdb_collector.py:413 | NA and `\N` read as NaN; any other cell reads as `float` reads it, and integer text as its integer. |
| Filters.EmptyRange | src/ingestion/imdb_collector.py:411-417 | A lower bound above the upper bound admits no value. |
| Filters.FilterGenresAreAny | src/ingestion/imdb_collector.py:431-437 | The filter query admits a movie sharing one requested genre even though it fails the ALL match its docstring announces. |
| Queries.UnratedLast | src/ingestion/imdb_collector.py:187 | In a list sorted by votes with NaN last, every row after an unrated row is unrated. |
| Queries.ReadIntCell | src/ingestion/imdb_collector.py:244-245 | A year or runtime cell reads as absent exactly when it is NA or the literal `\N`. |
| Queries.GenreList | src/ingestion/imdb_collector.py:246 | The genre list is empty iff the cell is NA. Otherwise joining it with commas gives back the cell, `\N` included. |
| Queries.MovieToDict | src/ingestion/imdb_collector.py:237-261 | The dictionary keeps the id. It is the error dictionary iff `int()` raises on the year or the runtime. Its language is `unknown` or carried by a row for the id. |
| Queries.MovieToDictRoundTrip | src/ingestion/imdb_collector.py:240-252 | Integer year and runtime cells read back as those integers, `\N` runtime as None, genres rejoin to the cell, and votes carry over. |
| Queries.Dicts | src/ingestion/imdb_collector.py:143 | The `[self._movie_to_dict(row) for ...]` list: one record per ranked row, the i-th from the i-th row. The same comprehension ends lines 164, 189, 213 and 338. |
| Queries.DictsFrom | src/ingestion/imdb_collector.py:143 | Every record has the id of one of the rows it was built from. |
| Queries.DictsVotesAtLeast | src/ingestion/imdb_collector.py:137-143 | Rows whose votes reach a bound give full records whose numVotes reach it. |
| Queries.DictsVotesOrder | src/ingestion/imdb_collector.py:162-164 | Converting vote-sorted rows to dictionaries keeps them sorted by numVotes. |
| Queries.DictsRatingOrder | src/ingestion/imdb_collector.py:141-143 | Converting rating-sorted rated rows keeps them sorted by averageRating, and every one carries a rating. |
| Queries.InterpolateBounds | src/ingestion/imdb_collector.py:137 | The linearly interpolated quantile lies between the two neighbouring order statistics. |
| Queries.Quantile80 | src/ingestion/imdb_collector.py:137 | The 0.8 quantile lies between the minimum and the maximum vote count, so the most voted movie always reaches it. |
| Queries.VoteThreshold | src/ingestion/imdb_collector.py:137 | `quantile(0.8)` of the merged vote counts. Characterised by Queries.Quantile80: it lies between the smallest and largest count, so Queries.TopCandidates is non-empty on a non-empty merge. |
| Queries.TopCandidates | src/ingestion/imdb_collector.py:134-138 | The candidates are exactly the joined rows with numVotes >= the 0.8 quantile, and a non-empty join gives a non-empty candidate set. |
| Queries.TopMovieRows | src/ingestion/imdb_collector.py:141 | Exactly min(limit, number of candidates) candidates, sorted by rating, none outranked by a dropped candidate, and non-empty when the join is non-empty and limit >= 1. |
| Queries.GetTopMovies | src/ingestion/imdb_collector.py:128-146 | Exactly min(limit, number of candidates) results. Every result, the error dictionary included, has the id of a candidate row, i.e. a joined row with numVotes at or above the threshold. Every full record carries a rating and those votes, in non-increasing rating order. |
| Queries.ReadMinYear | src/ingestion/imdb_collector.py:157-159 | An absent or empty `min_year` gives no filter. Otherwise `int(min_year)` either parses to the bound or raises. |
| Queries.YearAtLeast | src/ingestion/imdb_collector.py:157-159 | The year mask: a present, all-digit startYear whose value is at least the bound. Characterised by Queries.DictYearAtLeast: the record built from such a row has a year at least the bound. |
| Queries.DictYearAtLeast | src/ingestion/imdb_collector.py:157-164 | A row meeting the year mask gives a full record whose year is at least the bound. |
| Queries.DictsYearAtLeast | src/ingestion/imdb_collector.py:157-164 | Rows all meeting the year mask give full records that all have a year at least the bound. |
| Queries.PopularCandidates | src/ingestion/imdb_collector.py:154-159 | An unparsable `min_year` makes the query fail. Otherwise the candidates are the joined rows with an all-digit startYear >= min_year, or all joined rows. |
| Queries.PopularRows | src/ingestion/imdb_collector.py:154-162 | Exactly min(limit, number of candidates) candidate rows, none on a bad `min_year`, each meeting the year bound, sorted by votes, and no dropped candidate has more votes. |
| Queries.GetPopularMovies | src/ingestion/imdb_collector.py:148-167 | Exactly min(limit, number of candidates) results, none on a bad `min_year`. Every result, the error dictionary included, has the id of a candidate row. Full records are sorted non-increasing by numVotes, each with a year >= min_year when one is given. |
| Queries.RankLeft | src/ingestion/imdb_collector.py:182-187 | A left-merge ranking returns exactly min(limit, size of the left merge of the matching movies) rows, all matching movies, sorted by votes with unrated ones last, never dropping a better row. It is non-empty when some movie matches and limit >= 1. |
| Queries.SearchRows | src/ingestion/imdb_collector.py:175-187 | Exactly min(limit, size of the left merge of the matching movies) rows, every one a movie matching the search predicate, in vote order. |
| Queries.SearchMovies | src/ingestion/imdb_collector.py:169-192 | Every result has a title or original title containing the query case-insensitively, or a matching genres cell only when `filter_genre` is set. Results are sorted by votes, and there are exactly min(limit, size of the left merge of the matching movies) of them. |
| Queries.MoviesByLanguage | src/ingestion/imdb_collector.py:194-216 | Every result resolves to the requested code, carried by a row of its own when it is not `unknown`. Results are sorted by votes, and there are exactly min(limit, size of the left merge of the movies resolving to the code) of them. |
| Queries.MoviesByGenres | src/ingestion/imdb_collector.py:304-341 | Every result has a non-NA genres cell. Under ALL it contains every requested genre case-insensitively; under ANY, at least one. Results are sorted by votes, and there are exactly min(limit, size of the left merge of the matching movies) of them. |
| Queries.AvailableLanguages | src/ingestion/imdb_collector.py:218-235 | Each code other than empty and `unknown` that some movie resolves to appears once, with the number of movies resolving to it, in first-seen order. |
| Queries.GenreTokens | src/ingestion/imdb_collector.py:349-351 | The genre tokens are exactly the stripped comma parts of the non-NA genre cells. |
| Queries.ReorderedTally | src/ingestion/imdb_collector.py:356-358 | Sorting a tally keeps each genre once with its occurrence count. |
| Queries.CountOrder | src/ingestion/imdb_collector.py:358 | The stable sort by count leaves counts non-increasing, with ties in first-seen order. |
| Queries.AvailableGenres | src/ingestion/imdb_collector.py:343-362 | Each genre token appears once with its occurrence count, by descending count, ties in first-seen order. |
| Queries.StrictIntCell | src/ingestion/imdb_collector.py:455-459 | Only a literal `\N` reads as None. NA raises. |
| Queries.FilterCandidates | src/ingestion/imdb_collector.py:393-437 | The candidates are exactly the inner-merged rows passing every mask of the filter query. |
| Queries.FilterRows | src/ingestion/imdb_collector.py:442-445 | Exactly min(limit, number of candidates) candidates, sorted by (rating, votes) descending, and no dropped candidate ranks higher. |
| Queries.BoundedCell | src/ingestion/imdb_collector.py:413-427 | A cell that passed a year or runtime bound is present and not `\N`. `int()` on it either raises (decimal text) or gives a value inside the bounds. |
| Queries.DecimalRuntimeDropped | src/ingestion/imdb_collector.py:423-463 | A runtime of "90.5" reads as 90.5 and passes a minimum of 90, but `int()` raises on it, so the row takes a place in `head(limit)` and is then dropped. |
| Queries.AdmittedRecord | src/ingestion/imdb_collector.py:450-461 | A converted row that passed the masks satisfies every bound as a dictionary. |
| Queries.ConvertAll | src/ingestion/imdb_collector.py:449-463 | Conversion keeps exactly the rows whose conversion succeeds, one record per such row, each built from its row; it never adds one. |
| Queries.ConvertAllOrder | src/ingestion/imdb_collector.py:442-463 | Dropping failed conversions keeps the (rating, votes) order. |
| Queries.GetMoviesWithFilters | src/ingestion/imdb_collector.py:364-473 | At most `limit` records, all admitted by every filter, all loaded movies, in non-increasing (rating, votes) order. The records are exactly the conversions of the ranked rows that convert: one record per such row, each such row has its record in the answer, and every record comes from one. So when every candidate converts there are exactly min(limit, number of candidates). |
| Queries.ContradictoryBounds | src/ingestion/imdb_collector.py:411-417 | min_year > max_year gives an empty result. |
| Counting.Tally | src/ingestion/imdb_collector.py:221-226 | The counter dict holds each distinct key once, in first-seen order, with its number of occurrences. |
| Counting.FilterTally | src/ingestion/imdb_collector.py:228-232 | Filtering a tally keeps first-seen order and exact counts, and keeps exactly the keys that pass the filter. |
| Schema.RequiredNames | src/models/schema.py:13-30 | The sixteen required column names, in declared order. |
| Schema.CleanText | src/models/schema.py:32-36 | A string is stripped and anything else becomes `""`. The result has no whitespace at either end. |
| Schema.CleanTextCell | src/models/schema.py:32-36 | Cleaning a cell raises iff it is a list of two or more items; otherwise it gives the cleaned text, `""` for a non-string. |
| Schema.CleanTextIdempotent | src/models/schema.py:32-36 | Cleaning cleaned text changes nothing. |
| Schema.ParseDate | src/models/schema.py:43 | `strptime('%Y-%m-%d')` accepts only a real calendar date in years 1-9999. |
| Schema.ConvertDate | src/models/schema.py:38-45 | The result is a date string exactly when the input is a string that parses, and None otherwise. |
| Schema.ParseFormatDate | src/models/schema.py:43 | `strftime` output parses back to the same date. |
| Schema.ConvertDateIdempotent | src/models/schema.py:38-45 | Converting a converted date changes nothing. |
| Schema.CanonicalDateKept | src/models/schema.py:43 | A date already in canonical form is returned unchanged. |
| Schema.ConvertDateRejectsOverflow | src/models/schema.py:43-45 | A well-formed date whose day exceeds the month's length becomes None. |
| Schema.CleanNumeric | src/models/schema.py:53-60 | The result has the requested type. NA or a container gives 0. An int keeps its value under `int`, a float truncates towards zero, text gives its parsed value or 0 when it does not parse, and a bool gives 0 or 1. |
| Schema.CleanNumericIdempotent | src/models/schema.py:53-60 | Cleaning twice equals cleaning once, and the decimal text of an integer cleans to that integer. |
| Schema.CleanNumericKindsAgree | src/models/schema.py:53-60 | Integer text cleans to the same number as an int and as a float. |
| Schema.ExtractNames | src/models/schema.py:47-51 | A non-list gives `[]`. Otherwise there is one name per dictionary item, and the i-th name is the `name` (or `""`) of the i-th dictionary in list order. |
| Schema.NamesOfSelected | src/models/schema.py:51 | The names are exactly the `name` fields of the dictionaries selected from the list, position by position. |
| Schema.NamesOfConcat | src/models/schema.py:51 | The names of a concatenation are the names of each part in turn: order is kept and repeats are not collapsed. |
| Schema.NamesOfOne | src/models/schema.py:51 | One item: a dictionary gives its name or `""`, anything else gives nothing. |
| Schema.NamesOfStrings | src/models/schema.py:47-51 | A list of plain strings has no names. |
| Schema.People | src/models/schema.py:101-109 | Formatting succeeds iff the first five items are dictionaries. It then yields min(5, n) strings for a list and none for a non-list. The i-th string is `name as character` (cast) or `name (job)` (crew) of the i-th item. |
| Schema.EntryMissingKeys | src/models/schema.py:103-108 | A missing key reads as `''`: an entry with no keys renders as ` as ` or ` ()`, and a name with no second key renders as that name followed by ` as ` or ` ()`. |
| Schema.PeopleFirstFive | src/models/schema.py:104 | Items after the fifth never change the result, not even when they are not dictionaries. |
| Schema.CleanRow | src/models/schema.py:62-116 | A row cleans iff every required column's rule succeeds on it (RowOk, characterised by Schema.RowOkIff). The cleaned row has exactly the required keys, each holding the cleaned or defaulted value of that column. |
| Schema.FirstFailureSpec | src/models/schema.py:62-109 | Scanning the required columns in their declared order finds nothing iff every rule succeeds, and otherwise the error of the first column that fails. That order differs from `apply`'s, but the five columns that can fail (title, overview, original_language, cast, crew) come in the same relative order in both, so the error is the one `apply` raises. |
| Schema.CleanRowFirstError | src/models/schema.py:62-109 | A row that does not clean raises the error of the first failing column in declared order, which is also the first failing column `apply` visits (see Schema.FirstFailureSpec). |
| Schema.CellErrors | src/models/schema.py:32-109 | Only `_clean_text` (on a list of two or more items, AmbiguousTruth) and the cast and crew formatting (NotADict) can raise. |
| Schema.TextColumnsClean | src/models/schema.py:67-71 | A present text column whose rule succeeds holds no ambiguous cell. |
| Schema.CleanRowErrorKind | src/models/schema.py:67-109 | Text columns are cleaned before cast and crew, so a failing row raises AmbiguousTruth iff a present text cell is ambiguous, and NotADict otherwise. |
| Schema.Apply | src/models/schema.py:62-116 | The corrected apply (list default `[]` per row; Schema.ApplyAsWritten is the code as written). It succeeds iff every row cleans. The result has exactly the required columns in order, one row per input row, and each cell holds the cleaned value or the column's default. |
| Schema.ApplyAsWritten | src/models/schema.py:111-114 | With rows present and a list column missing, `df[col] = []` raises. Otherwise it behaves like Apply. |
| Schema.ApplyFillsMissing | src/models/schema.py:111-114 | A required column the frame lacks holds its type's default in every row: `[]` for a list column, otherwise 0, 0.0 or `"0"`. |
| Schema.RowOkIff | src/models/schema.py:32-109 | A row cleans iff no present text cell is a list of two or more items and each present cast and crew cell formats. |
| Schema.ApplyTyped | src/models/schema.py:62-116 | Every cell of an applied frame other than `id` has its declared type. |
| Schema.ApplyId | src/models/schema.py:111-114 | The `id` column passes through untouched, or defaults to 0 when missing. |
| Schema.Validate | src/models/schema.py:118-144 | Every required column is present and each of its non-missing cells has the column's type (a list for the list columns; `isinstance(x, int)` also accepts a bool). Characterised by Schema.ApplyValid and Collect.TransformFailsValidation. |
| Schema.ApplyValid | src/models/schema.py:118-144 | An applied frame validates iff every id cell is an int or NA. |
| Collect.Unique | src/ingestion/imdb_collector.py:272-279 | The de-duplicated list has pairwise distinct ids, draws its elements from the input, and loses no id. |
| Collect.UniqueKeepsFirst | src/ingestion/imdb_collector.py:276-279 | Each kept movie is the first occurrence of its id. |
| Collect.UniqueInOrder | src/ingestion/imdb_collector.py:274-279 | Any two kept movies appear in the input in the same order. |
| Collect.Deduplicate | src/ingestion/imdb_collector.py:272-279 | The loop with its seen-id set computes the de-duplicated list: distinct ids, none lost. |
| Collect.FromRecords | src/ingestion/imdb_collector.py:284 | The data frame has one row per dictionary, holding that dictionary's record. |
| Collect.ColumnsIff | src/ingestion/imdb_collector.py:284 | A column is present iff some dictionary has that key. |
| Collect.NoPeopleColumns | src/ingestion/imdb_collector.py:240-261 | A collected frame never has cast, crew, production_companies or keywords columns. |
| Collect.ApplyRecordsOk | src/ingestion/imdb_collector.py:284-288 | The corrected schema always succeeds on a collected frame. |
| Collect.RecordTextCells | src/ingestion/imdb_collector.py:284-288 | No text cell of a collected record is a list, so the text cleaning never raises on it. |
| Collect.AsWrittenEmpty | src/ingestion/imdb_collector.py:284-294 | With at least one collected movie, the as-written transform returns the empty frame. |
| Collect.AsWrittenLosesEverything | src/ingestion/imdb_collector.py:263-294 | Asked for two or more movies from a catalog holding one rated movie, `collect_and_transform` as written returns an empty frame. |
| Collect.TransformRows | src/ingestion/imdb_collector.py:284-290 | The corrected transform yields the required columns and one row per movie. Each row keeps its string id, and its genres become `[]`. |
| Collect.TransformFailsValidation | src/ingestion/imdb_collector.py:284-290 | A non-empty transformed frame fails `validate`, because its ids are strings. |
| Collect.CollectAsWritten | src/ingestion/imdb_collector.py:263-294 | `collect_and_transform` as written. Characterised by Collect.AsWrittenEmpty and Collect.AsWrittenLosesEverything: any non-empty collection gives the empty frame. |
| Collect.CollectAndTransform | src/ingestion/imdb_collector.py:263-294 | `collect_and_transform` with the corrected list default. Characterised by Collect.CollectRows. |
| Collect.CollectRows | src/ingestion/imdb_collector.py:263-290 | The result has one row per unique collected movie with distinct ids, and fails validation when non-empty. |

## Left out

- Reading files:
  - pandas' TSV reading, `os.path.exists` checks and chunked file I/O are left out. Tables arrive as sequences.
  - A missing basics or ratings file is an error result.
  - A failed or missing alternative-titles file is a `ReadFailure` chunk read.
- `__init__`, logging, `save_to_csv` and the `__main__` block are left out. They have no logic beyond I/O.
- Floating point:
  - ratings are exact `real`s;
  - the NaN that a left merge puts in `numVotes` sorts last and reads as 0 votes;
  - float rounding is not modelled.
- `str.contains` is a literal substring match: regular-expression metacharacters in a query are not interpreted.
- Case folding covers ASCII letters only.
- Schema.CleanNumeric: `int()` is read as accepting optional surrounding whitespace, an optional sign and ASCII digits. Underscores and non-ASCII digits are not modelled, so such text cleans to 0 here. The same reading of `int()` serves `Queries.ReadIntCell`, `Queries.StrictIntCell` and `Queries.ReadMinYear`.
- Queries.YearAtLeast: reads ASCII digits where the source's mask is `str.isnumeric`. A startYear such as `²` (or other non-ASCII numeric text) passes `isnumeric`. `astype(int)` then raises on `²`, so `get_popular_movies` returns `[]`, or converts Arabic-Indic digits to their value. The model drops such rows instead.
- Schema.CleanNumeric: the float parser behind `_clean_numeric` does not model exponents, `inf` or `nan`, so such text cleans to 0 here although `float()` reads it.
- Filters.NumericValue: reads integer and plain decimal text. Exponent forms such as `1e2`, `inf` and underscores read as NaN here, although `pd.to_numeric` reads them as numbers.
- Queries.FilterCandidates: inherits that gap, so a row whose year or runtime is written in exponent form is rejected by a bound it may pass in pandas. Queries.BoundedCell is unaffected: `int()` raises on such text as well.
- Schema.CleanTextCell: an empty list and a one-item list whose item is itself a list of two or more items are read as plain non-strings giving `""`. What pandas does for these depends on the NumPy version and the array shape.
- The text pandas prints for a non-string name, character or job inside an f-string is a parameter (`show`). It is not Python's `repr`.
- Schema.Apply: when several rows fail on different columns, the error is that of the first failing row, while pandas raises for the first failing column over all rows. `collect_and_transform` catches either, so nothing downstream depends on which.
- Schema.ConvertDate: pads years below 1000 to four digits. Some C libraries' `strftime('%Y')` does not pad such years. Non-ASCII digits accepted by `strptime` are not modelled.
- Schema.Validate: a pandas column of ints with NA becomes floats. This dtype inference is not modelled, so cells keep the type they were given.
- Queries.Quantile80: states that the threshold lies between the smallest and the largest vote count, not its exact rank. `Queries.InterpolateBounds` states the interpolation step.
- Tie order:
  - single-key `sort_values` is not stable, so contracts state sortedness and "no dropped row ranks higher", not the order among equal keys;
  - the model itself sorts stably (Ranking.SortStable), which is what the two-key sort of `get_movies_with_filters` guarantees;
  - `head(limit)` after that sort is not restated as a stability property of TopN.
- The error message inside the error dictionary of `_movie_to_dict` is the empty string. Only the presence of the error dictionary is modelled.
- `limit` is a `nat`, so negative `head()` arguments are not modelled. The HTTP routes bound limits to at least 1.
- `df.copy()` in `apply` leaves nothing to prove here: every value is immutable, so the input frame cannot change.
- The other modules of the repository are not part of this model: the TMDb client, the HTTP servers, the Airflow DAG and `main.py`.

## Findings

| source | as written | input that shows it | evidently intended | confidence | as-written member | corrected member |
|---|---|---|---|---|---|---|
| src/models/schema.py:114 | A missing list column is filled with `df[col] = []`. On a frame with rows this raises a length-mismatch ValueError, and `collect_and_transform` catches it and returns an empty DataFrame. | `collect_and_transform(2)` on a catalog with one rated movie: the movie dictionaries never carry `production_companies`, `cast`, `crew` or `keywords`. | Every row gets an empty list in the missing column. | not executed | Collect.AsWrittenLosesEverything | Schema.ApplyFillsMissing |

=== FILE: collect.dfy ===
/** `collect_and_transform`: half the requested number of popular movies
    and half of the top-rated ones, duplicates by id dropped keeping the
    first, turned into a frame and put through `MovieSchema.apply`. Any
    exception on the way yields an empty frame. */
module Collect {
  import opened Wrappers
  import opened Text
  import opened Seqs
  import opened Tables
  import Q = Queries
  import S = Schema

  // ---------------------------------------------------------------------
  // Dropping duplicate ids
  // ---------------------------------------------------------------------

  function IdsOf(ms: seq<Q.MovieDict>): set<String> {
    set i | 0 <= i < |ms| :: ms[i].id
  }

  lemma IdsOfSnoc(p: seq<Q.MovieDict>, x: Q.MovieDict)
    ensures IdsOf(p + [x]) == IdsOf(p) + {x.id}
  {
    var q := p + [x];
    forall id | id in IdsOf(q) ensures id in IdsOf(p) + {x.id} {
      var i :| 0 <= i < |q| && q[i].id == id;
      if i < |p| {
        assert q[i] == p[i];
      }
    }
    forall id | id in IdsOf(p) ensures id in IdsOf(q) {
      var i :| 0 <= i < |p| && p[i].id == id;
      assert q[i] == p[i];
    }
    assert q[|p|] == x;
  }

  /** The dictionaries whose id has not been seen before, in order. */
  function Unique(ms: seq<Q.MovieDict>): (r: seq<Q.MovieDict>)
    ensures forall i, j :: 0 <= i < j < |r| ==> r[i].id != r[j].id
    ensures forall d :: d in r ==> d in ms
    ensures IdsOf(r) == IdsOf(ms)
  {
    if |ms| == 0 then []
    else
      var init := ms[..|ms| - 1];
      var last := ms[|ms| - 1];
      var p := Unique(init);
      assert ms == init + [last];
      IdsOfSnoc(init, last);
      if last.id in IdsOf(init) then p
      else
        IdsOfSnoc(p, last);
        assert forall i :: 0 <= i < |p| ==> p[i].id in IdsOf(p);
        p + [last]
  }

  /** Each dictionary kept is the first one in `ms` with its id. */
  lemma {:induction false} UniqueKeepsFirst(ms: seq<Q.MovieDict>, j: int)
    requires 0 <= j < |Unique(ms)|
    ensures exists i :: 0 <= i < |ms| && ms[i] == Unique(ms)[j] && forall k :: 0 <= k < i ==> ms[k].id != ms[i].id
  {
    var init := ms[..|ms| - 1];
    var last := ms[|ms| - 1];
    var p := Unique(init);
    assert Unique(ms) == (if last.id in IdsOf(init) then p else p + [last]);
    if j < |p| {
      assert Unique(ms)[j] == p[j];
      UniqueKeepsFirst(init, j);
      var i :| 0 <= i < |init| && init[i] == p[j] && forall k :: 0 <= k < i ==> init[k].id != init[i].id;
      assert forall k :: 0 <= k <= i ==> ms[k] == init[k];
    } else {
      assert Unique(ms)[j] == last;
      forall k | 0 <= k < |ms| - 1 ensures ms[k].id != last.id {
        assert ms[k] == init[k];
        assert init[k].id in IdsOf(init);
      }
    }
  }

  /** Dropping duplicates keeps the input order: any two dictionaries kept
      appear in `ms` in the same order. */
  lemma {:induction false} UniqueInOrder(ms: seq<Q.MovieDict>, i: int, j: int)
    requires 0 <= i < j < |Unique(ms)|
    ensures exists a, b :: 0 <= a < b < |ms| && ms[a] == Unique(ms)[i] && ms[b] == Unique(ms)[j]
  {
    var init := ms[..|ms| - 1];
    var last := ms[|ms| - 1];
    var p := Unique(init);
    var r := Unique(ms);
    assert r == (if last.id in IdsOf(init) then p else p + [last]);
    assert forall k :: 0 <= k < |init| ==> ms[k] == init[k];
    if j < |p| {
      assert r[i] == p[i] && r[j] == p[j];
      UniqueInOrder(init, i, j);
      var a, b :| 0 <= a < b < |init| && init[a] == p[i] && init[b] == p[j];
      assert ms[a] == r[i] && ms[b] == r[j];
    } else {
      assert r[j] == last && r[i] == p[i];
      assert p[i] in init;
      var a :| 0 <= a < |init| && init[a] == p[i];
      assert ms[a] == r[i] && ms[|ms| - 1] == r[j];
    }
  }

  /** The loop of `collect_and_transform` over `popular + top`, with its
      set of ids already seen. */
  method Deduplicate(movies: seq<Q.MovieDict>) returns (out: seq<Q.MovieDict>)
    ensures out == Unique(movies)
    ensures forall i, j :: 0 <= i < j < |out| ==> out[i].id != out[j].id
    ensures IdsOf(out) == IdsOf(movies)
  {
    out := [];
    var seen: set<String> := {};
    var i := 0;
    while i < |movies|
      invariant 0 <= i <= |movies|
      invariant out == Unique(movies[..i])
      invariant seen == IdsOf(movies[..i])
    {
      assert movies[..i + 1][..i] == movies[..i];
      assert IdsOf(movies[..i + 1]) == seen + {movies[i].id} by {
        assert forall k :: 0 <= k < i ==> movies[..i + 1][k] == movies[..i][k];
      }
      if movies[i].id !in seen {
        out := out + [movies[i]];
        seen := seen + {movies[i].id};
      }
      i := i + 1;
    }
    assert movies[..i] == movies;
  }

  // ---------------------------------------------------------------------
  // pd.DataFrame(all_movies)
  // ---------------------------------------------------------------------

  function CellValue(c: Cell): S.Value {
    match c
    case Some(s) => S.Str(s)
    case None => S.Null
  }

  function StrList(xs: seq<String>): (r: S.Value)
    ensures r.List? && |r.items| == |xs|
    ensures forall i :: 0 <= i < |xs| ==> r.items[i] == S.Str(xs[i])
  {
    S.List(seq(|xs|, i requires 0 <= i < |xs| => S.Str(xs[i])))
  }

  /** Every key a collector dictionary can have. */
  const AllKeys: seq<String> :=
    ["id", "title", "originalTitle", "year", "runtime", "genres", "averageRating", "numVotes", "language", "error"]

  /** The keys of a collector dictionary, in insertion order. */
  function KeysOf(d: Q.MovieDict): (r: seq<String>)
    ensures "id" in r
    ensures forall c :: c in r ==> c in AllKeys
  {
    if d.MovieDict? then ["id", "title", "originalTitle", "year", "runtime", "genres", "averageRating", "numVotes", "language"]
    else ["id", "title", "error"]
  }

  /** One record of the frame. The text of an error dictionary's message is
      not modelled; the column is dropped by `apply` in any case. */
  function Record(d: Q.MovieDict): S.Row {
    match d
    case MovieDict(id, title, orig, year, runtime, genres, rating, votes, lang) =>
      map[
        "id" := S.Str(id),
        "title" := CellValue(title),
        "originalTitle" := CellValue(orig),
        "year" := (if year.Some? then S.Int(year.value) else S.Null),
        "runtime" := (if runtime.Some? then S.Int(runtime.value) else S.Null),
        "genres" := StrList(genres),
        "averageRating" := (if rating.Some? then S.Real(rating.value) else S.Null),
        "numVotes" := S.Int(votes),
        "language" := S.Str(lang)]
    case ErrorDict(id, title) =>
      map["id" := S.Str(id), "title" := CellValue(title), "error" := S.Str("")]
  }

  /** `a` followed by the names of `b` not in `a`. */
  function Union(a: seq<String>, b: seq<String>): (r: seq<String>)
    ensures forall c :: c in r <==> c in a || c in b
  {
    a + Filter(b, (x: String) => x !in a)
  }

  /** The union of key lists, each name where it is first seen. */
  function UnionAll(ls: seq<seq<String>>): (r: seq<String>)
    ensures forall c :: c in r <==> exists k :: 0 <= k < |ls| && c in ls[k]
  {
    if |ls| == 0 then []
    else
      var init := ls[..|ls| - 1];
      assert forall k :: 0 <= k < |init| ==> init[k] == ls[k];
      Union(UnionAll(init), ls[|ls| - 1])
  }

  /** The columns of a frame built from records: every key of every record,
      first seen first. */
  function Columns(ds: seq<Q.MovieDict>): seq<String> {
    UnionAll(seq(|ds|, k requires 0 <= k < |ds| => KeysOf(ds[k])))
  }

  lemma ColumnsIff(ds: seq<Q.MovieDict>, c: String)
    ensures c in Columns(ds) <==> exists k :: 0 <= k < |ds| && c in KeysOf(ds[k])
  {
    var ls := seq(|ds|, k requires 0 <= k < |ds| => KeysOf(ds[k]));
    assert forall k :: 0 <= k < |ds| ==> ls[k] == KeysOf(ds[k]);
  }

  function FromRecords(ds: seq<Q.MovieDict>): (f: S.Frame)
    ensures |f.rows| == |ds|
    ensures forall k :: 0 <= k < |ds| ==> f.rows[k] == Record(ds[k])
  {
    S.Frame(Columns(ds), seq(|ds|, k requires 0 <= k < |ds| => Record(ds[k])))
  }

  // ---------------------------------------------------------------------
  // collect_and_transform
  // ---------------------------------------------------------------------

  /** The de-duplicated dictionaries: `num // 2` popular movies with no year
      floor, then `num // 2` top-rated ones. */
  function Collected(cat: Q.Catalog, num: nat): seq<Q.MovieDict> {
    Unique(Q.GetPopularMovies(cat, num / 2, None) + Q.GetTopMovies(cat, num / 2))
  }

  /** The frame of the dictionaries `ds`, put through `apply` as written;
      the handler turns any exception into an empty frame. */
  function TransformAsWritten(show: S.Value -> String, ds: seq<Q.MovieDict>): S.Frame {
    match S.ApplyAsWritten(show, FromRecords(ds))
    case Ok(f) => f
    case Err(_) => S.Frame([], [])
  }

  /** The same with missing list columns filled by an empty list in each
      row. */
  function Transform(show: S.Value -> String, ds: seq<Q.MovieDict>): S.Frame {
    match S.Apply(show, FromRecords(ds))
    case Ok(f) => f
    case Err(_) => S.Frame([], [])
  }

  /** `collect_and_transform` as written. */
  function CollectAsWritten(show: S.Value -> String, cat: Q.Catalog, num: nat): S.Frame {
    TransformAsWritten(show, Collected(cat, num))
  }

  /** `collect_and_transform` with the corrected default. */
  function CollectAndTransform(show: S.Value -> String, cat: Q.Catalog, num: nat): S.Frame {
    Transform(show, Collected(cat, num))
  }

  /** Collector records have no cast, crew, production companies or
      keywords. */
  lemma NoPeopleKeys(d: Q.MovieDict)
    ensures "cast" !in KeysOf(d) && "crew" !in KeysOf(d)
    ensures "production_companies" !in KeysOf(d) && "keywords" !in KeysOf(d)
  {
  }

  lemma NoPeopleColumns(ds: seq<Q.MovieDict>)
    ensures "cast" !in Columns(ds) && "crew" !in Columns(ds)
    ensures "production_companies" !in Columns(ds) && "keywords" !in Columns(ds)
  {
    forall k | 0 <= k < |ds| ensures "cast" !in KeysOf(ds[k]) && "crew" !in KeysOf(ds[k])
      && "production_companies" !in KeysOf(ds[k]) && "keywords" !in KeysOf(ds[k])
    {
      NoPeopleKeys(ds[k]);
    }
    ColumnsIff(ds, "cast");
    ColumnsIff(ds, "crew");
    ColumnsIff(ds, "production_companies");
    ColumnsIff(ds, "keywords");
  }

  /** Every record has an `id`, so a frame with rows has that column. */
  lemma IdColumn(ds: seq<Q.MovieDict>)
    requires |ds| > 0
    ensures "id" in Columns(ds)
  {
    ColumnsIff(ds, "id");
    assert "id" in KeysOf(ds[0]);
  }

  /** A record's title is text or missing, and it has no overview or
      original-language cell, so no text cell is a list. */
  lemma RecordTextCells(d: Q.MovieDict)
    ensures !S.Ambiguous(S.Get(Record(d), "title"))
    ensures !S.Ambiguous(S.Get(Record(d), "overview"))
    ensures !S.Ambiguous(S.Get(Record(d), "original_language"))
  {
  }

  /** The schema never fails on collector records. */
  lemma {:induction false} ApplyRecordsOk(show: S.Value -> String, ds: seq<Q.MovieDict>)
    ensures S.Apply(show, FromRecords(ds)).Ok?
  {
    var f := FromRecords(ds);
    NoPeopleColumns(ds);
    forall k | 0 <= k < |f.rows| ensures S.RowOk(show, f.columns, f.rows[k]) {
      RecordTextCells(ds[k]);
      S.RowOkIff(show, f.columns, f.rows[k]);
    }
  }

  /** As written, a frame of one or more records loses everything: the
      cast column (among others) is missing and `df['cast'] = []` raises. */
  lemma {:induction false} AsWrittenEmpty(show: S.Value -> String, ds: seq<Q.MovieDict>)
    requires |ds| > 0
    ensures TransformAsWritten(show, ds) == S.Frame([], [])
  {
    NoPeopleColumns(ds);
    S.RequiredAt();
    assert S.MissingList(FromRecords(ds).columns);
  }

  /** The discrepancy: asked for two or more movies from a catalog holding
      one rated movie, the pipeline as written returns the empty frame. */
  lemma {:induction false} AsWrittenLosesEverything(show: S.Value -> String, cat: Q.Catalog, num: nat)
    requires num >= 2
    requires exists t, x :: t in cat.movies && x in cat.ratings && x.tconst == t.tconst
    ensures CollectAsWritten(show, cat, num) == S.Frame([], [])
  {
    var t, x :| t in cat.movies && x in cat.ratings && x.tconst == t.tconst;
    assert JoinedRow(t, Some(x)) in InnerJoin(cat.movies, cat.ratings);
    var rows := Q.TopMovieRows(cat, num / 2);
    assert |rows| > 0;
    var top := Q.GetTopMovies(cat, num / 2);
    assert top == Q.Dicts(cat.akas, rows);
    var all := Q.GetPopularMovies(cat, num / 2, None) + top;
    assert |all| > 0;
    var ds := Collected(cat, num);
    assert all[0].id in IdsOf(all);
    assert |ds| > 0;
    AsWrittenEmpty(show, ds);
  }

  lemma RecordId(d: Q.MovieDict)
    ensures S.Get(Record(d), "id") == S.Str(d.id)
  {
  }

  /** An IMDb genre list holds strings, not dictionaries, so it has no
      names to extract. */
  lemma RecordGenres(d: Q.MovieDict)
    ensures S.ExtractNames(S.Get(Record(d), "genres")) == []
  {
    if d.MovieDict? {
      assert S.Get(Record(d), "genres") == StrList(d.genres);
      S.NamesOfStrings(StrList(d.genres).items);
    }
  }

  lemma RecordTargetId(show: S.Value -> String, cols: seq<String>, d: Q.MovieDict)
    requires "id" in cols
    ensures S.TargetValue(show, cols, Record(d), 0) == S.Str(d.id)
  {
    assert S.Required[0].0 == "id";
    assert S.RuleOf("id") == S.Keep;
    RecordId(d);
  }

  lemma TargetGenres(show: S.Value -> String, cols: seq<String>, d: Q.MovieDict)
    ensures S.TargetValue(show, cols, Record(d), 11) == S.List([])
  {
    assert S.Required[11] == ("genres", S.ListCol);
    assert S.RuleOf("genres") == S.NamesRule;
    RecordGenres(d);
  }

  /** With the corrected default, the frame has the required columns and
      one row per record, carrying its id; the IMDb genre lists, being
      plain strings, come out empty. */
  lemma {:induction false} TransformRows(show: S.Value -> String, ds: seq<Q.MovieDict>, k: int)
    requires 0 <= k < |ds|
    ensures Transform(show, ds).columns == S.RequiredNames()
    ensures |Transform(show, ds).rows| == |ds|
    ensures S.Get(Transform(show, ds).rows[k], "id") == S.Str(ds[k].id)
    ensures S.Get(Transform(show, ds).rows[k], "genres") == S.List([])
  {
    var f := FromRecords(ds);
    ApplyRecordsOk(show, ds);
    var g := S.Apply(show, f).value;
    IdColumn(ds);
    S.RequiredAt();
    RecordTargetId(show, f.columns, ds[k]);
    TargetGenres(show, f.columns, ds[k]);
    assert f.rows[k] == Record(ds[k]);
  }

  /** The identifiers are IMDb's text ids while the schema declares `id` an
      integer, so a frame with rows never validates. */
  lemma {:induction false} TransformFailsValidation(show: S.Value -> String, ds: seq<Q.MovieDict>)
    requires |ds| > 0
    ensures !S.Validate(Transform(show, ds))
  {
    TransformRows(show, ds, 0);
    var g := Transform(show, ds);
    if S.Validate(g) {
      S.ValidIds(g, 0);
    }
  }

  /** The collected frame: one row per distinct id, first occurrence
      first, and it never validates. */
  lemma {:induction false} CollectRows(show: S.Value -> String, cat: Q.Catalog, num: nat)
    ensures |CollectAndTransform(show, cat, num).rows| == |Collected(cat, num)|
    ensures forall i, j :: 0 <= i < j < |Collected(cat, num)| ==>
      S.Get(CollectAndTransform(show, cat, num).rows[i], "id") != S.Get(CollectAndTransform(show, cat, num).rows[j], "id")
    ensures |Collected(cat, num)| > 0 ==> !S.Validate(CollectAndTransform(show, cat, num))
  {
    var ds := Collected(cat, num);
    if |ds| > 0 {
      TransformRows(show, ds, 0);
      TransformFailsValidation(show, ds);
    } else {
      ApplyRecordsOk(show, ds);
    }
    forall i, j | 0 <= i < j < |ds|
      ensures S.Get(Transform(show, ds).rows[i], "id") != S.Get(Transform(show, ds).rows[j], "id")
    {
      TransformRows(show, ds, i);
      TransformRows(show, ds, j);
    }
  }
}

=== FILE: counting.dfy ===
/** Occurrence counting into an insertion-ordered dictionary: the
    `if k not in d: d[k] = 0; d[k] += 1` loop the collector runs for genres
    and languages. The dictionary is an association list whose order is the
    order in which keys were first seen. */
module Counting {
  import opened Seqs

  /** The keys of an association list, in order. */
  function Keys<K>(t: seq<(K, nat)>): (ks: seq<K>)
    ensures |ks| == |t|
    ensures forall i :: 0 <= i < |t| ==> ks[i] == t[i].0
  {
    seq(|t|, i requires 0 <= i < |t| => t[i].0)
  }

  predicate Distinct<K(==)>(s: seq<K>) {
    forall i, j :: 0 <= i < j < |s| ==> s[i] != s[j]
  }

  /** Index of the first occurrence of `k` in `s`. */
  function FirstIndex<K(==,!new)>(s: seq<K>, k: K): (i: nat)
    requires k in s
    ensures i < |s| && s[i] == k && k !in s[..i]
  {
    if s[0] == k then 0
    else
      var j := FirstIndex(s[1..], k);
      assert s[..j + 1] == [s[0]] + s[1..][..j];
      j + 1
  }

  lemma FirstIndexPrefix<K(!new)>(s: seq<K>, n: nat, k: K)
    requires n <= |s| && k in s[..n]
    ensures FirstIndex(s, k) == FirstIndex(s[..n], k)
  {
    var i := FirstIndex(s[..n], k);
    var j := FirstIndex(s, k);
    assert s[..n][..i] == s[..i];
  }

  /** One step of the counting loop: `d[k] += 1`, inserting `k` at the end
      with count 0 first when it is new. */
  function Bump<K(==,!new)>(t: seq<(K, nat)>, k: K): (r: seq<(K, nat)>)
    requires Distinct(Keys(t))
    ensures k in Keys(t) ==> |r| == |t|
    ensures k !in Keys(t) ==> |r| == |t| + 1 && r[|t|] == (k, 1)
    ensures forall i :: 0 <= i < |t| ==> r[i].0 == t[i].0
    ensures forall i :: 0 <= i < |t| ==> r[i].1 == t[i].1 + (if t[i].0 == k then 1 else 0)
  {
    if |t| == 0 then [(k, 1)]
    else if t[0].0 == k then
      assert Keys(t)[0] == k;
      [(k, t[0].1 + 1)] + t[1..]
    else
      assert Keys(t) == [t[0].0] + Keys(t[1..]);
      assert Keys(t[1..]) == Keys(t)[1..];
      [t[0]] + Bump(t[1..], k)
  }

  /** What the counting loop leaves in its dictionary after reading `s`:
      one entry per distinct key of `s`, in first-seen order, carrying the
      number of occurrences of that key. */
  ghost predicate IsTally<K(!new)>(s: seq<K>, t: seq<(K, nat)>) {
    && Distinct(Keys(t))
    && (forall k :: k in s <==> k in Keys(t))
    && (forall i :: 0 <= i < |t| ==> t[i].1 == multiset(s)[t[i].0])
    && (forall i, j :: 0 <= i < j < |t| ==> FirstIndex(s, t[i].0) < FirstIndex(s, t[j].0))
  }

  lemma BumpKeys<K(!new)>(t: seq<(K, nat)>, k: K)
    requires Distinct(Keys(t))
    ensures Keys(Bump(t, k)) == if k in Keys(t) then Keys(t) else Keys(t) + [k]
    ensures Distinct(Keys(Bump(t, k)))
  {
  }

  lemma BumpCounts<K(!new)>(s: seq<K>, t: seq<(K, nat)>, k: K)
    requires IsTally(s, t)
    ensures forall i :: 0 <= i < |Bump(t, k)| ==> Bump(t, k)[i].1 == multiset(s + [k])[Bump(t, k)[i].0]
  {
    assert multiset(s + [k]) == multiset(s) + multiset{k};
  }

  lemma BumpOrder<K(!new)>(s: seq<K>, t: seq<(K, nat)>, k: K)
    requires IsTally(s, t)
    ensures forall i, j :: 0 <= i < j < |Bump(t, k)| ==>
      FirstIndex(s + [k], Bump(t, k)[i].0) < FirstIndex(s + [k], Bump(t, k)[j].0)
  {
    var s' := s + [k];
    var t' := Bump(t, k);
    assert s'[..|s|] == s;
    forall i | 0 <= i < |t|
      ensures FirstIndex(s', t[i].0) == FirstIndex(s, t[i].0)
    {
      assert t[i].0 in Keys(t);
      FirstIndexPrefix(s', |s|, t[i].0);
    }
    if k !in Keys(t) {
      assert k !in s;
      assert FirstIndex(s', k) == |s|;
    }
  }

  lemma BumpTally<K(!new)>(s: seq<K>, t: seq<(K, nat)>, k: K)
    requires IsTally(s, t)
    ensures IsTally(s + [k], Bump(t, k))
  {
    BumpKeys(t, k);
    BumpCounts(s, t, k);
    BumpOrder(s, t, k);
  }

  /** The counting loop run over `s`. */
  function Tally<K(==,!new)>(s: seq<K>): (t: seq<(K, nat)>)
    ensures IsTally(s, t)
  {
    if |s| == 0 then []
    else
      var init := s[..|s| - 1];
      assert s == init + [s[|s| - 1]];
      BumpTally(init, Tally(init), s[|s| - 1]);
      Bump(Tally(init), s[|s| - 1])
  }

  /** In a list with distinct keys no entry occurs twice. */
  lemma {:induction false} AtMostOnce<K(!new)>(t: seq<(K, nat)>, e: (K, nat))
    requires Distinct(Keys(t))
    ensures multiset(t)[e] <= 1
  {
    if |t| > 0 {
      assert t == [t[0]] + t[1..];
      assert Keys(t[1..]) == Keys(t)[1..];
      AtMostOnce(t[1..], e);
      if t[0] == e {
        assert e !in t[1..] by {
          forall i | 0 <= i < |t[1..]| ensures t[1..][i] != e {
            assert Keys(t)[0] != Keys(t)[i + 1];
          }
        }
      }
    }
  }

  /** An entry at two positions occurs at least twice. */
  lemma Twice<T>(s: seq<T>, i: nat, j: nat)
    requires i < j < |s| && s[i] == s[j]
    ensures multiset(s)[s[i]] >= 2
  {
    assert s == s[..j] + s[j..];
    assert s[i] in s[..j];
    assert s[j..] == [s[j]] + s[j + 1..];
  }

  /** Reordering an association list keeps its keys distinct. */
  lemma DistinctKeysPerm<K(!new)>(a: seq<(K, nat)>, b: seq<(K, nat)>)
    requires multiset(a) == multiset(b) && Distinct(Keys(b))
    ensures Distinct(Keys(a))
  {
    forall i, j | 0 <= i < j < |a| ensures Keys(a)[i] != Keys(a)[j] {
      if a[i].0 == a[j].0 {
        assert a[i] in multiset(b) && a[j] in multiset(b);
        var p :| 0 <= p < |b| && b[p] == a[i];
        var q :| 0 <= q < |b| && b[q] == a[j];
        assert Keys(b)[p] == Keys(b)[q];
        assert a[i] == a[j];
        Twice(a, i, j);
        AtMostOnce(b, a[i]);
      }
    }
  }

  /** Dropping entries from a tally keeps what is left a faithful count:
      distinct keys, true counts, first-seen order; a key stays exactly when
      the predicate holds of its entry. */
  lemma FilterTally<K(!new)>(s: seq<K>, t: seq<(K, nat)>, p: ((K, nat)) -> bool)
    requires IsTally(s, t)
    ensures Distinct(Keys(Filter(t, p)))
    ensures forall i :: 0 <= i < |Filter(t, p)| ==>
      Filter(t, p)[i].0 in s && Filter(t, p)[i].1 == multiset(s)[Filter(t, p)[i].0]
    ensures forall i, j :: 0 <= i < j < |Filter(t, p)| ==>
      FirstIndex(s, Filter(t, p)[i].0) < FirstIndex(s, Filter(t, p)[j].0)
    ensures forall k :: k in Keys(Filter(t, p)) <==> k in s && p((k, multiset(s)[k]))
  {
    var r := Filter(t, p);
    forall i, j | 0 <= i < j < |t| ensures t[i].0 != t[j].0 {
      assert Keys(t)[i] != Keys(t)[j];
    }
    FilterPairwise(t, p, (a: (K, nat), b: (K, nat)) => a.0 != b.0);
    forall i | 0 <= i < |t| ensures t[i].0 in s {
      assert Keys(t)[i] in Keys(t);
    }
    FilterPairwise(t, p, (a: (K, nat), b: (K, nat)) =>
      a.0 in s && b.0 in s && FirstIndex(s, a.0) < FirstIndex(s, b.0));
    forall i | 0 <= i < |r| ensures r[i].0 in s && r[i].1 == multiset(s)[r[i].0] {
      assert r[i] in t;
    }
    forall k ensures k in Keys(r) <==> k in s && p((k, multiset(s)[k])) {
      if k in Keys(r) {
        var i :| 0 <= i < |r| && Keys(r)[i] == k;
        assert r[i] in t && r[i] == (k, multiset(s)[k]);
      }
      if k in s && p((k, multiset(s)[k])) {
        var m :| 0 <= m < |t| && Keys(t)[m] == k;
        assert t[m] == (k, multiset(s)[k]);
        assert t[m] in r;
        var i :| 0 <= i < |r| && r[i] == t[m];
        assert Keys(r)[i] == k;
      }
    }
  }
}

=== FILE: filters.dfy ===
/** The row predicates of the collector's queries: case-insensitive search,
    the genre-set match, and the inclusive numeric bounds of
    `get_movies_with_filters`. */
module Filters {
  import opened Wrappers
  import opened Text
  import opened Tables

  // ---------------------------------------------------------------------
  // Search
  // ---------------------------------------------------------------------

  /** `col.str.contains(q, case=False, na=False)`: an NA cell never matches. */
  predicate CellContains(cell: Cell, q: String) {
    cell.Some? && ContainsIgnoreCase(cell.value, q)
  }

  /** `title_mask | genre_mask` of `search_movies`. */
  predicate SearchMatch(t: TitleRow, q: String, filterGenre: bool) {
    CellContains(t.primaryTitle, q) || CellContains(t.originalTitle, q)
    || (filterGenre && CellContains(t.genres, q))
  }

  /** A query written anywhere inside the primary title finds the row,
      whether or not genres are searched too. */
  lemma SearchFindsInfix(t: TitleRow, a: String, q: String, b: String, filterGenre: bool)
    requires t.primaryTitle == Some(a + q + b)
    ensures SearchMatch(t, q, filterGenre)
  {
    ContainsIgnoreCaseInfix(a, q, b);
  }

  // ---------------------------------------------------------------------
  // Genres
  // ---------------------------------------------------------------------

  /** A genres cell as the list `genres.split(',')` lower-cased. */
  function CellGenres(g: String): seq<String> {
    LowerAll(Split(g, ','))
  }

  /** `has_genres` of `get_movies_by_genres`: NA never matches; otherwise
      every (match_all) or some requested genre, lower-cased, is one of the
      movie's lower-cased comma-separated genres. The tokens are NOT
      stripped, so " Drama" does not match "drama". */
  predicate GenreMatch(cell: Cell, requested: seq<String>, matchAll: bool) {
    match cell
    case None => false
    case Some(g) =>
      var have := CellGenres(g);
      if matchAll then forall i :: 0 <= i < |requested| ==> Lower(requested[i]) in have
      else exists i :: 0 <= i < |requested| && Lower(requested[i]) in have
  }

  /** The corner cases of the genre match: NA never matches; an empty
      request matches every present cell under ALL and nothing under ANY;
      for a non-empty request ALL implies ANY. */
  lemma GenreMatchCorners(cell: Cell, requested: seq<String>)
    ensures !GenreMatch(None, requested, true) && !GenreMatch(None, requested, false)
    ensures |requested| == 0 ==> (GenreMatch(cell, requested, true) <==> cell.Some?)
    ensures |requested| == 0 ==> !GenreMatch(cell, requested, false)
    ensures |requested| > 0 && GenreMatch(cell, requested, true) ==> GenreMatch(cell, requested, false)
  {
    if |requested| > 0 && GenreMatch(cell, requested, true) {
      assert Lower(requested[0]) in CellGenres(cell.value);
    }
  }

  lemma LowerTail(s: String)
    requires |s| > 0
    ensures Lower(s)[0] == LowerChar(s[0]) && Lower(s)[1..] == Lower(s[1..])
  {
  }

  lemma LowerCons(c: char, t: String)
    ensures Lower([c] + t) == [LowerChar(c)] + Lower(t)
  {
  }

  lemma LowerAllCons(x: String, xs: seq<String>)
    ensures LowerAll([x] + xs) == [Lower(x)] + LowerAll(xs)
  {
  }

  /** One step of SplitLower when `s` starts with a comma. */
  lemma SplitLowerComma(s: String)
    requires |s| > 0 && s[0] == ','
    requires Split(Lower(s[1..]), ',') == LowerAll(Split(s[1..], ','))
    ensures Split(Lower(s), ',') == LowerAll(Split(s, ','))
  {
    var ls := Lower(s);
    LowerTail(s);
    assert ls[0] == ',';
    SplitStep(s, ',');
    SplitStep(ls, ',');
    assert Lower([]) == [];
    LowerAllCons([], Split(s[1..], ','));
  }

  /** One step of SplitLower when `s` starts with any other character,
      which lower-cases to a character that is not a comma either. */
  lemma SplitLowerOther(s: String)
    requires |s| > 0 && s[0] != ','
    requires Split(Lower(s[1..]), ',') == LowerAll(Split(s[1..], ','))
    ensures Split(Lower(s), ',') == LowerAll(Split(s, ','))
  {
    var ls := Lower(s);
    LowerTail(s);
    assert ls[0] == LowerChar(s[0]) != ',';
    SplitStep(s, ',');
    SplitStep(ls, ',');
    var rest := Split(s[1..], ',');
    var head := [s[0]] + rest[0];
    LowerCons(s[0], rest[0]);
    LowerAllCons(head, rest[1..]);
    assert LowerAll(rest) == [Lower(rest[0])] + LowerAll(rest[1..]) by {
      LowerAllCons(rest[0], rest[1..]);
      assert rest == [rest[0]] + rest[1..];
    }
  }

  /** Lower-casing commutes with splitting on a comma. */
  lemma {:induction false} SplitLower(s: String)
    ensures Split(Lower(s), ',') == LowerAll(Split(s, ','))
  {
    if |s| > 0 {
      SplitLower(s[1..]);
      if s[0] == ',' {
        SplitLowerComma(s);
      } else {
        SplitLowerOther(s);
      }
    }
  }

  /** The genre match is case-insensitive on both sides: lower-casing the
      request or the cell first changes nothing. */
  lemma GenreMatchCaseInsensitive(g: String, requested: seq<String>, matchAll: bool)
    ensures GenreMatch(Some(g), LowerAll(requested), matchAll) == GenreMatch(Some(g), requested, matchAll)
    ensures GenreMatch(Some(Lower(g)), requested, matchAll) == GenreMatch(Some(g), requested, matchAll)
  {
    forall i | 0 <= i < |requested| ensures Lower(LowerAll(requested)[i]) == Lower(requested[i]) {
      LowerIdempotent(requested[i]);
    }
    SplitLower(g);
    SplitLower(Lower(g));
    LowerIdempotent(g);
    var parts := Split(g, ',');
    forall i | 0 <= i < |parts| ensures Lower(Lower(parts[i])) == Lower(parts[i]) {
      LowerIdempotent(parts[i]);
    }
    assert CellGenres(Lower(g)) == CellGenres(g);
  }

  /** A two-genre cell splits into its two genres. */
  lemma GenresOfTwo(a: String, b: String)
    requires ',' !in a && ',' !in b
    ensures CellGenres(a + "," + b) == [Lower(a), Lower(b)]
  {
    SplitJoin([a, b], ',');
    assert Join([a, b], ',') == a + "," + b;
  }

  /** ALL and ANY differ: a movie of genres "a,c" asked for [a, b], where b
      is neither of its genres, matches under ANY but not under ALL. */
  lemma AnyIsNotAll(a: String, b: String, c: String)
    requires ',' !in a && ',' !in c
    requires Lower(b) != Lower(a) && Lower(b) != Lower(c)
    ensures GenreMatch(Some(a + "," + c), [a, b], false)
    ensures !GenreMatch(Some(a + "," + c), [a, b], true)
  {
    GenresOfTwo(a, c);
    assert Lower([a, b][0]) in CellGenres(a + "," + c);
    assert Lower([a, b][1]) !in CellGenres(a + "," + c);
  }

  // ---------------------------------------------------------------------
  // Numeric bounds of get_movies_with_filters
  // ---------------------------------------------------------------------

  /** `pd.to_numeric(col.replace('\\N', pd.NA), errors='coerce')` on one
      cell: NA, `\N` and text that is not a decimal number give NaN
      (`None`); integer and decimal text such as "90.5" give its value. */
  function NumericValue(cell: Cell): (r: Option<real>)
    ensures cell.None? || cell == Some("\\N") ==> r.None?
    ensures cell.Some? && cell != Some("\\N") ==> r == ParseReal(cell.value)
    ensures cell.Some? && cell != Some("\\N") && ParseInt(cell.value).Some? ==>
      r == Some(ParseInt(cell.value).value as real)
  {
    match cell
    case None => None
    case Some(s) =>
      ParseIntReal(s);
      if s == "\\N" then None else ParseReal(s)
  }

  /** The year/runtime filter: each given bound is inclusive, and NaN fails
      every comparison, so a missing value passes only when no bound is
      given. */
  predicate InRange(v: Option<real>, lo: Option<int>, hi: Option<int>) {
    && (lo.None? || (v.Some? && v.value >= lo.value as real))
    && (hi.None? || (v.Some? && v.value <= hi.value as real))
  }

  /** The arguments of `get_movies_with_filters`. A `genres` of None and an
      empty list behave alike (`if genres:`), so both are the empty list. */
  datatype FilterConfig = FilterConfig(
    genres: seq<String>,
    minRating: real,
    minVotes: int,
    minYear: Option<int>,
    maxYear: Option<int>,
    minRuntime: Option<int>,
    maxRuntime: Option<int>)

  /** The defaults of the signature: min_rating 5.0, min_votes 100. */
  const DefaultConfig := FilterConfig([], 5.0, 100, None, None, None, None)

  /** All masks of `get_movies_with_filters` on one inner-merged row. The
      genre mask is ANY, whatever its docstring says. */
  predicate PassesFilters(j: JoinedRow, cfg: FilterConfig) {
    && IsMovie(j.title)
    && j.rating.Some?
    && j.rating.value.averageRating >= cfg.minRating
    && j.rating.value.numVotes >= cfg.minVotes
    && InRange(NumericValue(j.title.startYear), cfg.minYear, cfg.maxYear)
    && InRange(NumericValue(j.title.runtimeMinutes), cfg.minRuntime, cfg.maxRuntime)
    && (|cfg.genres| == 0 || GenreMatch(j.title.genres, cfg.genres, false))
  }

  /** What a row passing the filters is known to satisfy. */
  lemma PassesFiltersSpec(j: JoinedRow, cfg: FilterConfig)
    requires PassesFilters(j, cfg)
    ensures j.rating.Some? && j.rating.value.averageRating >= cfg.minRating
    ensures j.rating.value.numVotes >= cfg.minVotes
    ensures cfg.minYear.Some? || cfg.maxYear.Some? ==>
      j.title.startYear.Some? && j.title.startYear.value != "\\N"
      && ParseReal(j.title.startYear.value).Some?
    ensures cfg.minRuntime.Some? || cfg.maxRuntime.Some? ==>
      j.title.runtimeMinutes.Some? && j.title.runtimeMinutes.value != "\\N"
      && ParseReal(j.title.runtimeMinutes.value).Some?
  {
  }

  /** Bounds that contradict each other admit nothing. */
  lemma EmptyRange(v: Option<real>, lo: int, hi: int)
    requires lo > hi
    ensures !InRange(v, Some(lo), Some(hi))
  {
  }

  /** The genre filter of get_movies_with_filters is ANY, not ALL: a movie
      with only one of two requested genres passes when it passes the rest. */
  lemma FilterGenresAreAny(j: JoinedRow, cfg: FilterConfig, a: String, b: String, c: String)
    requires ',' !in a && ',' !in c
    requires Lower(b) != Lower(a) && Lower(b) != Lower(c)
    requires j.title.genres == Some(a + "," + c) && cfg.genres == [a, b]
    requires IsMovie(j.title) && j.rating.Some?
    requires j.rating.value.averageRating >= cfg.minRating && j.rating.value.numVotes >= cfg.minVotes
    requires cfg.minYear.None? && cfg.maxYear.None? && cfg.minRuntime.None? && cfg.maxRuntime.None?
    ensures PassesFilters(j, cfg)
    ensures !GenreMatch(j.title.genres, cfg.genres, true)
  {
    AnyIsNotAll(a, b, c);
  }
}

=== FILE: language.dfy ===
/** Resolution of a movie's primary language from title.akas.tsv.

    The file is scanned chunk by chunk. The first chunk in which the id's
    rows carry a language decides: the language of the id's first
    original-title row when that row has one, otherwise the chunk's most
    frequent language (pandas `mode()` returns its values sorted, so the
    code-point-smallest of the most frequent ones). Nothing is carried from
    one chunk to the next. An empty chunk ends the scan; any failure while
    reading (including a missing file) gives 'unknown'. */
module Language {
  import opened Wrappers
  import opened Text
  import opened Seqs

  /** One row of title.akas.tsv, reduced to what the scan reads. `language`
      is `None` only when pandas reads the cell as NA; a literal `\N` is a
      language code like any other. `isOriginalTitle` holds when the cell
      compares equal to 1. */
  datatype AkaRow = AkaRow(titleId: String, language: Option<String>, isOriginalTitle: bool)

  /** One `pd.read_csv(f, nrows=chunk_size)` call: the rows it produced, or
      an exception. */
  datatype ChunkRead = Chunk(rows: seq<AkaRow>) | ReadFailure

  const Unknown: String := "unknown"

  function Count(s: seq<String>, x: String): nat {
    multiset(s)[x]
  }

  /** The best candidate among `cands` by (count in `s` descending, code
      point order ascending). */
  function Best(cands: seq<String>, s: seq<String>): (m: String)
    requires |cands| > 0
    ensures m in cands
    ensures forall x :: x in cands ==> Count(s, x) <= Count(s, m)
    ensures forall x :: x in cands && Count(s, x) == Count(s, m) ==> LexLe(m, x)
  {
    if |cands| == 1 then
      LexLeTotal(cands[0], cands[0]);
      cands[0]
    else
      var b := Best(cands[1..], s);
      var c := cands[0];
      assert cands == [c] + cands[1..];
      LexLeTotal(c, b);
      if Count(s, c) > Count(s, b) || (Count(s, c) == Count(s, b) && LexLe(c, b)) then
        assert LexLe(c, c) by { LexLeTotal(c, c); }
        forall x | x in cands[1..] && Count(s, x) == Count(s, c)
          ensures LexLe(c, x)
        {
          LexLeTrans(c, b, x);
        }
        c
      else
        b
  }

  /** `Series(s).mode().iloc[0]`: a most frequent value, the smallest in
      code-point order among equally frequent ones. */
  function Mode(s: seq<String>): (m: String)
    requires |s| > 0
    ensures m in s
    ensures forall x :: x in s ==> Count(s, x) <= Count(s, m)
    ensures forall x :: x in s && Count(s, x) == Count(s, m) ==> LexLe(m, x)
  {
    Best(s, s)
  }

  /** The mode is unique: any value with the mode's two properties is it. */
  lemma ModeUnique(s: seq<String>, m: String)
    requires |s| > 0 && m in s
    requires forall x :: x in s ==> Count(s, x) <= Count(s, m)
    requires forall x :: x in s && Count(s, x) == Count(s, m) ==> LexLe(m, x)
    ensures Mode(s) == m
  {
    var m' := Mode(s);
    LexLeAntisym(m, m');
  }

  /** `languages.dropna()`: the present language codes of `rows`, in order. */
  function Languages(rows: seq<AkaRow>): (r: seq<String>)
    ensures forall l :: l in r <==> exists x :: x in rows && x.language == Some(l)
  {
    if |rows| == 0 then []
    else
      assert rows == [rows[0]] + rows[1..];
      (if rows[0].language.Some? then [rows[0].language.value] else []) + Languages(rows[1..])
  }

  lemma LanguagesCons(x: AkaRow, rest: seq<AkaRow>)
    ensures Languages([x] + rest) == (if x.language.Some? then [x.language.value] else []) + Languages(rest)
  {
    assert ([x] + rest)[1..] == rest;
  }

  /** The rows of one chunk for `id`. */
  function EntriesFor(rows: seq<AkaRow>, id: String): (r: seq<AkaRow>)
    ensures forall x :: x in r <==> x in rows && x.titleId == id
  {
    Filter(rows, (x: AkaRow) => x.titleId == id)
  }

  /** The decision a single chunk makes for `id`, if any. */
  function Decide(rows: seq<AkaRow>, id: String): Option<String> {
    var entries := EntriesFor(rows, id);
    var originals := Filter(entries, (x: AkaRow) => x.isOriginalTitle);
    if |originals| > 0 && originals[0].language.Some? then Some(originals[0].language.value)
    else
      var langs := Languages(entries);
      if |langs| > 0 then Some(Mode(langs)) else None
  }

  /** The id has a row with a language in this chunk. */
  predicate HasLanguage(rows: seq<AkaRow>, id: String) {
    exists x :: x in rows && x.titleId == id && x.language.Some?
  }

  /** A chunk decides exactly when the id has a row with a language in it,
      and what it decides is a language one of the id's rows carries. */
  lemma DecideSpec(rows: seq<AkaRow>, id: String)
    ensures Decide(rows, id).Some? <==> HasLanguage(rows, id)
    ensures Decide(rows, id).Some? ==>
      exists x :: x in rows && x.titleId == id && x.language == Decide(rows, id)
  {
    var entries := EntriesFor(rows, id);
    var originals := Filter(entries, (x: AkaRow) => x.isOriginalTitle);
    if |originals| > 0 && originals[0].language.Some? {
      assert originals[0] in entries;
    } else if HasLanguage(rows, id) {
      var x :| x in rows && x.titleId == id && x.language.Some?;
      assert x.language.value in Languages(entries);
    }
  }

  /** The chunks the scan actually reads: up to, not including, the first
      failed read or empty chunk (`if chunk.empty: break`). */
  function Scanned(chunks: seq<ChunkRead>): (r: seq<seq<AkaRow>>)
    ensures |r| <= |chunks|
    ensures forall i :: 0 <= i < |r| ==> chunks[i] == Chunk(r[i]) && |r[i]| > 0
    ensures |r| < |chunks| ==> chunks[|r|] == ReadFailure || chunks[|r|] == Chunk([])
  {
    if |chunks| == 0 || chunks[0].ReadFailure? || |chunks[0].rows| == 0 then []
    else [chunks[0].rows] + Scanned(chunks[1..])
  }

  /** The loop over the chunks read, with `None` for "no chunk decided". */
  function ScanRows(sc: seq<seq<AkaRow>>, id: String): Option<String> {
    if |sc| == 0 then None
    else match Decide(sc[0], id)
      case Some(l) => Some(l)
      case None => ScanRows(sc[1..], id)
  }

  /** `_get_movie_language(id)`: the decision of the scan, or 'unknown'. */
  function ResolveLanguage(chunks: seq<ChunkRead>, id: String): (r: String)
    ensures r == Unknown || Carried(chunks, id, r)
  {
    ResolveCarried(chunks, id);
    ScanRows(Scanned(chunks), id).GetOr(Unknown)
  }

  lemma ResolveCarried(chunks: seq<ChunkRead>, id: String)
    ensures ScanRows(Scanned(chunks), id).Some? ==>
      Carried(chunks, id, ScanRows(Scanned(chunks), id).value)
  {
    var sc := Scanned(chunks);
    ScanCarried(sc, id);
    if ScanRows(sc, id).Some? {
      var i: int, x: AkaRow :| 0 <= i < |sc| && x in sc[i] && x.titleId == id && x.language == ScanRows(sc, id);
      assert chunks[i] in chunks;
    }
  }

  /** Some row for `id` in some chunk carries language `l`. */
  ghost predicate Carried(chunks: seq<ChunkRead>, id: String, l: String) {
    exists c, x :: c in chunks && c.Chunk? && x in c.rows && x.titleId == id && x.language == Some(l)
  }

  lemma {:induction false} ScanCarried(sc: seq<seq<AkaRow>>, id: String)
    ensures ScanRows(sc, id).Some? ==>
      exists i, x :: 0 <= i < |sc| && x in sc[i] && x.titleId == id && x.language == ScanRows(sc, id)
  {
    if |sc| > 0 {
      DecideSpec(sc[0], id);
      if Decide(sc[0], id).None? {
        ScanCarried(sc[1..], id);
        if ScanRows(sc, id).Some? {
          var i: int, x: AkaRow :| 0 <= i < |sc[1..]| && x in sc[1..][i] && x.titleId == id
                      && x.language == ScanRows(sc, id);
          assert sc[i + 1] == sc[1..][i];
        }
      } else {
        var x :| x in sc[0] && x.titleId == id && x.language == Decide(sc[0], id);
      }
    }
  }

  /** Totality: the result is 'unknown' by default exactly when no chunk the
      scan reads holds a row for the id with a language. */
  lemma {:induction false} ScanNoneIff(sc: seq<seq<AkaRow>>, id: String)
    ensures ScanRows(sc, id).None? <==> forall i :: 0 <= i < |sc| ==> !HasLanguage(sc[i], id)
  {
    if |sc| > 0 {
      if HasLanguage(sc[0], id) {
        ScanStops(sc, id);
        DecideSpec(sc[0], id);
      } else {
        ScanSkips(sc, id);
        ScanNoneIff(sc[1..], id);
        assert (forall i :: 0 <= i < |sc| ==> !HasLanguage(sc[i], id))
          <==> (forall i :: 0 <= i < |sc[1..]| ==> !HasLanguage(sc[1..][i], id)) by {
          assert forall i :: 1 <= i < |sc| ==> sc[i] == sc[1..][i - 1];
        }
      }
    }
  }

  /** Priority: the first read chunk holding a language for the id decides,
      by the original-title row first and the chunk's mode otherwise. */
  lemma {:induction false} ScanDecidedBy(sc: seq<seq<AkaRow>>, id: String, k: nat)
    requires k < |sc|
    requires HasLanguage(sc[k], id)
    requires forall i :: 0 <= i < k ==> !HasLanguage(sc[i], id)
    ensures ScanRows(sc, id) == Decide(sc[k], id)
  {
    if k == 0 {
      ScanStops(sc, id);
    } else {
      ScanSkips(sc, id);
      forall i | 0 <= i < k - 1 ensures !HasLanguage(sc[1..][i], id) {
        assert sc[1..][i] == sc[i + 1];
      }
      ScanDecidedBy(sc[1..], id, k - 1);
    }
  }

  lemma ScanStops(sc: seq<seq<AkaRow>>, id: String)
    requires 0 < |sc| && HasLanguage(sc[0], id)
    ensures ScanRows(sc, id) == Decide(sc[0], id)
  {
    DecideSpec(sc[0], id);
  }

  lemma ScanSkips(sc: seq<seq<AkaRow>>, id: String)
    requires 0 < |sc| && !HasLanguage(sc[0], id)
    ensures ScanRows(sc, id) == ScanRows(sc[1..], id)
  {
    DecideSpec(sc[0], id);
  }

  /** The id's first original-title row in a chunk heads the chunk's
      original-title entries. */
  lemma {:induction false} FirstOriginal(rows: seq<AkaRow>, id: String, i: int)
    requires 0 <= i < |rows| && rows[i].titleId == id && rows[i].isOriginalTitle
    requires forall k :: 0 <= k < i && rows[k].titleId == id ==> !rows[k].isOriginalTitle
    ensures var originals := Filter(EntriesFor(rows, id), (x: AkaRow) => x.isOriginalTitle);
      |originals| > 0 && originals[0] == rows[i]
  {
    var p := (x: AkaRow) => x.titleId == id;
    var q := (x: AkaRow) => x.isOriginalTitle;
    var both := (x: AkaRow) => p(x) && q(x);
    assert EntriesFor(rows, id) == Filter(rows, p);
    FilterFilter(rows, p, q, both);
    assert forall k :: 0 <= k < i ==> !both(rows[k]);
    FilterFirst(rows, both, i);
  }

  /** Within a chunk, the language of the id's first original-title row
      decides whatever the frequencies. */
  lemma {:induction false} FirstOriginalWins(rows: seq<AkaRow>, id: String, i: int, l: String)
    requires 0 <= i < |rows| && rows[i].titleId == id && rows[i].isOriginalTitle && rows[i].language == Some(l)
    requires forall k :: 0 <= k < i && rows[k].titleId == id ==> !rows[k].isOriginalTitle
    ensures Decide(rows, id) == Some(l)
  {
    FirstOriginal(rows, id, i);
  }

  /** When the id's first original-title row has no language, the later
      original-title rows are ignored and the chunk decides by the mode. */
  lemma {:induction false} FirstOriginalSilent(rows: seq<AkaRow>, id: String, i: int)
    requires 0 <= i < |rows| && rows[i].titleId == id && rows[i].isOriginalTitle && rows[i].language.None?
    requires forall k :: 0 <= k < i && rows[k].titleId == id ==> !rows[k].isOriginalTitle
    requires HasLanguage(rows, id)
    ensures Decide(rows, id) == Some(Mode(Languages(EntriesFor(rows, id))))
  {
    FirstOriginal(rows, id, i);
    DecideSpec(rows, id);
  }

  /** Example: the original-title row overrides frequency. */
  lemma OriginalBeatsFrequency()
    ensures ResolveLanguage([Chunk([AkaRow("X", Some("en"), false), AkaRow("X", Some("en"), false),
                                    AkaRow("X", Some("fr"), true)])], "X") == "fr"
  {
  }

  /** A chunk in which none of the id's rows is an original-title row
      decides by the mode of the id's languages; other ids' rows do not
      count. */
  lemma DecideByMode(rows: seq<AkaRow>, id: String)
    requires forall x :: x in rows && x.titleId == id ==> !x.isOriginalTitle
    requires HasLanguage(rows, id)
    ensures Decide(rows, id) == Some(Mode(Languages(EntriesFor(rows, id))))
  {
    DecideSpec(rows, id);
  }

  /** Without an original-title row for the id, the language carried
      strictly most often among the id's rows of the first chunk wins. */
  lemma ModeWins(rows: seq<AkaRow>, id: String, l: String)
    requires forall x :: x in rows && x.titleId == id ==> !x.isOriginalTitle
    requires l in Languages(EntriesFor(rows, id))
    requires forall m :: m in Languages(EntriesFor(rows, id)) && m != l ==>
      Count(Languages(EntriesFor(rows, id)), m) < Count(Languages(EntriesFor(rows, id)), l)
    ensures ResolveLanguage([Chunk(rows)], id) == l
  {
    var langs := Languages(EntriesFor(rows, id));
    var x :| x in EntriesFor(rows, id) && x.language == Some(l);
    assert HasLanguage(rows, id);
    assert Scanned([Chunk(rows)]) == [rows];
    ScanStops([rows], id);
    DecideByMode(rows, id);
    LexLeTotal(l, l);
    ModeUnique(langs, l);
  }

  /** Example: counts are per chunk, so an earlier chunk's single row beats
      a later chunk's majority. */
  lemma NoAccumulationAcrossChunks()
    ensures ResolveLanguage([Chunk([AkaRow("Z", Some("de"), false)]),
                             Chunk([AkaRow("Z", Some("es"), false), AkaRow("Z", Some("es"), false)])], "Z") == "de"
  {
  }

  /** Example: a literal `\N` language is a code like any other. */
  lemma BackslashNIsALanguage()
    ensures ResolveLanguage([Chunk([AkaRow("W", Some("\\N"), false)])], "W") == "\\N"
  {
  }
}

=== FILE: queries.dfy ===
/** The query methods of `IMDBCollector` over a loaded catalog: top-rated,
    popular, search, by language, by genres, the two inventories (languages
    and genres) and the multi-filter query.

    Each ranked query is modelled in two layers: the merged rows it selects
    and ranks (`...Rows`), then the dictionaries it returns. Every query
    catches every exception and returns the empty list; the only exception
    a query itself can raise in this model is `int(min_year)` in
    `get_popular_movies`. */
module Queries {
  import opened Wrappers
  import opened Text
  import opened Seqs
  import opened Counting
  import opened Ranking
  import opened Tables
  import opened Language
  import opened Filters

  /** The collector's state: movie title rows, all rating rows, and the
      alternative-titles file as it reads it, chunk by chunk. */
  datatype Catalog = Catalog(movies: seq<TitleRow>, ratings: seq<RatingRow>, akas: seq<ChunkRead>)

  // ---------------------------------------------------------------------
  // Sort keys
  // ---------------------------------------------------------------------

  /** `numVotes` of a merged row, 0 when a left merge left it NaN (as
      `_movie_to_dict` reports it). */
  function VotesOf(j: JoinedRow): nat {
    if j.rating.Some? then j.rating.value.numVotes else 0
  }

  function RatingOf(j: JoinedRow): real {
    if j.rating.Some? then j.rating.value.averageRating else 0.0
  }

  /** `sort_values('averageRating', ascending=False)`. */
  function RatingKey(j: JoinedRow): Key {
    Key(RatingOf(j), 0)
  }

  /** `sort_values('numVotes', ascending=False)`: NaN sorts last, below
      every vote count. */
  function VotesKey(j: JoinedRow): Key {
    Key(if j.rating.Some? then j.rating.value.numVotes as real else -1.0, 0)
  }

  /** `sort_values(['averageRating', 'numVotes'], ascending=[False, False])`. */
  function RatingVotesKey(j: JoinedRow): Key {
    Key(RatingOf(j), VotesOf(j))
  }

  /** Under the votes key unrated rows come after every rated row. */
  lemma UnratedLast(r: seq<JoinedRow>)
    requires SortedDesc(r, VotesKey)
    ensures forall i, k :: 0 <= i < k < |r| && r[i].rating.None? ==> r[k].rating.None?
  {
    forall i, k | 0 <= i < k < |r| && r[i].rating.None? ensures r[k].rating.None? {
      assert Ge(VotesKey(r[i]), VotesKey(r[k]));
    }
  }

  // ---------------------------------------------------------------------
  // _movie_to_dict
  // ---------------------------------------------------------------------

  /** A year or runtime cell under `int(x) if pd.notna(x) and x != '\\N'
      else None`: absent, a number, or a value on which `int` raises. */
  datatype IntCell = Absent | Number(n: int) | Raises

  function ReadIntCell(cell: Cell): (r: IntCell)
    ensures r.Absent? <==> cell.None? || cell == Some("\\N")
  {
    if cell.None? || cell.value == "\\N" then Absent
    else match ParseInt(cell.value)
      case None => Raises
      case Some(n) => Number(n)
  }

  /** `row['genres'].split(',') if pd.notna(row['genres']) else []`. */
  function GenreList(cell: Cell): (r: seq<String>)
    ensures cell.None? <==> |r| == 0
    ensures cell.Some? ==> Join(r, ',') == cell.value
  {
    if cell.None? then [] else JoinSplit(cell.value, ','); Split(cell.value, ',')
  }

  /** The dictionary `_movie_to_dict` returns: the full record, or, when
      `int` raised on the year or the runtime, the error record carrying
      only the id and the title (the message text is not modelled). */
  datatype MovieDict =
    | MovieDict(
        id: String,
        title: Cell,
        originalTitle: Cell,
        year: Option<int>,
        runtime: Option<int>,
        genres: seq<String>,
        averageRating: Option<real>,
        numVotes: nat,
        language: String)
    | ErrorDict(id: String, title: Cell)

  function MovieToDict(akas: seq<ChunkRead>, j: JoinedRow): (r: MovieDict)
    ensures r.id == j.title.tconst
    ensures r.ErrorDict? <==> ReadIntCell(j.title.startYear).Raises? || ReadIntCell(j.title.runtimeMinutes).Raises?
    ensures r.MovieDict? ==> r.language == Unknown || Carried(akas, r.id, r.language)
  {
    var t := j.title;
    var year := ReadIntCell(t.startYear);
    var runtime := ReadIntCell(t.runtimeMinutes);
    if year.Raises? || runtime.Raises? then ErrorDict(t.tconst, t.primaryTitle)
    else
      MovieDict(
        t.tconst, t.primaryTitle, t.originalTitle,
        if year.Number? then Some(year.n) else None,
        if runtime.Number? then Some(runtime.n) else None,
        GenreList(t.genres),
        if j.rating.Some? then Some(j.rating.value.averageRating) else None,
        VotesOf(j),
        ResolveLanguage(akas, t.tconst))
  }

  /** `str(n)` reads back as the number `n`. */
  lemma ReadShowInt(n: int)
    ensures ReadIntCell(Some(ShowInt(n))) == Number(n)
  {
    ParseShowInt(n);
    ShowIntNotNull(n);
  }

  /** A title row written the way the dataset writes numbers converts back
      to them: `str(y)` to the year `y`, `\N` or NA to None, and the genres
      list joins back to the cell. */
  lemma MovieToDictRoundTrip(akas: seq<ChunkRead>, j: JoinedRow, y: int, m: Option<int>)
    requires j.title.startYear == Some(ShowInt(y))
    requires j.title.runtimeMinutes == (if m.Some? then Some(ShowInt(m.value)) else Some("\\N"))
    ensures MovieToDict(akas, j).MovieDict?
    ensures MovieToDict(akas, j).year == Some(y)
    ensures MovieToDict(akas, j).runtime == m
    ensures j.title.genres.Some? ==> Join(MovieToDict(akas, j).genres, ',') == j.title.genres.value
    ensures MovieToDict(akas, j).numVotes == VotesOf(j)
  {
    ReadShowInt(y);
    if m.Some? {
      ReadShowInt(m.value);
    }
  }

  /** The converted list of a ranking. */
  function Dicts(akas: seq<ChunkRead>, rows: seq<JoinedRow>): (r: seq<MovieDict>)
    ensures |r| == |rows|
    ensures forall i :: 0 <= i < |rows| ==> r[i] == MovieToDict(akas, rows[i])
  {
    seq(|rows|, i requires 0 <= i < |rows| => MovieToDict(akas, rows[i]))
  }

  /** Every dictionary comes from one of the rows of `df`. */
  lemma DictsFrom(akas: seq<ChunkRead>, rows: seq<JoinedRow>, df: seq<JoinedRow>)
    requires forall j :: j in rows ==> j in df
    ensures forall d :: d in Dicts(akas, rows) ==> exists j :: j in df && j.title.tconst == d.id
  {
    var r := Dicts(akas, rows);
    forall d | d in r ensures exists j :: j in df && j.title.tconst == d.id {
      var i :| 0 <= i < |r| && r[i] == d;
      assert rows[i] in rows;
    }
  }

  /** Rows ranked by votes give dictionaries whose vote counts do not
      increase. */
  lemma DictsVotesOrder(akas: seq<ChunkRead>, rows: seq<JoinedRow>)
    requires SortedDesc(rows, VotesKey)
    ensures var r := Dicts(akas, rows);
      forall i, k :: 0 <= i < k < |r| && r[i].MovieDict? && r[k].MovieDict? ==> r[i].numVotes >= r[k].numVotes
  {
    var r := Dicts(akas, rows);
    forall i, k | 0 <= i < k < |r| && r[i].MovieDict? && r[k].MovieDict?
      ensures r[i].numVotes >= r[k].numVotes
    {
      assert Ge(VotesKey(rows[i]), VotesKey(rows[k]));
    }
  }

  /** Rated rows ranked by rating give dictionaries whose ratings do not
      increase. */
  lemma DictsRatingOrder(akas: seq<ChunkRead>, rows: seq<JoinedRow>)
    requires SortedDesc(rows, RatingKey)
    requires forall j :: j in rows ==> j.rating.Some?
    ensures var r := Dicts(akas, rows);
      forall d :: d in r && d.MovieDict? ==> d.averageRating.Some?
    ensures var r := Dicts(akas, rows);
      forall i, k :: 0 <= i < k < |r| && r[i].MovieDict? && r[k].MovieDict? ==>
        r[i].averageRating.value >= r[k].averageRating.value
  {
    var r := Dicts(akas, rows);
    forall d | d in r && d.MovieDict? ensures d.averageRating.Some? {
      var i :| 0 <= i < |r| && r[i] == d;
      assert rows[i] in rows;
    }
    forall i, k | 0 <= i < k < |r| && r[i].MovieDict? && r[k].MovieDict?
      ensures r[i].averageRating.value >= r[k].averageRating.value
    {
      assert rows[i] in rows && rows[k] in rows;
      assert Ge(RatingKey(rows[i]), RatingKey(rows[k]));
    }
  }

  /** Rows with at least `q` votes give dictionaries with at least `q`
      votes. */
  lemma DictsVotesAtLeast(akas: seq<ChunkRead>, rows: seq<JoinedRow>, q: real)
    requires forall j :: j in rows ==> VotesOf(j) as real >= q
    ensures forall d :: d in Dicts(akas, rows) && d.MovieDict? ==> d.numVotes as real >= q
  {
    var r := Dicts(akas, rows);
    forall d | d in r && d.MovieDict? ensures d.numVotes as real >= q {
      var i :| 0 <= i < |r| && r[i] == d;
      assert rows[i] in rows;
    }
  }

  /** Rows whose start year is a digit string of at least `y` give
      dictionaries whose year is at least `y`. */
  lemma DictsYearAtLeast(akas: seq<ChunkRead>, rows: seq<JoinedRow>, y: int)
    requires forall j :: j in rows ==> YearAtLeast(j.title, y)
    ensures forall d :: d in Dicts(akas, rows) && d.MovieDict? ==> d.year.Some? && d.year.value >= y
  {
    var r := Dicts(akas, rows);
    forall d | d in r && d.MovieDict? ensures d.year.Some? && d.year.value >= y {
      var i :| 0 <= i < |r| && r[i] == d;
      assert rows[i] in rows;
      DictYearAtLeast(akas, rows[i], y);
    }
  }

  lemma DictYearAtLeast(akas: seq<ChunkRead>, j: JoinedRow, y: int)
    requires YearAtLeast(j.title, y)
    ensures MovieToDict(akas, j).MovieDict? ==> MovieToDict(akas, j).year.Some? && MovieToDict(akas, j).year.value >= y
  {
    ParseDigits(j.title.startYear.value);
  }

  // ---------------------------------------------------------------------
  // get_top_movies
  // ---------------------------------------------------------------------

  function IntKey(v: int): Key {
    Key(v as real, 0)
  }

  /** Linear interpolation at a fraction k/5 of the way stays between its
      two ends. */
  lemma Between(a: real, b: real, k: int)
    requires a <= b && 0 <= k < 5
    ensures a <= a + (k as real / 5.0) * (b - a) <= b
  {
    if k == 0 {
    } else if k == 1 {
    } else if k == 2 {
    } else if k == 3 {
    } else {
      assert k == 4;
    }
  }

  /** The head of a descending sort of `vs` is a largest value of `vs`. */
  lemma SortedHeadIsMax(vs: seq<int>, desc: seq<int>)
    requires |vs| > 0 && multiset(desc) == multiset(vs) && SortedDesc(desc, IntKey)
    ensures desc[0] in vs
    ensures forall k :: 0 <= k < |vs| ==> vs[k] <= desc[0]
  {
    assert desc[0] in multiset(vs);
    forall k | 0 <= k < |vs| ensures vs[k] <= desc[0] {
      assert vs[k] in multiset(desc);
      var p :| 0 <= p < |desc| && desc[p] == vs[k];
      assert p == 0 || Ge(IntKey(desc[0]), IntKey(desc[p]));
    }
  }

  /** The value at ascending position `lo + k/5` of a descending
      sequence, interpolated linearly between its two neighbours. */
  function Interpolate(desc: seq<int>, lo: nat, k: nat): real
    requires lo < |desc|
  {
    var n := |desc|;
    var a := desc[n - 1 - lo] as real;
    var b := if lo + 1 < n then desc[n - 2 - lo] as real else a;
    a + (k as real / 5.0) * (b - a)
  }

  /** In a descending sequence the value at ascending position `lo` is at
      most its upper neighbour, which is at most the head. */
  lemma Neighbours(desc: seq<int>, lo: nat)
    requires lo < |desc| && SortedDesc(desc, IntKey)
    ensures var n := |desc|;
      desc[n - 1 - lo] <= (if lo + 1 < n then desc[n - 2 - lo] else desc[n - 1 - lo]) <= desc[0]
  {
    var n := |desc|;
    assert 0 <= n - 2 - lo ==> Ge(IntKey(desc[0]), IntKey(desc[n - 2 - lo]));
    assert 0 < n - 1 - lo ==> Ge(IntKey(desc[0]), IntKey(desc[n - 1 - lo]));
    assert lo + 1 < n ==> Ge(IntKey(desc[n - 2 - lo]), IntKey(desc[n - 1 - lo]));
  }

  lemma InterpolateBounds(desc: seq<int>, lo: nat, k: nat)
    requires lo < |desc| && k < 5 && SortedDesc(desc, IntKey)
    ensures desc[|desc| - 1 - lo] as real <= Interpolate(desc, lo, k) <= desc[0] as real
  {
    var n := |desc|;
    Neighbours(desc, lo);
    var a := desc[n - 1 - lo] as real;
    var b := if lo + 1 < n then desc[n - 2 - lo] as real else a;
    assert a <= b <= desc[0] as real;
    assert Interpolate(desc, lo, k) == a + (k as real / 5.0) * (b - a);
    Between(a, b, k);
    assert a <= Interpolate(desc, lo, k) <= b;
  }

  /** `Series.quantile(0.8)` with numpy's default linear interpolation:
      position 0.8 * (n - 1) in ascending order, interpolated between the
      two neighbouring values. The threshold lies between the smallest and
      the largest value. */
  function Quantile80(vs: seq<int>): (q: real)
    requires |vs| > 0
    ensures exists i :: 0 <= i < |vs| && vs[i] as real <= q
    ensures exists i :: 0 <= i < |vs| && q <= vs[i] as real && forall k :: 0 <= k < |vs| ==> vs[k] <= vs[i]
  {
    var n := |vs|;
    var desc := SortDesc(vs, IntKey);
    var lo: nat := 4 * (n - 1) / 5;
    var k: nat := 4 * (n - 1) % 5;
    assert lo < n && k < 5;
    InterpolateBounds(desc, lo, k);
    SortedHeadIsMax(vs, desc);
    assert desc[n - 1 - lo] in multiset(vs);
    var i :| 0 <= i < n && vs[i] == desc[n - 1 - lo];
    var m :| 0 <= m < n && vs[m] == desc[0];
    Interpolate(desc, lo, k)
  }

  /** The vote counts of the merged rows, in row order. */
  function VoteCounts(df: seq<JoinedRow>): (vs: seq<int>)
    ensures |vs| == |df|
    ensures forall i :: 0 <= i < |df| ==> vs[i] == VotesOf(df[i])
  {
    seq(|df|, i requires 0 <= i < |df| => VotesOf(df[i]) as int)
  }

  /** `df['numVotes'].quantile(0.8)` of a non-empty merge. */
  function VoteThreshold(df: seq<JoinedRow>): real
    requires |df| > 0
  {
    Quantile80(VoteCounts(df))
  }

  /** The merged rows that clear the vote threshold. On an empty merge the
      threshold is NaN and nothing clears it. The most-voted row always
      clears it, so a non-empty merge keeps at least one row. */
  function TopCandidates(cat: Catalog): (r: seq<JoinedRow>)
    ensures var df := InnerJoin(cat.movies, cat.ratings);
      forall j :: j in r <==> j in df && VotesOf(j) as real >= VoteThreshold(df)
    ensures |InnerJoin(cat.movies, cat.ratings)| > 0 ==> |r| > 0
  {
    var df := InnerJoin(cat.movies, cat.ratings);
    if |df| == 0 then []
    else
      var q := VoteThreshold(df);
      var vs := VoteCounts(df);
      var i :| 0 <= i < |vs| && q <= vs[i] as real && forall k :: 0 <= k < |vs| ==> vs[k] <= vs[i];
      var r := Filter(df, (j: JoinedRow) => VotesOf(j) as real >= q);
      assert df[i] in r;
      r
  }

  /** The rows of `get_top_movies`: at most `limit` rows that clear the
      vote threshold, best rated first, and no row left out is rated above
      a row kept. A non-empty merge and a positive limit give a non-empty
      answer. */
  function TopMovieRows(cat: Catalog, limit: nat): (r: seq<JoinedRow>)
    ensures |r| <= limit
    ensures |r| == Min(limit, |TopCandidates(cat)|)
    ensures forall j :: j in r ==> j in TopCandidates(cat)
    ensures SortedDesc(r, RatingKey)
    ensures forall x, y :: x in TopCandidates(cat) && x !in r && y in r ==> RatingOf(y) >= RatingOf(x)
    ensures |InnerJoin(cat.movies, cat.ratings)| > 0 && limit > 0 ==> |r| > 0
  {
    var c := TopCandidates(cat);
    var r := TopN(c, RatingKey, limit);
    forall x, y | x in c && x !in r && y in r ensures RatingOf(y) >= RatingOf(x) {
      assert Ge(RatingKey(y), RatingKey(x));
    }
    r
  }

  /** `get_top_movies(limit)`: every full record is rated, has at least the
      threshold's votes, and the ratings do not increase down the list. */
  function GetTopMovies(cat: Catalog, limit: nat): (r: seq<MovieDict>)
    ensures |r| <= limit
    ensures |r| == Min(limit, |TopCandidates(cat)|)
    ensures forall d :: d in r ==> exists j :: j in TopCandidates(cat) && j.title.tconst == d.id
    ensures forall d :: d in r && d.MovieDict? ==> d.averageRating.Some?
    ensures forall d :: d in r && d.MovieDict? ==>
      d.numVotes as real >= VoteThreshold(InnerJoin(cat.movies, cat.ratings))
    ensures forall i, k :: 0 <= i < k < |r| && r[i].MovieDict? && r[k].MovieDict? ==>
      r[i].averageRating.value >= r[k].averageRating.value
  {
    var rows := TopMovieRows(cat, limit);
    var df := InnerJoin(cat.movies, cat.ratings);
    DictsFrom(cat.akas, rows, TopCandidates(cat));
    if |df| > 0 then
      DictsRatingOrder(cat.akas, rows);
      DictsVotesAtLeast(cat.akas, rows, VoteThreshold(df));
      Dicts(cat.akas, rows)
    else
      Dicts(cat.akas, rows)
  }

  // ---------------------------------------------------------------------
  // get_popular_movies
  // ---------------------------------------------------------------------

  /** The three outcomes of `if min_year: ... int(min_year)`. */
  datatype YearFilter = NoYearFilter | FromYear(y: int) | BadYear

  /** An empty or missing `min_year` is falsy and filters nothing; one `int`
      cannot read raises, and the query then answers the empty list. */
  function ReadMinYear(minYear: Option<String>): (f: YearFilter)
    ensures f.NoYearFilter? <==> minYear.None? || minYear.value == ""
    ensures f.FromYear? ==> ParseInt(minYear.value) == Some(f.y)
  {
    if minYear.None? || minYear.value == "" then NoYearFilter
    else match ParseInt(minYear.value)
      case None => BadYear
      case Some(y) => FromYear(y)
  }

  /** `startYear.astype(str).str.isnumeric()` and `astype(int) >= y`: NA
      and `\N` are not numeric and are dropped. */
  predicate YearAtLeast(t: TitleRow, y: int) {
    t.startYear.Some? && IsDigits(t.startYear.value) && DigitsValue(t.startYear.value) >= y
  }

  /** The rows `get_popular_movies` ranks; None when it raises. */
  function PopularCandidates(cat: Catalog, minYear: Option<String>): (r: Option<seq<JoinedRow>>)
    ensures r.None? <==> ReadMinYear(minYear).BadYear?
    ensures r.Some? ==> forall j :: j in r.value <==>
      j in InnerJoin(cat.movies, cat.ratings)
      && (ReadMinYear(minYear).FromYear? ==> YearAtLeast(j.title, ReadMinYear(minYear).y))
  {
    var df := InnerJoin(cat.movies, cat.ratings);
    match ReadMinYear(minYear)
    case NoYearFilter => Some(df)
    case BadYear => None
    case FromYear(y) => Some(Filter(df, (j: JoinedRow) => YearAtLeast(j.title, y)))
  }

  /** The rows of `get_popular_movies`: the `limit` most-voted candidates,
      most-voted first; none when `min_year` is not an integer. */
  function PopularRows(cat: Catalog, limit: nat, minYear: Option<String>): (r: seq<JoinedRow>)
    ensures |r| <= limit
    ensures PopularCandidates(cat, minYear).Some? ==> |r| == Min(limit, |PopularCandidates(cat, minYear).value|)
    ensures ReadMinYear(minYear).BadYear? ==> r == []
    ensures forall j :: j in r ==> j in InnerJoin(cat.movies, cat.ratings)
    ensures PopularCandidates(cat, minYear).Some? ==> forall j :: j in r ==> j in PopularCandidates(cat, minYear).value
    ensures ReadMinYear(minYear).FromYear? ==> forall j :: j in r ==> YearAtLeast(j.title, ReadMinYear(minYear).y)
    ensures SortedDesc(r, VotesKey)
    ensures PopularCandidates(cat, minYear).Some? ==>
      forall x, y :: x in PopularCandidates(cat, minYear).value && x !in r && y in r ==> VotesOf(y) >= VotesOf(x)
  {
    match PopularCandidates(cat, minYear)
    case None => []
    case Some(c) =>
      var r := TopN(c, VotesKey, limit);
      forall x, y | x in c && x !in r && y in r ensures VotesOf(y) >= VotesOf(x) {
        assert Ge(VotesKey(y), VotesKey(x));
      }
      r
  }

  /** The dictionaries of rows drawn from the candidates, when there are
      candidates, come from candidate rows. */
  lemma DictsFromCandidates(cat: Catalog, rows: seq<JoinedRow>, c: Option<seq<JoinedRow>>)
    requires c.Some? ==> forall j :: j in rows ==> j in c.value
    ensures c.Some? ==> forall d :: d in Dicts(cat.akas, rows) ==> exists j :: j in c.value && j.title.tconst == d.id
  {
    if c.Some? {
      DictsFrom(cat.akas, rows, c.value);
    }
  }

  /** `get_popular_movies(limit, min_year)`: vote counts do not increase
      down the list, and with a `min_year` every full record is from that
      year or later. */
  function GetPopularMovies(cat: Catalog, limit: nat, minYear: Option<String>): (r: seq<MovieDict>)
    ensures |r| <= limit
    ensures PopularCandidates(cat, minYear).Some? ==> |r| == Min(limit, |PopularCandidates(cat, minYear).value|)
    ensures ReadMinYear(minYear).BadYear? ==> r == []
    ensures PopularCandidates(cat, minYear).Some? ==>
      forall d :: d in r ==> exists j :: j in PopularCandidates(cat, minYear).value && j.title.tconst == d.id
    ensures forall i, k :: 0 <= i < k < |r| && r[i].MovieDict? && r[k].MovieDict? ==> r[i].numVotes >= r[k].numVotes
    ensures ReadMinYear(minYear).FromYear? ==> forall d :: d in r && d.MovieDict? ==>
      d.year.Some? && d.year.value >= ReadMinYear(minYear).y
  {
    var rows := PopularRows(cat, limit, minYear);
    DictsVotesOrder(cat.akas, rows);
    DictsFromCandidates(cat, rows, PopularCandidates(cat, minYear));
    match ReadMinYear(minYear)
    case FromYear(y) => DictsYearAtLeast(cat.akas, rows, y); Dicts(cat.akas, rows)
    case _ => Dicts(cat.akas, rows)
  }

  // ---------------------------------------------------------------------
  // search_movies, get_movies_by_language, get_movies_by_genres
  // ---------------------------------------------------------------------

  /** The shape shared by the three left-merge queries: select the title
      rows satisfying `p`, left-merge them with the ratings, sort by votes
      descending with unrated rows last, and keep `limit` rows. */
  function RankLeft(movies: seq<TitleRow>, ratings: seq<RatingRow>, p: TitleRow -> bool, limit: nat): (r: seq<JoinedRow>)
    ensures |r| <= limit
    ensures |r| == Min(limit, |LeftJoin(Filter(movies, p), ratings)|)
    ensures forall j :: j in r ==> j.title in movies && p(j.title) && LeftMatch(j, ratings)
    ensures SortedDesc(r, VotesKey)
    ensures forall i, k :: 0 <= i < k < |r| && r[i].rating.None? ==> r[k].rating.None?
    ensures forall x, y :: x in LeftJoin(Filter(movies, p), ratings) && x !in r && y in r ==> Ge(VotesKey(y), VotesKey(x))
    ensures limit > 0 && (exists t :: t in movies && p(t)) ==> |r| > 0
  {
    var selected := Filter(movies, p);
    var merged := LeftJoin(selected, ratings);
    var r := TopN(merged, VotesKey, limit);
    UnratedLast(r);
    if limit > 0 && (exists t :: t in movies && p(t)) then
      var t :| t in movies && p(t);
      LeftJoinKeepsTitles(selected, ratings, t);
      r
    else r
  }

  /** The left-merged rows `search_movies` ranks. */
  function SearchMerged(cat: Catalog, query: String, filterGenre: bool): seq<JoinedRow> {
    LeftJoin(Filter(cat.movies, (t: TitleRow) => SearchMatch(t, query, filterGenre)), cat.ratings)
  }

  /** The rows of `search_movies`. */
  function SearchRows(cat: Catalog, query: String, limit: nat, filterGenre: bool): (r: seq<JoinedRow>)
    ensures |r| <= limit
    ensures |r| == Min(limit, |SearchMerged(cat, query, filterGenre)|)
    ensures forall j :: j in r ==> j.title in cat.movies && SearchMatch(j.title, query, filterGenre)
    ensures forall i, k :: 0 <= i < k < |r| ==> Ge(VotesKey(r[i]), VotesKey(r[k]))
    ensures limit > 0 && (exists t :: t in cat.movies && SearchMatch(t, query, filterGenre)) ==> |r| > 0
  {
    RankLeft(cat.movies, cat.ratings, (t: TitleRow) => SearchMatch(t, query, filterGenre), limit)
  }

  /** `search_movies(query, limit, filter_genre)`: every answer is a movie
      whose primary or original title contains the query ignoring case, or,
      when genres are searched too, whose genres do; vote counts do not
      increase down the list. */
  function SearchMovies(cat: Catalog, query: String, limit: nat, filterGenre: bool): (r: seq<MovieDict>)
    ensures |r| <= limit
    ensures |r| == Min(limit, |SearchMerged(cat, query, filterGenre)|)
    ensures forall d :: d in r ==> exists t :: t in cat.movies && t.tconst == d.id && SearchMatch(t, query, filterGenre)
    ensures forall d :: d in r && d.MovieDict? ==>
      CellContains(d.title, query) || CellContains(d.originalTitle, query)
      || (filterGenre && |d.genres| > 0 && ContainsIgnoreCase(Join(d.genres, ','), query))
    ensures forall i, k :: 0 <= i < k < |r| && r[i].MovieDict? && r[k].MovieDict? ==> r[i].numVotes >= r[k].numVotes
  {
    var rows := SearchRows(cat, query, limit, filterGenre);
    DictsVotesOrder(cat.akas, rows);
    DictsTitles(cat.akas, rows, cat.movies, (t: TitleRow) => SearchMatch(t, query, filterGenre));
    var r := Dicts(cat.akas, rows);
    forall d | d in r && d.MovieDict?
      ensures CellContains(d.title, query) || CellContains(d.originalTitle, query)
        || (filterGenre && |d.genres| > 0 && ContainsIgnoreCase(Join(d.genres, ','), query))
    {
      var i :| 0 <= i < |r| && r[i] == d;
      assert rows[i] in rows;
    }
    r
  }

  /** Every dictionary of a ranking comes from a title row of `movies`
      satisfying `p`. */
  lemma DictsTitles(akas: seq<ChunkRead>, rows: seq<JoinedRow>, movies: seq<TitleRow>, p: TitleRow -> bool)
    requires forall j :: j in rows ==> j.title in movies && p(j.title)
    ensures forall d :: d in Dicts(akas, rows) ==> exists t :: t in movies && t.tconst == d.id && p(t)
  {
    var r := Dicts(akas, rows);
    forall d | d in r ensures exists t :: t in movies && t.tconst == d.id && p(t) {
      var i :| 0 <= i < |r| && r[i] == d;
      assert rows[i] in rows;
    }
  }

  /** Whether a title's resolved language is `code`. */
  predicate HasLanguageCode(akas: seq<ChunkRead>, t: TitleRow, code: String) {
    ResolveLanguage(akas, t.tconst) == code
  }

  /** The left-merged rows `get_movies_by_language` ranks. */
  function LanguageMerged(cat: Catalog, code: String): seq<JoinedRow> {
    LeftJoin(Filter(cat.movies, (t: TitleRow) => HasLanguageCode(cat.akas, t, code)), cat.ratings)
  }

  /** `get_movies_by_language(code, limit)`: every answer is a movie whose
      resolved language is `code`; a full record reports that language, and
      unless the code is the 'unknown' default it is carried by an
      alternative-title row of that movie. */
  function MoviesByLanguage(cat: Catalog, code: String, limit: nat): (r: seq<MovieDict>)
    ensures |r| <= limit
    ensures |r| == Min(limit, |LanguageMerged(cat, code)|)
    ensures forall d :: d in r ==> exists t :: t in cat.movies && t.tconst == d.id && HasLanguageCode(cat.akas, t, code)
    ensures forall d :: d in r && d.MovieDict? ==> d.language == code
    ensures code != Unknown ==> forall d :: d in r && d.MovieDict? ==> Carried(cat.akas, d.id, code)
    ensures forall i, k :: 0 <= i < k < |r| && r[i].MovieDict? && r[k].MovieDict? ==> r[i].numVotes >= r[k].numVotes
    ensures limit > 0 && (exists t :: t in cat.movies && HasLanguageCode(cat.akas, t, code)) ==> |r| > 0
  {
    var p := (t: TitleRow) => HasLanguageCode(cat.akas, t, code);
    var rows := RankLeft(cat.movies, cat.ratings, p, limit);
    DictsVotesOrder(cat.akas, rows);
    DictsTitles(cat.akas, rows, cat.movies, p);
    var r := Dicts(cat.akas, rows);
    forall d | d in r && d.MovieDict? ensures d.language == code {
      var i :| 0 <= i < |r| && r[i] == d;
      assert rows[i] in rows;
    }
    r
  }

  /** The left-merged rows `get_movies_by_genres` ranks. */
  function GenresMerged(cat: Catalog, genres: seq<String>, matchAll: bool): seq<JoinedRow> {
    LeftJoin(Filter(cat.movies, (t: TitleRow) => GenreMatch(t.genres, genres, matchAll)), cat.ratings)
  }

  /** `get_movies_by_genres(genres, match_all, limit)`: every answer is a
      movie whose genres cell matches; a full record's genre list holds
      every (match_all) or some requested genre, ignoring case. */
  function MoviesByGenres(cat: Catalog, genres: seq<String>, matchAll: bool, limit: nat): (r: seq<MovieDict>)
    ensures |r| <= limit
    ensures |r| == Min(limit, |GenresMerged(cat, genres, matchAll)|)
    ensures forall d :: d in r ==> exists t :: t in cat.movies && t.tconst == d.id && GenreMatch(t.genres, genres, matchAll)
    ensures forall d :: d in r && d.MovieDict? ==> |d.genres| > 0
    ensures matchAll ==> forall d :: d in r && d.MovieDict? ==>
      forall g :: g in genres ==> Lower(g) in LowerAll(d.genres)
    ensures !matchAll ==> forall d :: d in r && d.MovieDict? ==>
      exists g :: g in genres && Lower(g) in LowerAll(d.genres)
    ensures forall i, k :: 0 <= i < k < |r| && r[i].MovieDict? && r[k].MovieDict? ==> r[i].numVotes >= r[k].numVotes
  {
    var p := (t: TitleRow) => GenreMatch(t.genres, genres, matchAll);
    var rows := RankLeft(cat.movies, cat.ratings, p, limit);
    DictsVotesOrder(cat.akas, rows);
    DictsTitles(cat.akas, rows, cat.movies, p);
    var r := Dicts(cat.akas, rows);
    forall d | d in r && d.MovieDict?
      ensures |d.genres| > 0
      ensures matchAll ==> forall g :: g in genres ==> Lower(g) in LowerAll(d.genres)
      ensures !matchAll ==> exists g :: g in genres && Lower(g) in LowerAll(d.genres)
    {
      var i :| 0 <= i < |r| && r[i] == d;
      assert rows[i] in rows;
      assert GenreMatch(rows[i].title.genres, genres, matchAll);
      assert d.genres == Split(rows[i].title.genres.value, ',');
      if matchAll {
        forall g | g in genres ensures Lower(g) in LowerAll(d.genres) {
          var k :| 0 <= k < |genres| && genres[k] == g;
        }
      } else {
        var k :| 0 <= k < |genres| && Lower(genres[k]) in LowerAll(d.genres);
        assert genres[k] in genres;
      }
    }
    r
  }

  // ---------------------------------------------------------------------
  // get_available_languages
  // ---------------------------------------------------------------------

  /** The resolved language of every movie row, in row order (duplicated
      ids are resolved once per row, as the loop does). */
  function ResolvedLanguages(cat: Catalog): (ls: seq<String>)
    ensures |ls| == |cat.movies|
    ensures forall i :: 0 <= i < |ls| ==> ls[i] == ResolveLanguage(cat.akas, cat.movies[i].tconst)
  {
    seq(|cat.movies|, i requires 0 <= i < |cat.movies| => ResolveLanguage(cat.akas, cat.movies[i].tconst))
  }

  /** The `if lang and lang != 'unknown'` of the final comprehension. */
  predicate Reported(e: (String, nat)) {
    e.0 != "" && e.0 != Unknown
  }

  /** `get_available_languages()`: one entry per language some movie
      resolves to, except the empty string and 'unknown', with the number
      of movie rows resolving to it, in the order languages were first met. */
  function AvailableLanguages(cat: Catalog): (r: seq<(String, nat)>)
    ensures Distinct(Keys(r))
    ensures forall c :: c in Keys(r) <==> c in ResolvedLanguages(cat) && c != "" && c != Unknown
    ensures forall i :: 0 <= i < |r| ==> r[i].1 == multiset(ResolvedLanguages(cat))[r[i].0]
    ensures forall i, j :: 0 <= i < j < |r| ==>
      FirstIndex(ResolvedLanguages(cat), r[i].0) < FirstIndex(ResolvedLanguages(cat), r[j].0)
  {
    var ls := ResolvedLanguages(cat);
    FilterTally(ls, Tally(ls), Reported);
    Filter(Tally(ls), Reported)
  }

  // ---------------------------------------------------------------------
  // get_available_genres
  // ---------------------------------------------------------------------

  function StripAll(parts: seq<String>): (r: seq<String>)
    ensures |r| == |parts|
    ensures forall i :: 0 <= i < |parts| ==> r[i] == Strip(parts[i])
  {
    seq(|parts|, i requires 0 <= i < |parts| => Strip(parts[i]))
  }

  /** The genres one movie contributes: its comma-separated genres,
      stripped, or none when the cell is NA. */
  function MovieTokens(m: TitleRow): seq<String> {
    if m.genres.Some? then StripAll(Split(m.genres.value, ',')) else []
  }

  /** Every genre name the counting loop meets, in the order it meets them. */
  function GenreTokens(movies: seq<TitleRow>): (ts: seq<String>)
    ensures forall g :: g in ts <==> exists m :: m in movies && g in MovieTokens(m)
  {
    if |movies| == 0 then []
    else
      var rest := GenreTokens(movies[1..]);
      assert movies == [movies[0]] + movies[1..];
      forall g | g in rest ensures exists m :: m in movies && g in MovieTokens(m) {
        var m :| m in movies[1..] && g in MovieTokens(m);
        assert m in movies;
      }
      MovieTokens(movies[0]) + rest
  }

  /** Position of a genre's first occurrence, for the tie-break. */
  function FirstSeen(ts: seq<String>, g: String): int {
    if g in ts then FirstIndex(ts, g) else 0
  }

  /** `sorted(counts.items(), key=count, reverse=True)`: Python's sort is
      stable, so equal counts keep the dictionary's first-seen order; that
      order is made explicit as the second part of the key. */
  function CountKey(ts: seq<String>, e: (String, nat)): Key {
    Key(e.1 as real, -FirstSeen(ts, e.0))
  }

  /** A reordered tally is still a faithful count. */
  lemma ReorderedTally(ts: seq<String>, t: seq<(String, nat)>, r: seq<(String, nat)>)
    requires IsTally(ts, t) && multiset(r) == multiset(t)
    ensures Distinct(Keys(r))
    ensures forall g :: g in Keys(r) <==> g in ts
    ensures forall i :: 0 <= i < |r| ==> r[i].0 in ts && r[i].1 == multiset(ts)[r[i].0]
  {
    DistinctKeysPerm(r, t);
    forall i | 0 <= i < |r| ensures r[i].0 in ts && r[i].1 == multiset(ts)[r[i].0] {
      assert r[i] in multiset(t);
      var m :| 0 <= m < |t| && t[m] == r[i];
      assert Keys(t)[m] in Keys(t);
    }
    forall g ensures g in Keys(r) <==> g in ts {
      if g in Keys(r) {
        var i :| 0 <= i < |r| && Keys(r)[i] == g;
        assert r[i].0 in ts;
      }
      if g in ts {
        var m :| 0 <= m < |t| && Keys(t)[m] == g;
        assert t[m] in multiset(r);
        var i :| 0 <= i < |r| && r[i] == t[m];
        assert Keys(r)[i] == g;
      }
    }
  }

  /** Sorted by CountKey, counts do not increase and equal counts come in
      first-seen order. */
  lemma CountOrder(ts: seq<String>, r: seq<(String, nat)>, key: ((String, nat)) -> Key)
    requires Distinct(Keys(r)) && forall i :: 0 <= i < |r| ==> r[i].0 in ts
    requires forall e :: key(e) == CountKey(ts, e)
    requires SortedDesc(r, key)
    ensures forall i, j :: 0 <= i < j < |r| ==> r[i].1 >= r[j].1
    ensures forall i, j :: 0 <= i < j < |r| && r[i].1 == r[j].1 ==> FirstIndex(ts, r[i].0) < FirstIndex(ts, r[j].0)
  {
    forall i, j | 0 <= i < j < |r|
      ensures r[i].1 >= r[j].1
      ensures r[i].1 == r[j].1 ==> FirstIndex(ts, r[i].0) < FirstIndex(ts, r[j].0)
    {
      assert Ge(key(r[i]), key(r[j]));
      assert Keys(r)[i] != Keys(r)[j];
    }
  }

  /** `get_available_genres()`: one entry per distinct genre name, with
      the number of times it occurs over all movies; most frequent first,
      and equally frequent genres in the order they were first met. */
  function AvailableGenres(cat: Catalog): (r: seq<(String, nat)>)
    ensures Distinct(Keys(r))
    ensures forall g :: g in Keys(r) <==> exists m :: m in cat.movies && g in MovieTokens(m)
    ensures forall i :: 0 <= i < |r| ==> r[i].1 == multiset(GenreTokens(cat.movies))[r[i].0]
    ensures forall i, j :: 0 <= i < j < |r| ==> r[i].1 >= r[j].1
    ensures forall i, j :: 0 <= i < j < |r| && r[i].1 == r[j].1 ==>
      r[i].0 in GenreTokens(cat.movies) && r[j].0 in GenreTokens(cat.movies)
      && FirstIndex(GenreTokens(cat.movies), r[i].0) < FirstIndex(GenreTokens(cat.movies), r[j].0)
  {
    var ts := GenreTokens(cat.movies);
    var key := (e: (String, nat)) => CountKey(ts, e);
    var r := SortDesc(Tally(ts), key);
    ReorderedTally(ts, Tally(ts), r);
    CountOrder(ts, r, key);
    r
  }

  // ---------------------------------------------------------------------
  // get_movies_with_filters
  // ---------------------------------------------------------------------

  /** The record `get_movies_with_filters` builds for one row. */
  datatype FilteredMovie = FilteredMovie(
    id: String,
    title: Cell,
    year: Option<int>,
    rating: real,
    votes: nat,
    genres: seq<String>,
    runtime: Option<int>)

  /** `int(x) if x != '\\N' else None` with no NA guard: `int` raises on NA
      as on any other non-integer. */
  function StrictIntCell(cell: Cell): (r: IntCell)
    ensures r.Absent? <==> cell == Some("\\N")
    ensures cell.None? ==> r.Raises?
  {
    if cell == Some("\\N") then Absent
    else if cell.None? then Raises
    else match ParseInt(cell.value)
      case None => Raises
      case Some(n) => Number(n)
  }

  /** Whether building the record raises; such rows are logged and skipped. */
  predicate Converts(j: JoinedRow) {
    j.rating.Some? && !StrictIntCell(j.title.startYear).Raises? && !StrictIntCell(j.title.runtimeMinutes).Raises?
  }

  function ToFiltered(j: JoinedRow): FilteredMovie
    requires Converts(j)
  {
    var year := StrictIntCell(j.title.startYear);
    var runtime := StrictIntCell(j.title.runtimeMinutes);
    FilteredMovie(
      j.title.tconst, j.title.primaryTitle,
      if year.Number? then Some(year.n) else None,
      j.rating.value.averageRating, j.rating.value.numVotes,
      GenreList(j.title.genres),
      if runtime.Number? then Some(runtime.n) else None)
  }

  /** The inner-merged rows passing every filter. */
  function FilterCandidates(cat: Catalog, cfg: FilterConfig): (r: seq<JoinedRow>)
    ensures forall j :: j in r <==> j in InnerJoin(cat.movies, cat.ratings) && PassesFilters(j, cfg)
  {
    Filter(InnerJoin(cat.movies, cat.ratings), (j: JoinedRow) => PassesFilters(j, cfg))
  }

  /** The rows of `get_movies_with_filters`: the `limit` best by rating,
      then votes; no row left out ranks above a row kept. */
  function FilterRows(cat: Catalog, cfg: FilterConfig, limit: nat): (r: seq<JoinedRow>)
    ensures |r| <= limit
    ensures |r| == Min(limit, |FilterCandidates(cat, cfg)|)
    ensures forall j :: j in r ==> j in InnerJoin(cat.movies, cat.ratings) && PassesFilters(j, cfg)
    ensures SortedDesc(r, RatingVotesKey)
    ensures forall x, y :: x in FilterCandidates(cat, cfg) && x !in r && y in r ==> Ge(RatingVotesKey(y), RatingVotesKey(x))
  {
    TopN(FilterCandidates(cat, cfg), RatingVotesKey, limit)
  }

  /** A cell passing a year or runtime bound is present and not `\N`, so
      `int()` either raises (decimal text such as "90.5") or gives a value
      within that bound. */
  lemma BoundedCell(cell: Cell, lo: Option<int>, hi: Option<int>)
    requires lo.Some? || hi.Some?
    ensures InRange(NumericValue(cell), lo, hi) ==> StrictIntCell(cell).Number? || StrictIntCell(cell).Raises?
    ensures InRange(NumericValue(cell), lo, hi) && StrictIntCell(cell).Number? ==>
      InRange(Some(StrictIntCell(cell).n as real), lo, hi)
  {
    if InRange(NumericValue(cell), lo, hi) {
      assert NumericValue(cell).Some?;
      assert cell.Some? && cell.value != "\\N";
    }
  }

  /** Decimal text passes the numeric mask, which reads it as a number,
      but `int()` then raises: a runtime of "90.5" with a bound of 90 takes
      a place in the ranking and is dropped from the answer. */
  lemma DecimalRuntimeDropped(j: JoinedRow)
    requires j.title.runtimeMinutes == Some("90.5")
    ensures NumericValue(j.title.runtimeMinutes) == Some(90.5)
    ensures InRange(NumericValue(j.title.runtimeMinutes), Some(90), None)
    ensures StrictIntCell(j.title.runtimeMinutes).Raises?
    ensures !Converts(j)
  {
    DecimalText();
  }

  /** What every record of the answer satisfies. */
  predicate Admitted(d: FilteredMovie, cfg: FilterConfig) {
    && d.rating >= cfg.minRating
    && d.votes >= cfg.minVotes
    && ((cfg.minYear.Some? || cfg.maxYear.Some?) ==>
      d.year.Some? && InRange(Some(d.year.value as real), cfg.minYear, cfg.maxYear))
    && ((cfg.minRuntime.Some? || cfg.maxRuntime.Some?) ==>
      d.runtime.Some? && InRange(Some(d.runtime.value as real), cfg.minRuntime, cfg.maxRuntime))
    && (|cfg.genres| > 0 ==> exists g :: g in cfg.genres && Lower(g) in LowerAll(d.genres))
  }

  lemma AdmittedRecord(j: JoinedRow, cfg: FilterConfig)
    requires Converts(j)
    ensures PassesFilters(j, cfg) ==> Admitted(ToFiltered(j), cfg)
  {
    if PassesFilters(j, cfg) {
      if cfg.minYear.Some? || cfg.maxYear.Some? {
        BoundedCell(j.title.startYear, cfg.minYear, cfg.maxYear);
      }
      if cfg.minRuntime.Some? || cfg.maxRuntime.Some? {
        BoundedCell(j.title.runtimeMinutes, cfg.minRuntime, cfg.maxRuntime);
      }
      if |cfg.genres| > 0 {
        var k :| 0 <= k < |cfg.genres| && Lower(cfg.genres[k]) in CellGenres(j.title.genres.value);
        assert cfg.genres[k] in cfg.genres;
      }
    }
  }

  /** The loop building the answer: rows whose record raises are skipped,
      the others keep their order. */
  function ConvertAll(rows: seq<JoinedRow>): (r: seq<FilteredMovie>)
    ensures |r| <= |rows|
    ensures forall d :: d in r ==> exists j :: j in rows && Converts(j) && ToFiltered(j) == d
    ensures |r| == |Filter(rows, Converts)|
    ensures forall j :: j in rows && Converts(j) ==> ToFiltered(j) in r
  {
    var ok := Filter(rows, Converts);
    forall i | 0 <= i < |ok| ensures Converts(ok[i]) {
      assert ok[i] in ok;
    }
    var r := seq(|ok|, i requires 0 <= i < |ok| => ToFiltered(ok[i]));
    forall d | d in r ensures exists j :: j in rows && Converts(j) && ToFiltered(j) == d {
      var i :| 0 <= i < |r| && r[i] == d;
      assert ok[i] in ok;
    }
    forall j | j in rows && Converts(j) ensures ToFiltered(j) in r {
      assert j in ok;
      var i :| 0 <= i < |ok| && ok[i] == j;
      assert r[i] == ToFiltered(j);
    }
    r
  }

  /** Skipping rows keeps the records in rating-then-votes order. */
  lemma ConvertAllOrder(rows: seq<JoinedRow>)
    requires SortedDesc(rows, RatingVotesKey)
    ensures var r := ConvertAll(rows);
      forall i, k :: 0 <= i < k < |r| ==>
        r[i].rating > r[k].rating || (r[i].rating == r[k].rating && r[i].votes >= r[k].votes)
  {
    var ok := Filter(rows, Converts);
    FilterPairwise(rows, Converts, (a: JoinedRow, b: JoinedRow) => Ge(RatingVotesKey(a), RatingVotesKey(b)));
    forall i | 0 <= i < |ok| ensures Converts(ok[i]) {
      assert ok[i] in ok;
    }
    var r := ConvertAll(rows);
    assert |r| == |ok|;
    forall i, k | 0 <= i < k < |r|
      ensures r[i].rating > r[k].rating || (r[i].rating == r[k].rating && r[i].votes >= r[k].votes)
    {
      assert r[i] == ToFiltered(ok[i]) && r[k] == ToFiltered(ok[k]);
      assert Ge(RatingVotesKey(ok[i]), RatingVotesKey(ok[k]));
    }
  }

  /** Every record built from passing rows is admitted. */
  lemma ConvertAllAdmitted(rows: seq<JoinedRow>, cfg: FilterConfig, movies: seq<TitleRow>)
    requires forall j :: j in rows ==> PassesFilters(j, cfg) && j.title in movies
    ensures forall d :: d in ConvertAll(rows) ==> Admitted(d, cfg)
    ensures forall d :: d in ConvertAll(rows) ==> exists t :: t in movies && IsMovie(t) && t.tconst == d.id
  {
    forall d | d in ConvertAll(rows)
      ensures Admitted(d, cfg) && exists t :: t in movies && IsMovie(t) && t.tconst == d.id
    {
      var j :| j in rows && Converts(j) && ToFiltered(j) == d;
      AdmittedRecord(j, cfg);
      assert j.title in movies;
    }
  }

  /** `get_movies_with_filters(...)`: at most `limit` records, each
      admitted by every filter (a year or runtime bound also guarantees the
      value is present), best rated first and, among equal ratings, most
      voted first. */
  function GetMoviesWithFilters(cat: Catalog, cfg: FilterConfig, limit: nat): (r: seq<FilteredMovie>)
    ensures |r| <= limit
    ensures |r| == |Filter(FilterRows(cat, cfg, limit), Converts)|
    ensures forall d :: d in r ==> exists j :: j in FilterRows(cat, cfg, limit) && Converts(j) && ToFiltered(j) == d
    ensures forall j :: j in FilterRows(cat, cfg, limit) && Converts(j) ==> ToFiltered(j) in r
    ensures (forall j :: j in FilterCandidates(cat, cfg) ==> Converts(j)) ==> |r| == Min(limit, |FilterCandidates(cat, cfg)|)
    ensures forall d :: d in r ==> Admitted(d, cfg)
    ensures forall d :: d in r ==> exists t :: t in cat.movies && IsMovie(t) && t.tconst == d.id
    ensures forall i, k :: 0 <= i < k < |r| ==>
      r[i].rating > r[k].rating || (r[i].rating == r[k].rating && r[i].votes >= r[k].votes)
  {
    var rows := FilterRows(cat, cfg, limit);
    ConvertAllOrder(rows);
    ConvertAllAdmitted(rows, cfg, cat.movies);
    if forall j :: j in FilterCandidates(cat, cfg) ==> Converts(j) then
      FilterAll(rows, Converts);
      ConvertAll(rows)
    else ConvertAll(rows)
  }

  lemma NoMemberEmpty<T>(s: seq<T>)
    requires forall x :: x !in s
    ensures s == []
  {
    forall x ensures multiset(s)[x] == 0 {
      assert x !in s;
    }
    assert multiset(s) == multiset{};
  }

  /** Bounds that contradict each other give an empty answer. */
  lemma ContradictoryBounds(cat: Catalog, cfg: FilterConfig, limit: nat)
    requires (cfg.minYear.Some? && cfg.maxYear.Some? && cfg.minYear.value > cfg.maxYear.value)
      || (cfg.minRuntime.Some? && cfg.maxRuntime.Some? && cfg.minRuntime.value > cfg.maxRuntime.value)
    ensures GetMoviesWithFilters(cat, cfg, limit) == []
  {
    forall d ensures !Admitted(d, cfg) {
      if cfg.minYear.Some? && cfg.maxYear.Some? && cfg.minYear.value > cfg.maxYear.value {
        if d.year.Some? {
          EmptyRange(Some(d.year.value as real), cfg.minYear.value, cfg.maxYear.value);
        }
      } else if d.runtime.Some? {
        EmptyRange(Some(d.runtime.value as real), cfg.minRuntime.value, cfg.maxRuntime.value);
      }
    }
    NoMemberEmpty(GetMoviesWithFilters(cat, cfg, limit));
  }
}

=== FILE: ranking.dfy ===
/** Descending `sort_values(...)` followed by `head(limit)`.

    Every ranking in the collector sorts rows descending by a key that is
    either one column (rating, or votes) or two (rating, then votes). Both
    fit a two-part key compared lexicographically. Ties are not ordered by
    the contracts here: pandas' default single-column sort is not stable, so
    the model only promises what every valid sort delivers. */
module Ranking {
  import opened Seqs

  datatype Key = Key(major: real, minor: int)

  /** `a` ranks at or above `b` in a descending sort. */
  predicate Ge(a: Key, b: Key) {
    a.major > b.major || (a.major == b.major && a.minor >= b.minor)
  }

  predicate SortedDesc<T>(s: seq<T>, key: T -> Key) {
    forall i, j :: 0 <= i < j < |s| ==> Ge(key(s[i]), key(s[j]))
  }

  function Min(a: nat, b: nat): nat {
    if a <= b then a else b
  }

  /** Place `x` into a descending sequence, before the first row it ranks at
      or above. */
  function Insert<T(==)>(x: T, s: seq<T>, key: T -> Key): (r: seq<T>)
    requires SortedDesc(s, key)
    ensures SortedDesc(r, key)
    ensures multiset(r) == multiset(s) + multiset{x}
    ensures |r| == |s| + 1
    ensures forall y :: y in r ==> y == x || y in s
  {
    if |s| == 0 || Ge(key(x), key(s[0])) then [x] + s
    else
      var rest := Insert(x, s[1..], key);
      var r := [s[0]] + rest;
      assert s == [s[0]] + s[1..];
      forall j | 1 <= j < |r| ensures Ge(key(s[0]), key(r[j])) {
        assert r[j] in rest;
      }
      r
  }

  /** A descending sort: a permutation of `s` in non-increasing key order. */
  function SortDesc<T(==)>(s: seq<T>, key: T -> Key): (r: seq<T>)
    ensures SortedDesc(r, key)
    ensures multiset(r) == multiset(s)
    ensures |r| == |s|
  {
    if |s| == 0 then []
    else
      assert s == [s[0]] + s[1..];
      Insert(s[0], SortDesc(s[1..], key), key)
  }

  /** Inserting `x` puts it ahead of every row with the same key, so the
      rows of key `k` (those `same` selects) keep their order. */
  lemma {:induction false} InsertStable<T(!new)>(x: T, s: seq<T>, key: T -> Key, k: Key, same: T -> bool)
    requires SortedDesc(s, key)
    requires forall y :: same(y) == (key(y) == k)
    ensures Filter(Insert(x, s, key), same) == (if same(x) then [x] else []) + Filter(s, same)
  {
    if |s| == 0 || Ge(key(x), key(s[0])) {
      FilterCons(x, s, same);
    } else {
      var rest := Insert(x, s[1..], key);
      InsertStable(x, s[1..], key, k, same);
      assert s == [s[0]] + s[1..];
      StableStep(x, s[0], rest, s[1..], same);
    }
  }

  /** One step of `InsertStable`: a row that does not share `x`'s key may
      stay ahead of it. */
  lemma StableStep<T(!new)>(x: T, h: T, rest: seq<T>, tail: seq<T>, same: T -> bool)
    requires Filter(rest, same) == (if same(x) then [x] else []) + Filter(tail, same)
    requires same(x) ==> !same(h)
    ensures Filter([h] + rest, same) == (if same(x) then [x] else []) + Filter([h] + tail, same)
  {
    FilterCons(h, rest, same);
    FilterCons(h, tail, same);
    Swap(if same(h) then [h] else [], if same(x) then [x] else [], Filter(tail, same));
  }

  /** Two parts of which one is empty commute in front of a third. */
  lemma Swap<T>(a: seq<T>, b: seq<T>, t: seq<T>)
    requires a == [] || b == []
    ensures a + (b + t) == b + (a + t)
  {
    if a == [] {
      assert a + (b + t) == b + t;
    } else {
      assert b + (a + t) == a + t;
    }
  }

  /** The sort is stable: the rows of any one key `k` (those `same`
      selects) come out in their input order. */
  lemma {:induction false} SortStable<T(!new)>(s: seq<T>, key: T -> Key, k: Key, same: T -> bool)
    requires forall y :: same(y) == (key(y) == k)
    ensures Filter(SortDesc(s, key), same) == Filter(s, same)
  {
    if |s| > 0 {
      SortStable(s[1..], key, k, same);
      InsertStable(s[0], SortDesc(s[1..], key), key, k, same);
    }
  }

  /** In a descending sequence, every row past position `n` ranks at or
      below every row before it. */
  lemma PrefixDominates<T>(sorted: seq<T>, n: nat, key: T -> Key)
    requires SortedDesc(sorted, key) && n <= |sorted|
    ensures multiset(sorted[..n]) <= multiset(sorted)
    ensures forall x, y :: x in multiset(sorted) - multiset(sorted[..n]) && y in sorted[..n] ==> Ge(key(y), key(x))
  {
    var r := sorted[..n];
    assert sorted == r + sorted[n..];
    assert multiset(sorted) == multiset(r) + multiset(sorted[n..]);
    forall x, y | x in multiset(sorted) - multiset(r) && y in r
      ensures Ge(key(y), key(x))
    {
      assert x in multiset(sorted[n..]);
      var j :| 0 <= j < |sorted[n..]| && sorted[n..][j] == x;
      var i :| 0 <= i < n && r[i] == y;
      assert sorted[i] == y && sorted[n + j] == x;
    }
  }

  /** A row of `s` missing from a sub-multiset `r` is among the leftovers,
      and every row of `r` is a row of `s`. */
  lemma Leftovers<T>(s: seq<T>, r: seq<T>)
    requires multiset(r) <= multiset(s)
    ensures forall x :: x in s && x !in r ==> x in multiset(s) - multiset(r)
    ensures forall y :: y in r ==> y in s
  {
    forall x | x in s && x !in r ensures x in multiset(s) - multiset(r) {
      assert x in multiset(s);
    }
    forall y | y in r ensures y in s {
      assert y in multiset(r);
    }
  }

  /** `sort_values(key, ascending=False).head(limit)`: the `limit` best
      rows (all of them if fewer), best first, drawn from `s`, and no row
      left behind ranks above a row that was kept. */
  function TopN<T(==)>(s: seq<T>, key: T -> Key, limit: nat): (r: seq<T>)
    ensures |r| == Min(limit, |s|)
    ensures SortedDesc(r, key)
    ensures multiset(r) <= multiset(s)
    ensures forall x, y :: x in multiset(s) - multiset(r) && y in r ==> Ge(key(y), key(x))
    ensures forall x, y :: x in s && x !in r && y in r ==> Ge(key(y), key(x))
    ensures forall y :: y in r ==> y in s
  {
    var sorted := SortDesc(s, key);
    var n := Min(limit, |s|);
    var r := sorted[..n];
    PrefixDominates(sorted, n, key);
    Leftovers(s, r);
    r
  }
}

=== FILE: schema.dfy ===
/** `MovieSchema`: cleaning a frame of movie records into the sixteen
    required columns, and checking a frame against them.

    A cell is a `Value`, the Python objects a record can hold. `Null` is
    every value `pd.isna` reports as missing (None, NaN, NA). A frame is a
    list of column names and its rows; a row maps column names to cells, and
    a row without a key reads as `Null`, as pandas fills it. */
module Schema {
  import opened Wrappers
  import opened Text
  import opened Seqs

  datatype Value =
    | Null
    | Bool(b: bool)
    | Int(i: int)
    | Real(r: real)
    | Str(s: String)
    | List(items: seq<Value>)
    | Dict(entries: map<String, Value>)

  type Row = map<String, Value>

  datatype Frame = Frame(columns: seq<String>, rows: seq<Row>)

  /** `row[c]`, NaN when the row never had the key. */
  function Get(r: Row, c: String): Value {
    if c in r then r[c] else Null
  }

  // ---------------------------------------------------------------------
  // The required columns
  // ---------------------------------------------------------------------

  datatype ColType = IntCol | FloatCol | StrCol | ListCol

  /** `required_columns`, in declaration order. */
  const Required: seq<(String, ColType)> := [
    ("id", IntCol),
    ("title", StrCol),
    ("overview", StrCol),
    ("release_date", StrCol),
    ("vote_average", FloatCol),
    ("vote_count", IntCol),
    ("popularity", FloatCol),
    ("original_language", StrCol),
    ("runtime", IntCol),
    ("budget", IntCol),
    ("revenue", IntCol),
    ("genres", ListCol),
    ("production_companies", ListCol),
    ("cast", ListCol),
    ("crew", ListCol),
    ("keywords", ListCol)
  ]

  function RequiredNames(): (ns: seq<String>)
    ensures |ns| == |Required|
    ensures forall i :: 0 <= i < |Required| ==> ns[i] == Required[i].0
  {
    seq(|Required|, i requires 0 <= i < |Required| => Required[i].0)
  }

  /** Positions of the columns the collector's records touch. */
  lemma RequiredAt()
    ensures Required[0] == ("id", IntCol)
    ensures Required[11] == ("genres", ListCol)
    ensures Required[13] == ("cast", ListCol)
    ensures Required[14] == ("crew", ListCol)
  {
  }

  /** `type_() if type_ in (list, dict) else type_(0)`: the value a missing
      column is filled with (str(0) is the string "0"). */
  function Default(t: ColType): Value {
    match t
    case IntCol => Int(0)
    case FloatCol => Real(0.0)
    case StrCol => Str("0")
    case ListCol => List([])
  }

  // ---------------------------------------------------------------------
  // _clean_text
  // ---------------------------------------------------------------------

  /** `""` for a missing or non-string value, else the value stripped. */
  function CleanText(v: Value): (r: String)
    ensures v.Str? ==> r == Strip(v.s)
    ensures !v.Str? ==> r == ""
    ensures r == [] || (!IsSpace(r[0]) && !IsSpace(r[|r| - 1]))
  {
    if v.Str? then Strip(v.s) else ""
  }

  /** Whether `pd.isna(v)` is an array too long for a truth test: for a
      list it is one flag per item, and `or` on two or more flags raises. */
  predicate Ambiguous(v: Value) {
    v.List? && |v.items| >= 2
  }

  /** `_clean_text` as `apply` runs it on a cell: a list of two or more
      items raises before the type check is reached; every other value is
      cleaned. */
  function CleanTextCell(v: Value): (r: Result<Value, SchemaError>)
    ensures r.Err? <==> Ambiguous(v)
    ensures r.Ok? ==> r.value.Str? && r.value.s == CleanText(v)
    ensures r.Ok? && !v.Str? ==> r.value == Str("")
  {
    if Ambiguous(v) then Err(AmbiguousTruth) else Ok(Str(CleanText(v)))
  }

  lemma CleanTextIdempotent(v: Value)
    ensures CleanText(Str(CleanText(v))) == CleanText(v)
  {
    if v.Str? {
      StripIdempotent(v.s);
    }
  }

  // ---------------------------------------------------------------------
  // _convert_date
  // ---------------------------------------------------------------------

  predicate IsLeap(y: int) {
    y % 4 == 0 && (y % 100 != 0 || y % 400 == 0)
  }

  function DaysInMonth(y: int, m: int): int
    requires 1 <= m <= 12
  {
    if m == 2 then (if IsLeap(y) then 29 else 28)
    else if m == 4 || m == 6 || m == 9 || m == 11 then 30
    else 31
  }

  /** A calendar date `datetime` accepts. */
  predicate ValidDate(y: int, m: int, d: int) {
    1 <= y <= 9999 && 1 <= m <= 12 && 1 <= d <= DaysInMonth(y, m)
  }

  /** What `%m` matches: `1[0-2]|0[1-9]|[1-9]`. */
  predicate MonthToken(t: String) {
    1 <= |t| <= 2 && IsDigits(t) && 1 <= DigitsValue(t) <= 12
  }

  /** What `%d` matches: `3[01]|[12]\d|0[1-9]|[1-9]| [1-9]`. */
  predicate DayToken(t: String) {
    (1 <= |t| <= 2 && IsDigits(t) && 1 <= DigitsValue(t) <= 31)
    || (|t| == 2 && t[0] == ' ' && '1' <= t[1] <= '9')
  }

  function DayValue(t: String): int
    requires DayToken(t)
  {
    if t[0] == ' ' then DigitsValue(t[1..]) else DigitsValue(t)
  }

  /** `datetime.strptime(s, '%Y-%m-%d')`: four digits, a dash, a month, a
      dash, a day, nothing else, and a real calendar date. */
  function ParseDate(s: String): (r: Option<(int, int, int)>)
    ensures r.Some? ==> ValidDate(r.value.0, r.value.1, r.value.2)
  {
    var parts := Split(s, '-');
    if |parts| == 3 && |parts[0]| == 4 && IsDigits(parts[0]) && MonthToken(parts[1]) && DayToken(parts[2]) then
      DigitsBound(parts[0]);
      var y := DigitsValue(parts[0]);
      var m := DigitsValue(parts[1]);
      var d := DayValue(parts[2]);
      if 1 <= y && d <= DaysInMonth(y, m) then Some((y, m, d)) else None
    else None
  }

  lemma {:induction false} DigitsBound(s: String)
    requires forall i :: 0 <= i < |s| ==> IsDigit(s[i])
    ensures DigitsValue(s) < Pow10(|s|)
  {
    if |s| > 0 {
      DigitsBound(s[..|s| - 1]);
    }
  }

  function Pad2(n: nat): (r: String)
    requires n < 100
    ensures |r| == 2 && IsDigits(r)
  {
    [DigitChar(n / 10), DigitChar(n % 10)]
  }

  function Pad4(n: nat): (r: String)
    requires n < 10000
    ensures |r| == 4 && IsDigits(r)
  {
    [DigitChar(n / 1000), DigitChar(n / 100 % 10), DigitChar(n / 10 % 10), DigitChar(n % 10)]
  }

  /** `strftime('%Y-%m-%d')`. */
  function FormatDate(y: int, m: int, d: int): String
    requires ValidDate(y, m, d)
  {
    Pad4(y) + "-" + Pad2(m) + "-" + Pad2(d)
  }

  /** `_convert_date`: a parsable date string comes back in canonical form;
      NA, any other string and any non-string (TypeError) give None. */
  function ConvertDate(v: Value): (r: Value)
    ensures r.Null? || r.Str?
    ensures r.Str? <==> v.Str? && ParseDate(v.s).Some?
  {
    if v.Str? then
      match ParseDate(v.s)
      case Some((y, m, d)) => Str(FormatDate(y, m, d))
      case None => Null
    else Null
  }

  lemma DigitsValuePad2(n: nat)
    requires n < 100
    ensures DigitsValue(Pad2(n)) == n
  {
    var p := Pad2(n);
    assert p[..1] == [p[0]];
    assert [p[0]][..0] == [];
    assert DigitsValue(p[..1]) == n / 10;
  }

  lemma DigitsValuePad4(n: nat)
    requires n < 10000
    ensures DigitsValue(Pad4(n)) == n
  {
    var p := Pad4(n);
    var p1, p2, p3 := p[..1], p[..2], p[..3];
    assert p1[..0] == [];
    assert p2[..1] == p1;
    assert p3[..2] == p2;
    assert DigitsValue(p1) == n / 1000;
    assert DigitsValue(p2) == n / 100;
    assert DigitsValue(p3) == n / 10;
  }

  lemma DigitsNoDash(a: String)
    requires IsDigits(a)
    ensures '-' !in a
  {
  }

  lemma SplitDate(a: String, b: String, c: String)
    requires IsDigits(a) && IsDigits(b) && IsDigits(c)
    ensures Split(a + "-" + b + "-" + c, '-') == [a, b, c]
  {
    DigitsNoDash(a);
    DigitsNoDash(b);
    DigitsNoDash(c);
    var bc := b + ['-'] + c;
    SplitNoSep(c, '-');
    SplitCons(b, '-', c);
    assert Split(bc, '-') == [b, c];
    SplitCons(a, '-', bc);
    assert a + "-" + b + "-" + c == a + ['-'] + bc;
  }

  /** The tokens of a formatted date are the ones `%Y`, `%m` and `%d` read. */
  lemma DateTokens(y: int, m: int, d: int)
    requires ValidDate(y, m, d)
    ensures |Pad4(y)| == 4 && IsDigits(Pad4(y)) && DigitsValue(Pad4(y)) == y
    ensures MonthToken(Pad2(m)) && DigitsValue(Pad2(m)) == m
    ensures DayToken(Pad2(d)) && DayValue(Pad2(d)) == d
  {
    DigitsValuePad4(y);
    DigitsValuePad2(m);
    DigitsValuePad2(d);
    assert Pad2(d)[0] != ' ';
  }

  /** A formatted date parses back to itself. */
  lemma ParseFormatDate(y: int, m: int, d: int)
    requires ValidDate(y, m, d)
    ensures ParseDate(FormatDate(y, m, d)) == Some((y, m, d))
  {
    SplitDate(Pad4(y), Pad2(m), Pad2(d));
    DateTokens(y, m, d);
  }

  /** Converting a converted date changes nothing. */
  lemma ConvertDateIdempotent(v: Value)
    ensures ConvertDate(ConvertDate(v)) == ConvertDate(v)
  {
    if v.Str? && ParseDate(v.s).Some? {
      var (y, m, d) := ParseDate(v.s).value;
      ParseFormatDate(y, m, d);
    }
  }

  /** A date already in canonical form is kept as it is. */
  lemma CanonicalDateKept(y: int, m: int, d: int)
    requires ValidDate(y, m, d)
    ensures ConvertDate(Str(FormatDate(y, m, d))) == Str(FormatDate(y, m, d))
  {
    ParseFormatDate(y, m, d);
  }

  /** A day past the end of its month is no date, whatever the text. */
  lemma {:induction false} ConvertDateRejectsOverflow(y: nat, m: nat, d: nat)
    requires 1 <= y <= 9999 && 1 <= m <= 12 && DaysInMonth(y, m) < d <= 31
    ensures ConvertDate(Str(Pad4(y) + "-" + Pad2(m) + "-" + Pad2(d))) == Null
  {
    SplitDate(Pad4(y), Pad2(m), Pad2(d));
    DigitsValuePad4(y);
    DigitsValuePad2(m);
    DigitsValuePad2(d);
    assert Pad2(d)[0] != ' ';
  }

  // ---------------------------------------------------------------------
  // _clean_numeric
  // ---------------------------------------------------------------------

  datatype NumKind = IntKind | FloatKind

  /** `int(x)` of a float truncates toward zero. */
  function Truncate(r: real): (i: int)
    ensures r >= 0.0 ==> i as real <= r < i as real + 1.0
    ensures r < 0.0 ==> i as real - 1.0 < r <= i as real
  {
    if r >= 0.0 then r.Floor else -((-r).Floor)
  }

  /** `_clean_numeric(value, int|float)`: NA and anything the conversion
      rejects become zero; booleans count as 0 and 1; an int of a float
      truncates. */
  function CleanNumeric(v: Value, k: NumKind): (r: Value)
    ensures k == IntKind ==> r.Int?
    ensures k == FloatKind ==> r.Real?
    ensures v.Null? || v.List? || v.Dict? ==> r == (if k == IntKind then Int(0) else Real(0.0))
    ensures k == IntKind && v.Int? ==> r == v
    ensures k == IntKind && v.Real? ==> r == Int(Truncate(v.r))
    ensures k == IntKind && v.Str? && ParseInt(v.s).Some? ==> r == Int(ParseInt(v.s).value)
    ensures k == IntKind && v.Str? && ParseInt(v.s).None? ==> r == Int(0)
    ensures k == FloatKind && v.Real? ==> r == v
    ensures k == FloatKind && v.Int? ==> r == Real(v.i as real)
    ensures k == FloatKind && v.Str? && ParseReal(v.s).Some? ==> r == Real(ParseReal(v.s).value)
    ensures k == FloatKind && v.Str? && ParseReal(v.s).None? ==> r == Real(0.0)
    ensures v.Bool? ==> r == (if k == IntKind then Int(if v.b then 1 else 0) else Real(if v.b then 1.0 else 0.0))
  {
    match k
    case IntKind =>
      (match v
       case Bool(b) => Int(if b then 1 else 0)
       case Int(i) => Int(i)
       case Real(x) => Int(Truncate(x))
       case Str(s) => Int(ParseInt(s).GetOr(0))
       case _ => Int(0))
    case FloatKind =>
      match v
      case Bool(b) => Real(if b then 1.0 else 0.0)
      case Int(i) => Real(i as real)
      case Real(x) => Real(x)
      case Str(s) => Real(ParseReal(s).GetOr(0.0))
      case _ => Real(0.0)
  }

  /** Integer text cleans to the same number under either kind: `int` and
      `float` agree on it. */
  lemma CleanNumericKindsAgree(s: String)
    ensures ParseInt(s).Some? ==>
      CleanNumeric(Str(s), FloatKind) == Real(CleanNumeric(Str(s), IntKind).i as real)
  {
    ParseIntReal(s);
  }

  /** Cleaning a cleaned number changes nothing, and an integer written
      out as text is read back. */
  lemma CleanNumericIdempotent(v: Value, k: NumKind, i: int)
    ensures CleanNumeric(CleanNumeric(v, k), k) == CleanNumeric(v, k)
    ensures CleanNumeric(Str(ShowInt(i)), IntKind) == Int(i)
  {
    ParseShowInt(i);
  }

  // ---------------------------------------------------------------------
  // _extract_names and the cast / crew formatting
  // ---------------------------------------------------------------------

  /** `item.get(key, '')`. */
  function Field(d: map<String, Value>, key: String): Value {
    if key in d then d[key] else Str("")
  }

  /** `isinstance(item, dict)`. */
  predicate IsDict(v: Value) {
    v.Dict?
  }

  /** `[item.get('name', '') for item in items if isinstance(item, dict)]`:
      one name per dictionary, in list order, whatever else the list holds. */
  function NamesOf(items: seq<Value>): (r: seq<Value>)
    ensures |r| <= |items|
    ensures forall x :: x in r ==> exists d :: Dict(d) in items && x == Field(d, "name")
    ensures forall d :: Dict(d) in items ==> Field(d, "name") in r
  {
    if |items| == 0 then []
    else
      assert items == [items[0]] + items[1..];
      (if items[0].Dict? then [Field(items[0].entries, "name")] else []) + NamesOf(items[1..])
  }

  /** The names, read off the dictionaries of the list selected in order:
      the i-th name belongs to the i-th dictionary. */
  lemma {:induction false} NamesOfSelected(items: seq<Value>)
    ensures |NamesOf(items)| == |Filter(items, IsDict)|
    ensures forall i :: 0 <= i < |NamesOf(items)| ==>
      Filter(items, IsDict)[i].Dict? && NamesOf(items)[i] == Field(Filter(items, IsDict)[i].entries, "name")
  {
    if |items| > 0 {
      NamesOfSelected(items[1..]);
      assert items == [items[0]] + items[1..];
      var ds := Filter(items, IsDict);
      var rest := Filter(items[1..], IsDict);
      assert ds == (if IsDict(items[0]) then [items[0]] else []) + rest;
      var ns := NamesOf(items);
      assert ns == (if items[0].Dict? then [Field(items[0].entries, "name")] else []) + NamesOf(items[1..]);
      if items[0].Dict? {
        forall i | 1 <= i < |ns| ensures ds[i].Dict? && ns[i] == Field(ds[i].entries, "name") {
          assert ds[i] == rest[i - 1];
          assert ns[i] == NamesOf(items[1..])[i - 1];
        }
      }
    }
  }

  /** The names of a concatenation are the names of each part in turn, so
      the list's order is kept and no repeated name is collapsed. */
  lemma {:induction false} NamesOfConcat(a: seq<Value>, b: seq<Value>)
    ensures NamesOf(a + b) == NamesOf(a) + NamesOf(b)
  {
    if |a| == 0 {
      assert a + b == b;
    } else {
      assert (a + b)[0] == a[0];
      assert (a + b)[1..] == a[1..] + b;
      NamesOfConcat(a[1..], b);
    }
  }

  /** One item: a dictionary gives its name, or `''` when it has no
      `name` key; anything else gives nothing. */
  lemma NamesOfOne(x: Value)
    ensures x.Dict? && "name" in x.entries ==> NamesOf([x]) == [x.entries["name"]]
    ensures x.Dict? && "name" !in x.entries ==> NamesOf([x]) == [Str("")]
    ensures !x.Dict? ==> NamesOf([x]) == []
  {
    assert [x][1..] == [];
  }

  /** `_extract_names`: the names of the dictionaries in a list value; a
      value that is not a list gives the empty list. */
  function ExtractNames(v: Value): (r: seq<Value>)
    ensures !v.List? ==> r == []
    ensures v.List? ==> |r| <= |v.items|
    ensures v.List? ==> forall x :: x in r ==> exists d :: Dict(d) in v.items && x == Field(d, "name")
    ensures v.List? ==> forall d :: Dict(d) in v.items ==> Field(d, "name") in r
    ensures v.List? ==> |r| == |Filter(v.items, IsDict)|
    ensures v.List? ==> forall i :: 0 <= i < |r| ==>
      Filter(v.items, IsDict)[i].Dict? && r[i] == Field(Filter(v.items, IsDict)[i].entries, "name")
  {
    if v.List? then NamesOfSelected(v.items); NamesOf(v.items) else []
  }

  /** A list of plain strings, such as a genre list split from text, has no
      dictionaries and so no names. */
  lemma {:induction false} NamesOfStrings(items: seq<Value>)
    requires forall x :: x in items ==> x.Str?
    ensures ExtractNames(List(items)) == []
  {
    if |items| > 0 {
      assert items[0] in items;
      NamesOfStrings(items[1..]);
    }
  }

  datatype SchemaError =
    | NotADict          // `p.get` on an item that is not a dict (AttributeError)
    | LengthMismatch    // `df[col] = []` on a frame that has rows (ValueError)
    | AmbiguousTruth    // `pd.isna(x) or ...` on a list of two or more items (ValueError)

  /** `f"{x}"`: a string as itself, any other value through `show`. */
  function Format(show: Value -> String, v: Value): String {
    if v.Str? then v.s else show(v)
  }

  /** One cast entry `f"{name} as {character}"` or crew entry
      `f"{name} ({job})"`. */
  function Entry(show: Value -> String, d: map<String, Value>, second: String, crew: bool): String {
    var name := Format(show, Field(d, "name"));
    var other := Format(show, Field(d, second));
    if crew then name + " (" + other + ")" else name + " as " + other
  }

  /** The cast or crew list: the first five entries of a list (none for a
      non-list), each rendered from its name and a second field. */
  function People(show: Value -> String, v: Value, second: String, crew: bool): (r: Result<seq<Value>, SchemaError>)
    ensures var items := if v.List? then v.items else [];
      r.Ok? <==> forall i :: 0 <= i < |items| && i < 5 ==> items[i].Dict?
    ensures r.Ok? ==> |r.value| == (if v.List? then (if |v.items| < 5 then |v.items| else 5) else 0)
    ensures r.Ok? ==> forall x :: x in r.value ==> x.Str?
    ensures r.Ok? ==> forall i :: 0 <= i < |r.value| ==>
      v.List? && v.items[i].Dict? && r.value[i] == Str(Entry(show, v.items[i].entries, second, crew))
  {
    var items := if v.List? then v.items else [];
    var first := if |items| < 5 then items else items[..5];
    if forall i :: 0 <= i < |first| ==> first[i].Dict? then
      Ok(seq(|first|, i requires 0 <= i < |first| && first[i].Dict? => Str(Entry(show, first[i].entries, second, crew))))
    else Err(NotADict)
  }

  /** A missing key reads as `''`: an entry with neither key renders as
      `" as "` in the cast and `" ()"` in the crew, and a string name with
      no second key is followed by an empty second part. */
  lemma EntryMissingKeys(show: Value -> String, d: map<String, Value>, second: String, crew: bool)
    ensures "name" !in d && second !in d ==> Entry(show, d, second, crew) == (if crew then " ()" else " as ")
    ensures "name" in d && d["name"].Str? && second !in d ==>
      Entry(show, d, second, crew) == d["name"].s + (if crew then " ()" else " as ")
  {
  }

  /** Only the first five entries matter: entries past the fifth are never
      looked at, not even to check that they are dictionaries. */
  lemma PeopleFirstFive(show: Value -> String, items: seq<Value>, rest: seq<Value>, second: String, crew: bool)
    requires |items| == 5
    ensures People(show, List(items + rest), second, crew) == People(show, List(items), second, crew)
  {
    assert (items + rest)[..5] == items;
    assert items[..5] == items;
  }

  // ---------------------------------------------------------------------
  // apply
  // ---------------------------------------------------------------------

  /** The cleaning step `apply` puts a column through. */
  datatype Rule =
    | Keep
    | TextRule
    | DateRule
    | NumberRule(kind: NumKind)
    | NamesRule
    | PeopleRule(second: String, crew: bool)

  function RuleOf(c: String): Rule {
    if c == "title" || c == "overview" || c == "original_language" then TextRule
    else if c == "release_date" then DateRule
    else if c == "vote_average" || c == "popularity" then NumberRule(FloatKind)
    else if c == "vote_count" || c == "runtime" || c == "budget" || c == "revenue" then NumberRule(IntKind)
    else if c == "genres" || c == "production_companies" || c == "keywords" then NamesRule
    else if c == "cast" then PeopleRule("character", false)
    else if c == "crew" then PeopleRule("job", true)
    else Keep
  }

  function CleanCell(show: Value -> String, v: Value, rule: Rule): Result<Value, SchemaError> {
    match rule
    case Keep => Ok(v)
    case TextRule => CleanTextCell(v)
    case DateRule => Ok(ConvertDate(v))
    case NumberRule(k) => Ok(CleanNumeric(v, k))
    case NamesRule => Ok(List(ExtractNames(v)))
    case PeopleRule(second, crew) =>
      match People(show, v, second, crew)
      case Ok(ps) => Ok(List(ps))
      case Err(e) => Err(e)
  }

  /** The cell of required column `c` after `apply`: cleaned by its rule
      when the frame had the column, the default for its type otherwise. */
  function Target(show: Value -> String, cols: seq<String>, r: Row, c: String, t: ColType): Result<Value, SchemaError> {
    if c in cols then CleanCell(show, Get(r, c), RuleOf(c)) else Ok(Default(t))
  }

  function TargetValue(show: Value -> String, cols: seq<String>, r: Row, i: int): Value
    requires 0 <= i < |Required|
  {
    match Target(show, cols, r, Required[i].0, Required[i].1)
    case Ok(v) => v
    case Err(_) => Null
  }

  /** The row of a frame with columns `ns` and cells `vs`. */
  function Zip(ns: seq<String>, vs: seq<Value>): (m: Row)
    requires |ns| == |vs|
    ensures m.Keys == set i | 0 <= i < |ns| :: ns[i]
    ensures forall i :: 0 <= i < |ns| && (forall j :: 0 <= j < i ==> ns[j] != ns[i]) ==> m[ns[i]] == vs[i]
  {
    if |ns| == 0 then map[]
    else
      var m := Zip(ns[1..], vs[1..])[ns[0] := vs[0]];
      assert forall i :: 1 <= i < |ns| ==> ns[i] == ns[1..][i - 1];
      m
  }

  lemma RequiredDistinct()
    ensures forall i, j :: 0 <= i < j < |Required| ==> Required[i].0 != Required[j].0
  {
  }

  predicate RowOk(show: Value -> String, cols: seq<String>, r: Row) {
    forall i :: 0 <= i < |Required| ==> Target(show, cols, r, Required[i].0, Required[i].1).Ok?
  }

  /** Column `j` is the first required column whose rule fails on `r`, and
      it fails with `e`. */
  predicate FailsFirstAt(show: Value -> String, cols: seq<String>, r: Row, j: nat, e: SchemaError)
    requires j < |Required|
  {
    Target(show, cols, r, Required[j].0, Required[j].1) == Err(e)
    && forall m :: 0 <= m < j ==> Target(show, cols, r, Required[m].0, Required[m].1).Ok?
  }

  /** The error of the first required column, from position `i` on and in
      `Required`'s declared order, whose rule fails on `r`. `apply` visits
      the columns in another order, but only title, overview,
      original_language, cast and crew can fail, and those five come in
      the same relative order in both, so this is the error it raises. */
  function FirstFailure(show: Value -> String, cols: seq<String>, r: Row, i: nat): Option<SchemaError>
    requires i <= |Required|
    decreases |Required| - i
  {
    if i == |Required| then None
    else
      match Target(show, cols, r, Required[i].0, Required[i].1)
      case Err(e) => Some(e)
      case Ok(_) => FirstFailure(show, cols, r, i + 1)
  }

  /** `FirstFailure` finds nothing iff every column from `i` on cleans, and
      otherwise the error of the first one that does not. */
  lemma {:induction false} FirstFailureSpec(show: Value -> String, cols: seq<String>, r: Row, i: nat)
    requires i <= |Required|
    requires forall m :: 0 <= m < i ==> Target(show, cols, r, Required[m].0, Required[m].1).Ok?
    ensures FirstFailure(show, cols, r, i).None? <==>
      forall j :: i <= j < |Required| ==> Target(show, cols, r, Required[j].0, Required[j].1).Ok?
    ensures FirstFailure(show, cols, r, i).Some? ==>
      exists j :: i <= j < |Required| && FailsFirstAt(show, cols, r, j, FirstFailure(show, cols, r, i).value)
    decreases |Required| - i
  {
    if i < |Required| {
      match Target(show, cols, r, Required[i].0, Required[i].1)
      case Err(e) =>
        assert FailsFirstAt(show, cols, r, i, e);
      case Ok(_) =>
        FirstFailureSpec(show, cols, r, i + 1);
    }
  }

  /** The error a row that does not clean raises. */
  function RowError(show: Value -> String, cols: seq<String>, r: Row): SchemaError {
    match FirstFailure(show, cols, r, 0)
    case Some(e) => e
    case None => NotADict
  }

  /** One row of `apply`'s result: exactly the required columns, or the
      error of the first column whose rule fails. */
  function CleanRow(show: Value -> String, cols: seq<String>, r: Row): (res: Result<Row, SchemaError>)
    ensures res.Ok? <==> RowOk(show, cols, r)
    ensures res.Ok? ==> res.value.Keys == set i | 0 <= i < |Required| :: Required[i].0
    ensures res.Ok? ==> forall i :: 0 <= i < |Required| ==> res.value[Required[i].0] == TargetValue(show, cols, r, i)
  {
    if RowOk(show, cols, r) then
      RequiredDistinct();
      Ok(Zip(RequiredNames(), seq(|Required|, i requires 0 <= i < |Required| => TargetValue(show, cols, r, i))))
    else Err(RowError(show, cols, r))
  }

  /** A row that does not clean fails with the error of its first failing
      column. */
  lemma CleanRowFirstError(show: Value -> String, cols: seq<String>, r: Row)
    ensures CleanRow(show, cols, r).Err? ==>
      exists j :: 0 <= j < |Required| && FailsFirstAt(show, cols, r, j, CleanRow(show, cols, r).error)
  {
    FirstFailureSpec(show, cols, r, 0);
  }

  /** A present title, overview or original_language cell holding a list
      of two or more items. */
  predicate TextAmbiguous(cols: seq<String>, r: Row) {
    ("title" in cols && Ambiguous(Get(r, "title")))
    || ("overview" in cols && Ambiguous(Get(r, "overview")))
    || ("original_language" in cols && Ambiguous(Get(r, "original_language")))
  }

  /** The text columns are cleaned first, so a row that fails raises
      `AmbiguousTruth` iff one of its text cells is ambiguous, and
      `NotADict` (from cast or crew) otherwise. */
  lemma CleanRowErrorKind(show: Value -> String, cols: seq<String>, r: Row)
    ensures CleanRow(show, cols, r).Err? ==>
      (CleanRow(show, cols, r).error == AmbiguousTruth <==> TextAmbiguous(cols, r))
    ensures CleanRow(show, cols, r).Err? && !TextAmbiguous(cols, r) ==> CleanRow(show, cols, r).error == NotADict
  {
    if CleanRow(show, cols, r).Err? {
      var e := CleanRow(show, cols, r).error;
      CleanRowFirstError(show, cols, r);
      var j :| 0 <= j < |Required| && FailsFirstAt(show, cols, r, j, e);
      var c := Required[j].0;
      CellErrors(show, Get(r, c), RuleOf(c));
      if RuleOf(c) == TextRule {
        assert c == "title" || c == "overview" || c == "original_language";
      } else {
        assert c == "cast" || c == "crew";
        assert j == 13 || j == 14 by { RequiredDistinct(); }
        TextColumnsClean(show, cols, r, 1);
        TextColumnsClean(show, cols, r, 2);
        TextColumnsClean(show, cols, r, 7);
      }
    }
  }

  /** Only the text rule and the cast and crew rules can fail. */
  lemma CellErrors(show: Value -> String, v: Value, rule: Rule)
    ensures CleanCell(show, v, rule).Err? ==>
      (rule == TextRule && Ambiguous(v) && CleanCell(show, v, rule).error == AmbiguousTruth)
      || (rule.PeopleRule? && CleanCell(show, v, rule).error == NotADict)
  {
  }

  /** A text column that cleans holds no ambiguous cell. */
  lemma TextColumnsClean(show: Value -> String, cols: seq<String>, r: Row, j: nat)
    requires j == 1 || j == 2 || j == 7
    requires Target(show, cols, r, Required[j].0, Required[j].1).Ok?
    ensures Required[j].0 in cols ==> !Ambiguous(Get(r, Required[j].0))
  {
  }

  function ApplyRows(show: Value -> String, cols: seq<String>, rows: seq<Row>): (res: Result<seq<Row>, SchemaError>)
    ensures res.Ok? <==> forall k :: 0 <= k < |rows| ==> CleanRow(show, cols, rows[k]).Ok?
    ensures res.Ok? ==> |res.value| == |rows|
    ensures res.Ok? ==> forall k :: 0 <= k < |rows| ==> CleanRow(show, cols, rows[k]) == Ok(res.value[k])
  {
    if |rows| == 0 then Ok([])
    else
      assert forall k :: 1 <= k < |rows| ==> rows[k] == rows[1..][k - 1];
      match CleanRow(show, cols, rows[0])
      case Err(e) => Err(e)
      case Ok(first) =>
        match ApplyRows(show, cols, rows[1..])
        case Err(e) => Err(e)
        case Ok(rest) => Ok([first] + rest)
  }

  /** `MovieSchema.apply` with the default for a missing list column read as
      an empty list in every row: each column is cleaned by its rule, a
      missing required column is filled with its default, and the result
      has exactly the required columns in order and one row per input row.
      It fails only when a text cell is a list of two or more items or a
      cast or crew entry among the first five is not a dictionary. */
  function Apply(show: Value -> String, f: Frame): (r: Result<Frame, SchemaError>)
    ensures r.Ok? <==> forall k :: 0 <= k < |f.rows| ==> RowOk(show, f.columns, f.rows[k])
    ensures r.Ok? ==> r.value.columns == RequiredNames() && |r.value.rows| == |f.rows|
    ensures r.Ok? ==> forall k, i :: 0 <= k < |f.rows| && 0 <= i < |Required| ==>
      Get(r.value.rows[k], Required[i].0) == TargetValue(show, f.columns, f.rows[k], i)
  {
    match ApplyRows(show, f.columns, f.rows)
    case Err(e) => Err(e)
    case Ok(rows) => Ok(Frame(RequiredNames(), rows))
  }

  /** A required column that holds lists and is absent from `cols`. */
  predicate MissingList(cols: seq<String>) {
    exists i :: 0 <= i < |Required| && Required[i].1 == ListCol && Required[i].0 !in cols
  }

  /** `MovieSchema.apply` as written: `df[col] = []` for a missing list
      column assigns a zero-length column, which pandas refuses for a frame
      that has rows. */
  function ApplyAsWritten(show: Value -> String, f: Frame): (r: Result<Frame, SchemaError>)
    ensures |f.rows| > 0 && MissingList(f.columns) ==> r.Err?
    ensures !(|f.rows| > 0 && MissingList(f.columns)) ==> r == Apply(show, f)
  {
    match Apply(show, f)
    case Err(e) => Err(e)
    case Ok(g) => if |f.rows| > 0 && MissingList(f.columns) then Err(LengthMismatch) else Ok(g)
  }

  /** A required column the frame lacks comes out holding its type's
      default in every row: `[]` for a list column, 0, 0.0 or "0" otherwise. */
  lemma ApplyFillsMissing(show: Value -> String, f: Frame, k: int, i: int)
    requires 0 <= k < |f.rows| && 0 <= i < |Required| && Required[i].0 !in f.columns
    ensures Apply(show, f).Ok? ==> Get(Apply(show, f).value.rows[k], Required[i].0) == Default(Required[i].1)
    ensures Apply(show, f).Ok? && Required[i].1 == ListCol ==> Get(Apply(show, f).value.rows[k], Required[i].0) == List([])
  {
    assert Target(show, f.columns, f.rows[k], Required[i].0, Required[i].1) == Ok(Default(Required[i].1));
    assert TargetValue(show, f.columns, f.rows[k], i) == Default(Required[i].1);
  }

  /** Only the text cleaning and the cast and crew formatting can fail: a
      row is cleaned unless a text cell holds a list of two or more items
      or one of its first five cast or crew entries is not a dictionary. */
  lemma RowOkIff(show: Value -> String, cols: seq<String>, r: Row)
    ensures RowOk(show, cols, r) <==>
      ("title" in cols ==> !Ambiguous(Get(r, "title")))
      && ("overview" in cols ==> !Ambiguous(Get(r, "overview")))
      && ("original_language" in cols ==> !Ambiguous(Get(r, "original_language")))
      && ("cast" in cols ==> People(show, Get(r, "cast"), "character", false).Ok?)
      && ("crew" in cols ==> People(show, Get(r, "crew"), "job", true).Ok?)
  {
    assert Required[1].0 == "title" && Required[2].0 == "overview" && Required[7].0 == "original_language";
    assert Required[13].0 == "cast" && Required[14].0 == "crew";
  }

  // ---------------------------------------------------------------------
  // validate
  // ---------------------------------------------------------------------

  /** `isinstance(x, type_)` for a value `dropna` keeps; a bool is an int. */
  predicate TypeOk(v: Value, t: ColType) {
    v.Null? ||
    match t
    case IntCol => v.Int? || v.Bool?
    case FloatCol => v.Real?
    case StrCol => v.Str?
    case ListCol => v.List?
  }

  /** `MovieSchema.validate`: every required column is present and each of
      its non-missing cells has the column's type. */
  predicate Validate(f: Frame) {
    (forall i :: 0 <= i < |Required| ==> Required[i].0 in f.columns)
    && (forall k, i :: 0 <= k < |f.rows| && 0 <= i < |Required| ==> TypeOk(Get(f.rows[k], Required[i].0), Required[i].1))
  }

  /** Every column other than `id` comes out of `apply` with its type. */
  lemma TargetTyped(show: Value -> String, cols: seq<String>, r: Row, i: int)
    requires 0 < i < |Required|
    ensures Target(show, cols, r, Required[i].0, Required[i].1).Ok? ==>
      TypeOk(TargetValue(show, cols, r, i), Required[i].1)
  {
  }

  /** After `apply`, every column but `id` has its type in every row. */
  lemma {:induction false} ApplyTyped(show: Value -> String, f: Frame, k: int, i: int)
    requires Apply(show, f).Ok?
    requires 0 <= k < |f.rows| && 0 < i < |Required|
    ensures TypeOk(Get(Apply(show, f).value.rows[k], Required[i].0), Required[i].1)
  {
    assert RowOk(show, f.columns, f.rows[k]);
    TargetTyped(show, f.columns, f.rows[k], i);
  }

  lemma ApplyColumns(show: Value -> String, f: Frame)
    requires Apply(show, f).Ok?
    ensures forall i :: 0 <= i < |Required| ==> Required[i].0 in Apply(show, f).value.columns
  {
    var g := Apply(show, f).value;
    forall i | 0 <= i < |Required| ensures Required[i].0 in g.columns {
      assert g.columns[i] == Required[i].0;
    }
  }

  lemma RuleOfId()
    ensures RuleOf("id") == Keep
  {
  }

  lemma TargetId(show: Value -> String, cols: seq<String>, r: Row)
    ensures TargetValue(show, cols, r, 0) == (if "id" in cols then Get(r, "id") else Int(0))
  {
    RequiredAt();
    RuleOfId();
  }

  /** `apply` leaves `id` as it was, or fills it with 0. */
  lemma ApplyId(show: Value -> String, f: Frame, k: int)
    requires Apply(show, f).Ok? && 0 <= k < |f.rows|
    ensures Get(Apply(show, f).value.rows[k], "id") == (if "id" in f.columns then Get(f.rows[k], "id") else Int(0))
  {
    RequiredAt();
    TargetId(show, f.columns, f.rows[k]);
    assert Get(Apply(show, f).value.rows[k], Required[0].0) == TargetValue(show, f.columns, f.rows[k], 0);
  }

  /** A frame that validates has integer (or missing) ids. */
  lemma ValidIds(g: Frame, k: int)
    requires Validate(g) && 0 <= k < |g.rows|
    ensures TypeOk(Get(g.rows[k], "id"), IntCol)
  {
    RequiredAt();
  }

  /** A cleaned frame passes validation exactly when its `id` cells, which
      `apply` never touches, are integers or missing. */
  lemma {:induction false} ApplyValid(show: Value -> String, f: Frame)
    requires Apply(show, f).Ok?
    ensures Validate(Apply(show, f).value) <==>
      forall k :: 0 <= k < |f.rows| ==> "id" in f.columns ==> TypeOk(Get(f.rows[k], "id"), IntCol)
  {
    var g := Apply(show, f).value;
    ApplyColumns(show, f);
    if forall k :: 0 <= k < |f.rows| ==> "id" in f.columns ==> TypeOk(Get(f.rows[k], "id"), IntCol) {
      forall k, i | 0 <= k < |f.rows| && 0 <= i < |Required|
        ensures TypeOk(Get(g.rows[k], Required[i].0), Required[i].1)
      {
        if i == 0 {
          ApplyId(show, f, k);
          RequiredAt();
        } else {
          ApplyTyped(show, f, k, i);
        }
      }
    } else {
      var k :| 0 <= k < |f.rows| && "id" in f.columns && !TypeOk(Get(f.rows[k], "id"), IntCol);
      ApplyId(show, f, k);
      if Validate(g) {
        ValidIds(g, k);
      }
    }
  }
}

=== FILE: seqs.dfy ===
/** Boolean-mask selection over a sequence of rows: pandas `df[mask]`. */
module Seqs {

  /** The rows of `s` for which `p` holds, in their original order. */
  function Filter<T(==,!new)>(s: seq<T>, p: T -> bool): (r: seq<T>)
    ensures |r| <= |s|
    ensures forall x :: x in r <==> x in s && p(x)
    ensures multiset(r) <= multiset(s)
  {
    if |s| == 0 then []
    else
      assert s == [s[0]] + s[1..];
      (if p(s[0]) then [s[0]] else []) + Filter(s[1..], p)
  }

  /** Selection keeps every copy of a row the mask admits and none of the
      others. */
  lemma {:induction false} FilterCount<T(!new)>(s: seq<T>, p: T -> bool, x: T)
    ensures multiset(Filter(s, p))[x] == if p(x) then multiset(s)[x] else 0
  {
    if |s| > 0 {
      FilterCount(s[1..], p, x);
      assert s == [s[0]] + s[1..];
      assert multiset(s) == multiset{s[0]} + multiset(s[1..]);
    }
  }

  /** Selection looks at the head row, then at the rest. */
  lemma FilterCons<T(!new)>(x: T, s: seq<T>, p: T -> bool)
    ensures Filter([x] + s, p) == (if p(x) then [x] else []) + Filter(s, p)
  {
    assert ([x] + s)[1..] == s;
  }

  /** The first row a selection keeps is the first row satisfying the
      mask. */
  lemma {:induction false} FilterFirst<T(!new)>(s: seq<T>, p: T -> bool, i: int)
    requires 0 <= i < |s| && p(s[i])
    requires forall k :: 0 <= k < i ==> !p(s[k])
    ensures |Filter(s, p)| > 0 && Filter(s, p)[0] == s[i]
  {
    if i > 0 {
      FilterFirst(s[1..], p, i - 1);
    }
  }

  /** Selecting twice is selecting once by the conjunction of the masks. */
  lemma {:induction false} FilterFilter<T(!new)>(s: seq<T>, p: T -> bool, q: T -> bool, both: T -> bool)
    requires forall x :: both(x) == (p(x) && q(x))
    ensures Filter(Filter(s, p), q) == Filter(s, both)
  {
    if |s| > 0 {
      FilterFilter(s[1..], p, q, both);
      var h := if p(s[0]) then [s[0]] else [];
      assert Filter(s, p) == h + Filter(s[1..], p);
      FilterConcat(h, Filter(s[1..], p), q);
    }
  }

  /** Selection distributes over concatenation, so it keeps relative order:
      together with the one-row case this pins Filter down completely. */
  lemma {:induction false} FilterConcat<T(!new)>(a: seq<T>, b: seq<T>, p: T -> bool)
    ensures Filter(a + b, p) == Filter(a, p) + Filter(b, p)
  {
    if |a| == 0 {
      assert a + b == b;
    } else {
      var h := if p(a[0]) then [a[0]] else [];
      assert (a + b)[0] == a[0];
      assert (a + b)[1..] == a[1..] + b;
      FilterConcat(a[1..], b, p);
      assert Filter(a + b, p) == h + Filter(a[1..] + b, p);
      assert Filter(a, p) == h + Filter(a[1..], p);
    }
  }

  /** A selection whose mask holds everywhere keeps every row. */
  lemma {:induction false} FilterAll<T(!new)>(s: seq<T>, p: T -> bool)
    requires forall x :: x in s ==> p(x)
    ensures Filter(s, p) == s
  {
    if |s| > 0 {
      FilterAll(s[1..], p);
      assert [s[0]] + s[1..] == s;
    }
  }

  /** Selection keeps relative order: any relation holding between every
      earlier and later row of `s` still holds in the selection. */
  lemma {:induction false} FilterPairwise<T(!new)>(s: seq<T>, p: T -> bool, rel: (T, T) -> bool)
    requires forall i, j :: 0 <= i < j < |s| ==> rel(s[i], s[j])
    ensures forall i, j :: 0 <= i < j < |Filter(s, p)| ==> rel(Filter(s, p)[i], Filter(s, p)[j])
  {
    if |s| > 0 {
      var rest := Filter(s[1..], p);
      FilterPairwise(s[1..], p, rel);
      if p(s[0]) {
        var r := Filter(s, p);
        assert r == [s[0]] + rest;
        forall j | 1 <= j < |r| ensures rel(s[0], r[j]) {
          assert r[j] in s[1..];
          var k :| 0 <= k < |s[1..]| && s[1..][k] == r[j];
          assert s[k + 1] == r[j];
        }
      }
    }
  }
}

=== FILE: tables.dfy ===
/** The two base tables of the collector, the movie-only load and the two
    merges on `tconst` the queries use.

    Every column of the title table is read as text; a cell pandas reads as
    NA is `None`. The dataset's `\N` token is NOT one of pandas' NA markers,
    so it arrives as the literal two-character string. */
module Tables {
  import opened Wrappers
  import opened Text
  import opened Seqs

  type Cell = Option<String>

  /** One row of title.basics.tsv (the columns the collector reads). */
  datatype TitleRow = TitleRow(
    tconst: String,
    titleType: Cell,
    primaryTitle: Cell,
    originalTitle: Cell,
    startYear: Cell,
    runtimeMinutes: Cell,
    genres: Cell)

  /** One row of title.ratings.tsv. */
  datatype RatingRow = RatingRow(tconst: String, averageRating: real, numVotes: nat)

  /** One row of a merge: the title row and, after a left merge, possibly no
      rating (the rating columns are NaN). */
  datatype JoinedRow = JoinedRow(title: TitleRow, rating: Option<RatingRow>)

  datatype LoadError = BasicsNotFound | RatingsNotFound

  /** The loaded tables: title rows of kind movie, and all ratings. */
  datatype Tables = Tables(movies: seq<TitleRow>, ratings: seq<RatingRow>)

  predicate IsMovie(t: TitleRow) {
    t.titleType == Some("movie")
  }

  /** Loading: a missing file (`None`) raises; the basics file is checked
      first. Title rows are cut down to `titleType == 'movie'`, keeping their
      order; ratings are kept whole. */
  function LoadDatasets(basics: Option<seq<TitleRow>>, ratings: Option<seq<RatingRow>>): (r: Result<Tables, LoadError>)
    ensures basics.None? ==> r == Err(BasicsNotFound)
    ensures basics.Some? && ratings.None? ==> r == Err(RatingsNotFound)
    ensures r.Ok? <==> basics.Some? && ratings.Some?
    ensures r.Ok? ==> r.value.ratings == ratings.value
    ensures r.Ok? ==> forall t :: t in r.value.movies <==> t in basics.value && IsMovie(t)
    ensures r.Ok? ==> forall t :: multiset(r.value.movies)[t] == if IsMovie(t) then multiset(basics.value)[t] else 0
  {
    if basics.None? then Err(BasicsNotFound)
    else if ratings.None? then Err(RatingsNotFound)
    else
      forall t ensures multiset(Filter(basics.value, IsMovie))[t] == if IsMovie(t) then multiset(basics.value)[t] else 0 {
        FilterCount(basics.value, IsMovie, t);
      }
      Ok(Tables(Filter(basics.value, IsMovie), ratings.value))
  }

  /** The rating rows sharing `id`. */
  function RatingsFor(id: String, ratings: seq<RatingRow>): (r: seq<RatingRow>)
    ensures forall x :: x in r <==> x in ratings && x.tconst == id
  {
    Filter(ratings, (x: RatingRow) => x.tconst == id)
  }

  function Pair(t: TitleRow, ms: seq<RatingRow>): (r: seq<JoinedRow>)
    ensures forall j :: j in r <==> j.title == t && j.rating.Some? && j.rating.value in ms
  {
    if |ms| == 0 then []
    else [JoinedRow(t, Some(ms[0]))] + Pair(t, ms[1..])
  }

  /** `pd.merge(movies, ratings, on='tconst', how='inner')`: one row per
      matching (title, rating) pair, in title order. */
  function InnerJoin(movies: seq<TitleRow>, ratings: seq<RatingRow>): (r: seq<JoinedRow>)
    ensures forall j :: j in r <==>
      j.title in movies && j.rating.Some? && j.rating.value in ratings
      && j.rating.value.tconst == j.title.tconst
  {
    if |movies| == 0 then []
    else
      var t := movies[0];
      assert movies == [t] + movies[1..];
      Pair(t, RatingsFor(t.tconst, ratings)) + InnerJoin(movies[1..], ratings)
  }

  /** A left-merge row is either a true match, or an unrated title that has
      no rating row at all. */
  predicate LeftMatch(j: JoinedRow, ratings: seq<RatingRow>) {
    match j.rating
    case Some(x) => x in ratings && x.tconst == j.title.tconst
    case None => forall x :: x in ratings ==> x.tconst != j.title.tconst
  }

  /** The rows of one title in a left merge: its matches, or the title alone
      with no rating. */
  function LeftRows(t: TitleRow, ratings: seq<RatingRow>): (r: seq<JoinedRow>)
    ensures forall j :: j in r <==> j.title == t && LeftMatch(j, ratings)
  {
    var ms := RatingsFor(t.tconst, ratings);
    if |ms| == 0 then [JoinedRow(t, None)] else Pair(t, ms)
  }

  /** `pd.merge(movies, ratings, on='tconst', how='left')`: like the inner
      merge, except that a title without any rating is kept once, unrated. */
  function LeftJoin(movies: seq<TitleRow>, ratings: seq<RatingRow>): (r: seq<JoinedRow>)
    ensures forall j :: j in r <==> j.title in movies && LeftMatch(j, ratings)
  {
    if |movies| == 0 then []
    else
      assert movies == [movies[0]] + movies[1..];
      LeftRows(movies[0], ratings) + LeftJoin(movies[1..], ratings)
  }

  /** No title is lost by a left merge. */
  lemma LeftJoinKeepsTitles(movies: seq<TitleRow>, ratings: seq<RatingRow>, t: TitleRow)
    requires t in movies
    ensures exists j :: j in LeftJoin(movies, ratings) && j.title == t
  {
    var ms := RatingsFor(t.tconst, ratings);
    if |ms| == 0 {
      forall x | x in ratings ensures x.tconst != t.tconst {
        assert x !in ms;
      }
      assert LeftMatch(JoinedRow(t, None), ratings);
      assert JoinedRow(t, None) in LeftJoin(movies, ratings);
    } else {
      assert ms[0] in ms;
      assert LeftMatch(JoinedRow(t, Some(ms[0])), ratings);
      assert JoinedRow(t, Some(ms[0])) in LeftJoin(movies, ratings);
    }
  }

  /** A title paired with its matches yields each match as often as it
      occurs. */
  lemma {:induction false} PairCount(t: TitleRow, ms: seq<RatingRow>, j: JoinedRow)
    ensures multiset(Pair(t, ms))[j] == if j.title == t && j.rating.Some? then multiset(ms)[j.rating.value] else 0
  {
    if |ms| > 0 {
      assert ms == [ms[0]] + ms[1..];
      PairCount(t, ms[1..], j);
    }
  }

  /** The ratings of `id` keep every copy of a matching rating row. */
  lemma RatingsForCount(id: String, ratings: seq<RatingRow>, x: RatingRow)
    ensures multiset(RatingsFor(id, ratings))[x] == if x.tconst == id then multiset(ratings)[x] else 0
  {
    FilterCount(ratings, (y: RatingRow) => y.tconst == id, x);
  }

  /** The inner merge yields a (title, rating) pair with matching keys as
      many times as the title occurs times the rating occurs, and nothing
      else: duplicates on either side multiply. */
  lemma {:induction false} InnerJoinCount(movies: seq<TitleRow>, ratings: seq<RatingRow>, j: JoinedRow)
    ensures multiset(InnerJoin(movies, ratings))[j] ==
      if j.rating.Some? && j.rating.value.tconst == j.title.tconst
      then multiset(movies)[j.title] * multiset(ratings)[j.rating.value] else 0
  {
    if |movies| > 0 {
      var t := movies[0];
      var head := Pair(t, RatingsFor(t.tconst, ratings));
      var tail := InnerJoin(movies[1..], ratings);
      InnerJoinCons(movies, ratings);
      CountConcat(head, tail, j);
      InnerJoinCount(movies[1..], ratings, j);
      InnerRowsCount(t, ratings, j);
      CountCons(movies, j.title);
      JoinStep(multiset(InnerJoin(movies, ratings))[j], multiset(head)[j], multiset(tail)[j],
        multiset(movies[1..])[j.title], if j.rating.Some? then multiset(ratings)[j.rating.value] else 0,
        j.rating.Some? && j.rating.value.tconst == j.title.tconst, j.title == t);
    }
  }

  /** One title's rows of an inner merge, counted. */
  lemma InnerRowsCount(t: TitleRow, ratings: seq<RatingRow>, j: JoinedRow)
    ensures multiset(Pair(t, RatingsFor(t.tconst, ratings)))[j] ==
      if j.title == t && j.rating.Some? && j.rating.value.tconst == t.tconst then multiset(ratings)[j.rating.value] else 0
  {
    PairCount(t, RatingsFor(t.tconst, ratings), j);
    if j.rating.Some? {
      RatingsForCount(t.tconst, ratings, j.rating.value);
    }
  }

  lemma InnerJoinCons(movies: seq<TitleRow>, ratings: seq<RatingRow>)
    requires |movies| > 0
    ensures InnerJoin(movies, ratings) == Pair(movies[0], RatingsFor(movies[0].tconst, ratings)) + InnerJoin(movies[1..], ratings)
  {
  }

  lemma InnerJoinHead(t: TitleRow, rest: seq<TitleRow>, ratings: seq<RatingRow>)
    ensures InnerJoin([t] + rest, ratings) == Pair(t, RatingsFor(t.tconst, ratings)) + InnerJoin(rest, ratings)
  {
    assert ([t] + rest)[1..] == rest;
  }

  lemma LeftJoinHead(t: TitleRow, rest: seq<TitleRow>, ratings: seq<RatingRow>)
    ensures LeftJoin([t] + rest, ratings) == LeftRows(t, ratings) + LeftJoin(rest, ratings)
  {
    assert ([t] + rest)[1..] == rest;
  }

  lemma LeftJoinCons(movies: seq<TitleRow>, ratings: seq<RatingRow>)
    requires |movies| > 0
    ensures LeftJoin(movies, ratings) == LeftRows(movies[0], ratings) + LeftJoin(movies[1..], ratings)
  {
  }

  lemma CountConcat<T>(x: seq<T>, y: seq<T>, e: T)
    ensures multiset(x + y)[e] == multiset(x)[e] + multiset(y)[e]
  {
  }

  lemma CountCons<T>(s: seq<T>, e: T)
    requires |s| > 0
    ensures multiset(s)[e] == (if s[0] == e then 1 else 0) + multiset(s[1..])[e]
  {
    assert s == [s[0]] + s[1..];
  }

  /** The arithmetic of one step of `InnerJoinCount`. */
  lemma JoinStep(total: int, head: int, tail: int, b: int, c: int, cond: bool, own: bool)
    requires total == head + tail
    requires head == (if own && cond then c else 0)
    requires tail == (if cond then b * c else 0)
    ensures total == (if cond then ((if own then 1 else 0) + b) * c else 0)
  {
    if cond && own {
      MulDistributes(1, b, c);
    }
  }

  /** The arithmetic of one step of `LeftJoinCount`. */
  lemma LeftStep(total: int, head: int, tail: int, b: int, c: int, m: bool, rated: bool, own: bool)
    requires total == head + tail
    requires head == (if !own || !m then 0 else if rated then c else 1)
    requires tail == (if !m then 0 else if rated then b * c else b)
    ensures total == (if !m then 0 else if rated then ((if own then 1 else 0) + b) * c else (if own then 1 else 0) + b)
  {
    if m && rated && own {
      MulDistributes(1, b, c);
    }
  }

  lemma MulDistributes(a: int, b: int, c: int)
    ensures (a + b) * c == a * c + b * c
  {
  }

  /** The left merge counts as the inner merge for rated rows, and keeps a
      title without any rating as often as it occurs, unrated. */
  lemma {:induction false} LeftJoinCount(movies: seq<TitleRow>, ratings: seq<RatingRow>, j: JoinedRow)
    ensures multiset(LeftJoin(movies, ratings))[j] ==
      if !LeftMatch(j, ratings) then 0
      else if j.rating.Some? then multiset(movies)[j.title] * multiset(ratings)[j.rating.value]
      else multiset(movies)[j.title]
  {
    if |movies| > 0 {
      var t := movies[0];
      var head := LeftRows(t, ratings);
      var tail := LeftJoin(movies[1..], ratings);
      LeftJoinCons(movies, ratings);
      CountConcat(head, tail, j);
      LeftJoinCount(movies[1..], ratings, j);
      LeftRowsCount(t, ratings, j);
      CountCons(movies, j.title);
      LeftStep(multiset(LeftJoin(movies, ratings))[j], multiset(head)[j], multiset(tail)[j],
        multiset(movies[1..])[j.title], if j.rating.Some? then multiset(ratings)[j.rating.value] else 0,
        LeftMatch(j, ratings), j.rating.Some?, j.title == t);
    }
  }

  /** One title's rows of a left merge, counted. */
  lemma LeftRowsCount(t: TitleRow, ratings: seq<RatingRow>, j: JoinedRow)
    ensures multiset(LeftRows(t, ratings))[j] ==
      if j.title != t || !LeftMatch(j, ratings) then 0
      else if j.rating.Some? then multiset(ratings)[j.rating.value]
      else 1
  {
    var ms := RatingsFor(t.tconst, ratings);
    if |ms| == 0 {
      if j.title == t && j.rating.None? {
        forall x | x in ratings ensures x.tconst != t.tconst {
          assert x !in ms;
        }
      }
      if j.rating.Some? && j.rating.value.tconst == t.tconst {
        RatingsForCount(t.tconst, ratings, j.rating.value);
      }
    } else {
      PairCount(t, ms, j);
      if j.rating.Some? {
        RatingsForCount(t.tconst, ratings, j.rating.value);
      } else if j.title == t {
        assert ms[0] in ratings && ms[0].tconst == t.tconst;
      }
    }
  }

  /** The inner merge keeps the left table's order: merging a
      concatenation is merging each part in turn. */
  lemma {:induction false} InnerJoinConcat(a: seq<TitleRow>, b: seq<TitleRow>, ratings: seq<RatingRow>)
    ensures InnerJoin(a + b, ratings) == InnerJoin(a, ratings) + InnerJoin(b, ratings)
  {
    if |a| == 0 {
      assert a + b == b;
    } else {
      var t := a[0];
      var p := Pair(t, RatingsFor(t.tconst, ratings));
      assert a + b == [t] + (a[1..] + b) && a == [t] + a[1..];
      InnerJoinHead(t, a[1..] + b, ratings);
      InnerJoinHead(t, a[1..], ratings);
      InnerJoinConcat(a[1..], b, ratings);
      Regroup(InnerJoin(a + b, ratings), p, InnerJoin(a[1..] + b, ratings),
        InnerJoin(a, ratings), InnerJoin(a[1..], ratings), InnerJoin(b, ratings));
    }
  }

  /** One step of the concatenation lemmas: a head part followed by the
      merged rest regroups as the merged prefix followed by the suffix. */
  lemma Regroup<T>(whole: seq<T>, p: seq<T>, rest: seq<T>, left: seq<T>, leftRest: seq<T>, right: seq<T>)
    requires whole == p + rest && rest == leftRest + right && left == p + leftRest
    ensures whole == left + right
  {
    assert p + (leftRest + right) == (p + leftRest) + right;
  }

  /** The left merge keeps the left table's order in the same way. */
  lemma {:induction false} LeftJoinConcat(a: seq<TitleRow>, b: seq<TitleRow>, ratings: seq<RatingRow>)
    ensures LeftJoin(a + b, ratings) == LeftJoin(a, ratings) + LeftJoin(b, ratings)
  {
    if |a| == 0 {
      assert a + b == b;
    } else {
      var p := LeftRows(a[0], ratings);
      assert a + b == [a[0]] + (a[1..] + b) && a == [a[0]] + a[1..];
      LeftJoinHead(a[0], a[1..] + b, ratings);
      LeftJoinHead(a[0], a[1..], ratings);
      LeftJoinConcat(a[1..], b, ratings);
      Regroup(LeftJoin(a + b, ratings), p, LeftJoin(a[1..] + b, ratings),
        LeftJoin(a, ratings), LeftJoin(a[1..], ratings), LeftJoin(b, ratings));
    }
  }

  /** The inner merge is the rated part of the left merge. */
  lemma InnerIsRatedLeft(movies: seq<TitleRow>, ratings: seq<RatingRow>, j: JoinedRow)
    ensures j in InnerJoin(movies, ratings) <==> j in LeftJoin(movies, ratings) && j.rating.Some?
  {
  }
}

=== FILE: text.dfy ===
/** The handful of Python string operations the query engine and the schema
    normaliser rely on: `strip`, `lower`, substring search, `split(',')`,
    `int()` on a string and `str()` of an integer, and the code-point order
    Python uses to compare strings. */
module Text {
  import opened Wrappers

  type String = seq<char>

  // ---------------------------------------------------------------------
  // Whitespace and str.strip()
  // ---------------------------------------------------------------------

  /** The characters Python's `str.isspace` accepts. */
  predicate IsSpace(c: char) {
    var n := c as int;
    (9 <= n <= 13) || (28 <= n <= 32) || n == 0x85 || n == 0xA0 || n == 0x1680
    || (0x2000 <= n <= 0x200A) || n == 0x2028 || n == 0x2029 || n == 0x202F
    || n == 0x205F || n == 0x3000
  }

  /** `s.lstrip()`: a suffix of `s` whose dropped prefix is all whitespace. */
  function TrimLeft(s: String): (r: String)
    ensures |r| <= |s| && r == s[|s| - |r|..]
    ensures r == [] || !IsSpace(r[0])
    ensures forall i :: 0 <= i < |s| - |r| ==> IsSpace(s[i])
  {
    if |s| > 0 && IsSpace(s[0]) then TrimLeft(s[1..]) else s
  }

  /** `s.rstrip()`: a prefix of `s` whose dropped suffix is all whitespace. */
  function TrimRight(s: String): (r: String)
    ensures |r| <= |s| && r == s[..|r|]
    ensures r == [] || !IsSpace(r[|r| - 1])
    ensures forall i :: |r| <= i < |s| ==> IsSpace(s[i])
  {
    if |s| > 0 && IsSpace(s[|s| - 1]) then TrimRight(s[..|s| - 1]) else s
  }

  /** Number of leading whitespace characters of `s`. */
  function Leading(s: String): nat {
    |s| - |TrimLeft(s)|
  }

  /** Python's `str.strip()`: the slice of `s` left after removing
      whitespace at both ends. */
  function Strip(s: String): (r: String)
    ensures Leading(s) + |r| <= |s|
    ensures r == s[Leading(s)..Leading(s) + |r|]
    ensures r == [] || (!IsSpace(r[0]) && !IsSpace(r[|r| - 1]))
    ensures forall i :: 0 <= i < |s| && !(Leading(s) <= i < Leading(s) + |r|) ==> IsSpace(s[i])
  {
    TrimRight(TrimLeft(s))
  }

  /** A string without surrounding whitespace is its own strip. */
  lemma StripNoop(s: String)
    requires s == [] || (!IsSpace(s[0]) && !IsSpace(s[|s| - 1]))
    ensures Strip(s) == s
  {
  }

  /** Stripping twice is stripping once. */
  lemma StripIdempotent(s: String)
    ensures Strip(Strip(s)) == Strip(s)
  {
    StripNoop(Strip(s));
  }

  // ---------------------------------------------------------------------
  // Case folding and substring search
  // ---------------------------------------------------------------------

  /** Lower-casing of one character (ASCII letters only). */
  function LowerChar(c: char): char {
    if 'A' <= c <= 'Z' then (c as int + 32) as char else c
  }

  /** `s.lower()`, character by character. */
  function Lower(s: String): (r: String)
    ensures |r| == |s|
    ensures forall i :: 0 <= i < |s| ==> r[i] == LowerChar(s[i])
  {
    seq(|s|, i requires 0 <= i < |s| => LowerChar(s[i]))
  }

  /** Lower-casing is idempotent, so comparing lowered values is insensitive
      to lowering either side first. */
  lemma LowerIdempotent(s: String)
    ensures Lower(Lower(s)) == Lower(s)
  {
  }

  function LowerAll(xs: seq<String>): (r: seq<String>)
    ensures |r| == |xs|
    ensures forall i :: 0 <= i < |xs| ==> r[i] == Lower(xs[i])
  {
    seq(|xs|, i requires 0 <= i < |xs| => Lower(xs[i]))
  }

  predicate IsPrefix(p: String, s: String) {
    |p| <= |s| && s[..|p|] == p
  }

  /** `p in s` for Python strings: `p` occurs as a contiguous block of `s`. */
  predicate Contains(s: String, p: String)
    decreases |s|
  {
    IsPrefix(p, s) || (|s| > 0 && Contains(s[1..], p))
  }

  /** `p` occurs in `s` starting at index `k`. */
  predicate OccursAt(s: String, p: String, k: int) {
    0 <= k && k + |p| <= |s| && s[k..k + |p|] == p
  }

  /** Contains agrees with the "some slice equals p" reading. */
  lemma {:induction false} ContainsAt(s: String, p: String)
    ensures Contains(s, p) <==> exists k :: OccursAt(s, p, k)
  {
    if IsPrefix(p, s) {
      assert OccursAt(s, p, 0);
    } else if |s| > 0 {
      ContainsAt(s[1..], p);
      if Contains(s[1..], p) {
        var k :| OccursAt(s[1..], p, k);
        assert s[1..][k..k + |p|] == s[k + 1..k + 1 + |p|];
        assert OccursAt(s, p, k + 1);
      }
      if exists k :: OccursAt(s, p, k) {
        var k :| OccursAt(s, p, k);
        assert k != 0;
        assert s[1..][k - 1..k - 1 + |p|] == s[k..k + |p|];
        assert OccursAt(s[1..], p, k - 1);
      }
    }
  }

  /** A string contains every block written inside it. */
  lemma ContainsInfix(a: String, p: String, b: String)
    ensures Contains(a + p + b, p)
  {
    ContainsAt(a + p + b, p);
    assert (a + p + b)[|a|..|a| + |p|] == p;
    assert OccursAt(a + p + b, p, |a|);
  }

  /** pandas `str.contains(p, case=False)` on a present cell, read as a
      literal (non-regex) search after lower-casing both sides. */
  predicate ContainsIgnoreCase(s: String, p: String) {
    Contains(Lower(s), Lower(p))
  }

  lemma LowerConcat(a: String, b: String)
    ensures Lower(a + b) == Lower(a) + Lower(b)
  {
  }

  /** Whatever the case it is written in, a block written inside a string
      is found by the case-blind search. */
  lemma ContainsIgnoreCaseInfix(a: String, p: String, b: String)
    ensures ContainsIgnoreCase(a + p + b, p)
  {
    LowerConcat(a + p, b);
    LowerConcat(a, p);
    ContainsInfix(Lower(a), Lower(p), Lower(b));
  }

  // ---------------------------------------------------------------------
  // str.split(sep) and its inverse sep.join(...)
  // ---------------------------------------------------------------------

  /** `sep.join(parts)` for a one-character separator. */
  function Join(parts: seq<String>, sep: char): String {
    if |parts| == 0 then []
    else if |parts| == 1 then parts[0]
    else parts[0] + [sep] + Join(parts[1..], sep)
  }

  /** Python's `s.split(sep)` for a one-character separator: never empty,
      no part contains the separator, and one more part than separators. */
  function Split(s: String, sep: char): (parts: seq<String>)
    ensures |parts| == multiset(s)[sep] + 1
    ensures forall i :: 0 <= i < |parts| ==> sep !in parts[i]
  {
    if |s| == 0 then [[]]
    else
      var rest := Split(s[1..], sep);
      assert s == [s[0]] + s[1..];
      assert multiset(s) == multiset{s[0]} + multiset(s[1..]);
      if s[0] == sep then [[]] + rest
      else [[s[0]] + rest[0]] + rest[1..]
  }

  /** One step of the split: a leading separator closes an empty part, any
      other character opens the first part. */
  lemma SplitStep(s: String, sep: char)
    requires |s| > 0
    ensures s[0] == sep ==> Split(s, sep) == [[]] + Split(s[1..], sep)
    ensures s[0] != sep ==> Split(s, sep) == [[s[0]] + Split(s[1..], sep)[0]] + Split(s[1..], sep)[1..]
  {
  }

  lemma JoinSplitSep(s: String, sep: char)
    requires |s| > 0 && s[0] == sep
    requires Join(Split(s[1..], sep), sep) == s[1..]
    ensures Join(Split(s, sep), sep) == s
  {
    var rest := Split(s[1..], sep);
    assert s == [s[0]] + s[1..];
    assert Split(s, sep) == [[]] + rest;
    assert Join([[]] + rest, sep) == [sep] + Join(rest, sep);
  }

  /** Gluing a character that is not the separator onto the first part
      of a split prepends it to the join. */
  lemma JoinGlue(c: char, rest: seq<String>, sep: char)
    requires |rest| >= 1
    ensures Join([[c] + rest[0]] + rest[1..], sep) == [c] + Join(rest, sep)
  {
    var parts := [[c] + rest[0]] + rest[1..];
    assert parts[1..] == rest[1..];
    if |rest| > 1 {
      assert Join(parts, sep) == [c] + (rest[0] + [sep] + Join(rest[1..], sep));
    }
  }

  lemma JoinSplitOther(s: String, sep: char)
    requires |s| > 0 && s[0] != sep
    requires Join(Split(s[1..], sep), sep) == s[1..]
    ensures Join(Split(s, sep), sep) == s
  {
    var rest := Split(s[1..], sep);
    assert s == [s[0]] + s[1..];
    assert Split(s, sep) == [[s[0]] + rest[0]] + rest[1..];
    JoinGlue(s[0], rest, sep);
  }

  /** Joining the parts back with the separator gives `s`. */
  lemma {:induction false} JoinSplit(s: String, sep: char)
    ensures Join(Split(s, sep), sep) == s
  {
    if |s| == 0 {
      assert Split(s, sep) == [[]];
    } else {
      JoinSplit(s[1..], sep);
      if s[0] == sep {
        JoinSplitSep(s, sep);
      } else {
        JoinSplitOther(s, sep);
      }
    }
  }

  /** Splitting a string that holds no separator gives it back whole. */
  lemma {:induction false} SplitNoSep(p: String, sep: char)
    requires sep !in p
    ensures Split(p, sep) == [p]
  {
    if |p| > 0 {
      SplitNoSep(p[1..], sep);
      assert [p[0]] + p[1..] == p;
    }
  }

  /** Splitting `p + sep + x` where `p` holds no separator peels off `p`. */
  lemma {:induction false} SplitCons(p: String, sep: char, x: String)
    requires sep !in p
    ensures Split(p + [sep] + x, sep) == [p] + Split(x, sep)
  {
    if |p| == 0 {
      assert p + [sep] + x == [sep] + x;
      assert ([sep] + x)[1..] == x;
    } else {
      var s := p + [sep] + x;
      assert s[1..] == p[1..] + [sep] + x;
      SplitCons(p[1..], sep, x);
      assert [p[0]] + p[1..] == p;
    }
  }

  /** The other direction of the round trip: joining separator-free parts
      and splitting again gives the parts back. */
  lemma {:induction false} SplitJoin(parts: seq<String>, sep: char)
    requires |parts| >= 1
    requires forall i :: 0 <= i < |parts| ==> sep !in parts[i]
    ensures Split(Join(parts, sep), sep) == parts
  {
    if |parts| == 1 {
      SplitNoSep(parts[0], sep);
    } else {
      SplitJoin(parts[1..], sep);
      SplitCons(parts[0], sep, Join(parts[1..], sep));
      assert [parts[0]] + parts[1..] == parts;
    }
  }

  // ---------------------------------------------------------------------
  // int(str) and str(int)
  // ---------------------------------------------------------------------

  predicate IsDigit(c: char) {
    '0' <= c <= '9'
  }

  /** A non-empty run of ASCII digits; the model of `str.isnumeric()`. */
  predicate IsDigits(s: String) {
    |s| > 0 && forall i :: 0 <= i < |s| ==> IsDigit(s[i])
  }

  function DigitsValue(s: String): nat
    requires forall i :: 0 <= i < |s| ==> IsDigit(s[i])
  {
    if |s| == 0 then 0
    else
      assert IsDigit(s[|s| - 1]);
      DigitsValue(s[..|s| - 1]) * 10 + (s[|s| - 1] as int - '0' as int)
  }

  function DigitChar(d: nat): (c: char)
    requires d < 10
    ensures IsDigit(c) && c as int - '0' as int == d
  {
    ('0' as int + d) as char
  }

  /** `str(n)` for a natural number. */
  function ShowNat(n: nat): (r: String)
    ensures IsDigits(r)
  {
    if n < 10 then [DigitChar(n)] else ShowNat(n / 10) + [DigitChar(n % 10)]
  }

  /** `str(i)` for an integer. */
  function ShowInt(i: int): String {
    if i < 0 then "-" + ShowNat(-i) else ShowNat(i)
  }

  /** `str(i)` ends in a digit, so it is never the `\\N` token. */
  lemma ShowIntNotNull(i: int)
    ensures ShowInt(i) != "\\N"
  {
    var s := ShowInt(i);
    assert IsDigits(ShowNat(if i < 0 then -i else i));
    assert IsDigit(s[|s| - 1]);
  }

  /** Python's `int(s)` on a string: surrounding whitespace, an optional
      sign, then one or more ASCII digits; anything else raises (`None`). */
  function ParseInt(s: String): Option<int> {
    var t := Strip(s);
    if IsDigits(t) then Some(DigitsValue(t))
    else if |t| > 1 && (t[0] == '-' || t[0] == '+') && IsDigits(t[1..]) then
      var v: int := DigitsValue(t[1..]);
      Some(if t[0] == '-' then -v else v)
    else None
  }

  lemma {:induction false} DigitsValueShowNat(n: nat)
    ensures DigitsValue(ShowNat(n)) == n
  {
    if n >= 10 {
      DigitsValueShowNat(n / 10);
      var s := ShowNat(n / 10) + [DigitChar(n % 10)];
      assert s[..|s| - 1] == ShowNat(n / 10);
    }
  }

  /** A run of ASCII digits parses to its decimal value. */
  lemma ParseDigits(s: String)
    requires IsDigits(s)
    ensures ParseInt(s) == Some(DigitsValue(s))
  {
    assert IsDigit(s[0]) && IsDigit(s[|s| - 1]);
    StripNoop(s);
  }

  /** `int(str(i)) == i`. */
  lemma ParseShowInt(i: int)
    ensures ParseInt(ShowInt(i)) == Some(i)
  {
    if i < 0 {
      ParseShowNegative(-i);
    } else {
      DigitsValueShowNat(i);
      ParseDigits(ShowNat(i));
    }
  }

  lemma ParseShowNegative(n: nat)
    requires n > 0
    ensures ParseInt("-" + ShowNat(n)) == Some(-(n as int))
  {
    var d := ShowNat(n);
    DigitsValueShowNat(n);
    var t := "-" + d;
    assert t[1..] == d;
    assert t[|t| - 1] == d[|d| - 1];
    StripNoop(t);
    assert !IsDigits(t) by { assert !IsDigit(t[0]); }
  }

  // ---------------------------------------------------------------------
  // float(str)
  // ---------------------------------------------------------------------

  function Pow10(n: nat): (p: nat)
    ensures p >= 1
  {
    if n == 0 then 1 else 10 * Pow10(n - 1)
  }

  /** A run of ASCII digits, possibly empty. */
  predicate AllDigits(s: String) {
    forall i :: 0 <= i < |s| ==> IsDigit(s[i])
  }

  /** The value of digits `a`, a point, and digits `b`. */
  function Decimal(a: String, b: String): real
    requires AllDigits(a) && AllDigits(b)
  {
    DigitsValue(a) as real + DigitsValue(b) as real / Pow10(|b|) as real
  }

  /** Unsigned decimal text: digits with at most one point and at least
      one digit. */
  function ParseUnsigned(body: String): Option<real> {
    var parts := Split(body, '.');
    if |parts| == 1 && IsDigits(parts[0]) then Some(DigitsValue(parts[0]) as real)
    else if |parts| == 2 && |parts[0]| + |parts[1]| > 0 && AllDigits(parts[0]) && AllDigits(parts[1]) then
      Some(Decimal(parts[0], parts[1]))
    else None
  }

  /** `float(s)` on plain decimal text: surrounding whitespace, an optional
      sign, then unsigned decimal text. */
  function ParseReal(s: String): Option<real> {
    var t := Strip(s);
    var sign := if |t| > 0 && t[0] == '-' then -1.0 else 1.0;
    var body := if |t| > 0 && (t[0] == '-' || t[0] == '+') then t[1..] else t;
    match ParseUnsigned(body)
    case Some(x) => Some(sign * x)
    case None => None
  }

  /** A run of digits has no point, so it splits into itself. */
  lemma SplitDigits(t: String)
    requires forall i :: 0 <= i < |t| ==> IsDigit(t[i])
    ensures Split(t, '.') == [t]
  {
    assert '.' !in t by {
      forall i | 0 <= i < |t| ensures t[i] != '.' {
        assert IsDigit(t[i]);
      }
    }
    SplitNoSep(t, '.');
  }

  /** A run of digits reads as its value. */
  lemma ParseUnsignedDigits(t: String)
    requires IsDigits(t)
    ensures ParseUnsigned(t) == Some(DigitsValue(t) as real)
  {
    SplitDigits(t);
  }

  /** Text starting with a digit reads as unsigned text. */
  lemma ParseRealDigitStart(s: String)
    requires |Strip(s)| > 0 && IsDigit(Strip(s)[0])
    ensures ParseReal(s) == ParseUnsigned(Strip(s))
  {
    var t := Strip(s);
    assert t[0] != '-' && t[0] != '+';
  }

  /** Text with a sign reads as its unsigned part, negated for `-`. */
  lemma ParseRealSigned(s: String)
    requires |Strip(s)| > 0 && (Strip(s)[0] == '-' || Strip(s)[0] == '+')
    requires ParseUnsigned(Strip(s)[1..]).Some?
    ensures Strip(s)[0] == '+' ==> ParseReal(s) == ParseUnsigned(Strip(s)[1..])
    ensures Strip(s)[0] == '-' ==> ParseReal(s) == Some(-ParseUnsigned(Strip(s)[1..]).value)
  {
    var t := Strip(s);
    var x := ParseUnsigned(t[1..]).value;
    assert ParseReal(s) == Some((if t[0] == '-' then -1.0 else 1.0) * x);
  }

  /** Integer text reads as the same number under `float`. */
  lemma ParseIntReal(s: String)
    ensures ParseInt(s).Some? ==> ParseReal(s) == Some(ParseInt(s).value as real)
  {
    var t := Strip(s);
    if IsDigits(t) {
      assert IsDigit(t[0]);
      ParseUnsignedDigits(t);
      ParseRealDigitStart(s);
    } else if |t| > 1 && (t[0] == '-' || t[0] == '+') && IsDigits(t[1..]) {
      ParseUnsignedDigits(t[1..]);
      ParseRealSigned(s);
    }
  }

  lemma DecimalSplit()
    ensures Split("90.5", '.') == ["90", "5"]
  {
    var a, b := "90", "5";
    assert '.' !in a && '.' !in b;
    SplitCons(a, '.', b);
    SplitNoSep(b, '.');
    assert a + ['.'] + b == "90.5";
  }

  lemma DecimalDigits()
    ensures DigitsValue("90") == 90 && DigitsValue("5") == 5
  {
    assert "90"[..1] == "9";
    assert "9"[..0] == [] && "5"[..0] == [];
  }

  lemma DecimalNotInt()
    ensures ParseInt("90.5").None?
  {
    var s := "90.5";
    StripNoop(s);
    assert !IsDigit(s[2]) && s[0] == '9';
  }

  /** Text with one point reads as its whole and fractional parts. */
  lemma ParseUnsignedPoint(s: String, a: String, b: String)
    requires Split(s, '.') == [a, b] && |a| + |b| > 0 && AllDigits(a) && AllDigits(b)
    ensures ParseUnsigned(s) == Some(Decimal(a, b))
  {
  }

  lemma DecimalValue()
    ensures AllDigits("90") && AllDigits("5") && Decimal("90", "5") == 90.5
  {
    DecimalDigits();
    assert Pow10(1) == 10;
  }

  lemma DecimalUnsigned()
    ensures ParseUnsigned("90.5") == Some(90.5)
  {
    DecimalSplit();
    DecimalValue();
    ParseUnsignedPoint("90.5", "90", "5");
  }

  lemma DecimalUnsignedOnly()
    ensures ParseReal("90.5") == ParseUnsigned("90.5")
  {
    var s := "90.5";
    StripNoop(s);
    assert IsDigit(s[0]);
    ParseRealDigitStart(s);
  }

  lemma DecimalReal()
    ensures ParseReal("90.5") == Some(90.5)
  {
    DecimalUnsignedOnly();
    DecimalUnsigned();
  }

  /** Decimal text: "90.5" is a number to `float` but not to `int`. */
  lemma DecimalText()
    ensures ParseReal("90.5") == Some(90.5)
    ensures ParseInt("90.5").None?
  {
    DecimalReal();
    DecimalNotInt();
  }

  // ---------------------------------------------------------------------
  // Code-point order of Python strings
  // ---------------------------------------------------------------------

  /** `a <= b` for Python strings: lexicographic by code point, a proper
      prefix sorting first. */
  predicate LexLe(a: String, b: String) {
    |a| == 0 || (|b| > 0 && (a[0] < b[0] || (a[0] == b[0] && LexLe(a[1..], b[1..]))))
  }

  lemma {:induction false} LexLeTotal(a: String, b: String)
    ensures LexLe(a, b) || LexLe(b, a)
  {
    if |a| > 0 && |b| > 0 && a[0] == b[0] {
      LexLeTotal(a[1..], b[1..]);
    }
  }

  lemma {:induction false} LexLeTrans(a: String, b: String, c: String)
    requires LexLe(a, b) && LexLe(b, c)
    ensures LexLe(a, c)
  {
    if |a| > 0 && a[0] == b[0] && b[0] == c[0] {
      LexLeTrans(a[1..], b[1..], c[1..]);
    }
  }

  lemma {:induction false} LexLeAntisym(a: String, b: String)
    requires LexLe(a, b) && LexLe(b, a)
    ensures a == b
  {
    if |a| > 0 {
      LexLeAntisym(a[1..], b[1..]);
      assert a == [a[0]] + a[1..];
      assert b == [b[0]] + b[1..];
    }
  }
}

=== FILE: wrappers.dfy ===
/** Optional values (a pandas cell that may be NA) and results (an operation
    that may raise). */
module Wrappers {

  datatype Option<+T> = None | Some(value: T) {

    /** The value, or `default` when absent. */
    function GetOr(default: T): T {
      if Some? then value else default
    }
  }

  datatype Result<+T, +E> = Ok(value: T) | Err(error: E)
}
